=== FILE: README.md ===
# Document assistant backend — a Dafny model

The backend lets a user upload PDF documents and ask questions about them. An uploaded file
goes through several steps:

- it is checked and stored in the upload directory, and a record for it is created in the
  document database;
- in the background, the text of its pages is extracted and cleaned;
- the text is cut into overlapping chunks of about 1,000 characters;
- each chunk is embedded, and the vectors go into a per-document inner-product index, with one
  chunk record per vector.

A question about a document works like this:

- the question is embedded and the document's index is searched;
- the results at or above a similarity threshold are ranked by score;
- the best three become numbered context sections of a prompt, under a 2,500-character
  budget;
- the last two chat turns are recalled in the system prompt;
- the language model's answer is returned and saved as a new turn of the document's history.

Documents can also be listed and filtered by name, paginated, summarised, searched across, read
chunk by chunk, and deleted together with their file, index and history.

The model has one module per part of the system:

- `Parsing`: the page cleaner, the page loop of the extractor, the preview and the file-type
  check.
- `Chunking`: the `TextChunker` class, with its paragraph, sentence and overlap rules.
- `VectorStore`: the `FaissVectorStore` and `VectorStoreManager` classes.
- `Indexing`: the `DocumentIndexer` class and the query processor.
- `Llm`: the prompt builders, the message list and the answer record.
- `Store`: the `Database` class, standing for the document and chat managers.
- `DocsRoutes`, `UploadRoutes` and `ChatRoutes`: the HTTP routes.

Several helper modules state the Python semantics the code relies on:

- `PyStr`: `str.strip`, `str.split`, `str.lower`, slicing with negative bounds, `rfind`.
- `Patterns`: the four regular expressions, written out as leftmost-greedy matchers, with
  `re.split` and `re.sub` over them.
- `Ranking`: the stable `sort(key=..., reverse=True)`.
- `Wrappers`: `Option` and `Result`.

Classes are used where the source updates objects in place. Loops are methods proved equal to
folds, and the properties are proved about the folds.

Some things the code does not compute itself are given as parameters:

- what a PDF contains (its pages' raw text, or the error opening it raised);
- the neighbours the FAISS index reports (`Knn`, constrained to at most the requested number of
  stored positions);
- whether the embedding model loads, and its dimension;
- whether encoding raises;
- whether files are saved or removed;
- the language model's reply (`Result<string, string>`);
- the ids and the upload date the database and the clock assign;
- which documents have a loaded index, and what a per-document search returns, for the routes
  that span every document.

Where the documented intent and the code differ, the model follows the code:

- A turn whose model call failed is still saved, with the error text as its answer.
- Results with equal scores keep the order the index reported them in. Python's sort is stable,
  so there is no tie-break on chunk id.
- The chunker the services share is `TextChunker()`, which uses size 1000 and overlap 200. The
  800/150 values in the settings are not used by it.
- `_clean_text` collapses every whitespace run, newlines included, into one space. Each page is
  therefore one line, so the paragraphs the chunker sees are the page texts between page
  markers.
- The document id `create_document` returns is not the object id used in the stored file's
  name.

## Model

| member | source | states |
|---|---|---|
| PyStr.Strip | backend/app/services/parsing.py:113 | `str.strip()`: the result is the text between the leading and the trailing whitespace runs, has no whitespace at either end, and is empty exactly when the text is blank |
| PyStr.StripOfStripped | backend/app/services/parsing.py:259 | stripping text that is already stripped changes nothing, so a chunk's content is stable under the second strip |
| PyStr.StripKeepsOccurrence | backend/app/services/parsing.py:239-248 | stripping a text keeps every non-blank part of it: the part, stripped, occurs in the stripped text |
| PyStr.Words | backend/app/services/parsing.py:60 | `str.split()` yields only non-empty words without whitespace |
| PyStr.SliceTo | backend/app/core/llm.py:169 | `s[:hi]` is a prefix of `s`: exactly `s[..hi]` for a bound inside the sequence, and all of `s` past its end |
| PyStr.SliceFrom | backend/app/services/parsing.py:194 | `s[lo:]` is a suffix of `s`; a negative bound keeps the last `min(-lo, len(s))` elements |
| PyStr.Slice | backend/app/api/routes/docs.py:72 | `s[lo:hi]` with Python's bound rules: a negative bound counts from the end, bounds are clamped to the length, and the result is exactly the elements between the two normalised bounds, empty when they cross |
| PyStr.RFind | backend/app/services/parsing.py:124 | `rfind` gives the last position of the character, or -1 exactly when it does not occur |
| PyStr.NatToString | backend/app/api/routes/chat.py:107 | `str(n)` of a natural number is a non-empty string of decimal digits |
| PyStr.NatToStringValue | backend/app/api/routes/chat.py:107 | the digits `str(n)` writes read back as n, so different chunk ids get different labels |
| Patterns.MatchAtLongest | backend/app/services/parsing.py:104-110 | the matcher finds a match at a position exactly when one exists, and no match there ends later (greedy semantics) |
| Patterns.SpaceRunLongest | backend/app/services/parsing.py:107 | `\s+` at a whitespace character matches exactly up to the end of its whitespace run |
| Patterns.BlankLineLongest | backend/app/services/parsing.py:110 | `\n\s*\n` is found exactly when it exists, runs to its last possible newline, and never starts away from a newline |
| Patterns.PageMarkerLongest | backend/app/services/parsing.py:221 | the page marker `--- PAGINA <digits> ---` has at most one match at a position, and the matcher finds it |
| Patterns.SentenceBreakLongest | backend/app/services/parsing.py:231 | `[.!?]+\s+` is found exactly when it exists and takes the longest punctuation-then-whitespace run |
| Patterns.SplitSpans | backend/app/services/parsing.py:221 | the pieces of `re.split` cover the text from the start to the end, contain no match, and are separated by exactly the leftmost matches |
| Patterns.Split | backend/app/services/parsing.py:221 | `re.split` yields at least one piece, and no piece contains a separator |
| Patterns.StripKeepsNoMatch | backend/app/services/parsing.py:224 | stripping a piece cannot create a separator in it |
| Patterns.SubFrom | backend/app/services/parsing.py:104-110 | `re.sub` on a text with no match returns the text unchanged |
| Patterns.Sub | backend/app/services/parsing.py:104-110 | `re.sub` is the identity on a text the pattern does not match |
| Parsing.CleanTextShape | backend/app/services/parsing.py:98-115 | a cleaned page is empty for empty input, stripped, free of control characters and newlines, and has only single spaces as whitespace |
| Parsing.ControlCharsRemoved | backend/app/services/parsing.py:104 | after the first substitution no control character is left |
| Parsing.SpaceRunsCollapsed | backend/app/services/parsing.py:107 | after the second substitution every whitespace character is a lone space, and no control character has come back |
| Parsing.NoBlankLineAfterCollapse | backend/app/services/parsing.py:110 | the blank-line substitution can no longer match once whitespace is collapsed, so it changes nothing |
| Parsing.ContentPreview | backend/app/services/parsing.py:117-129 | a text within the limit is its own preview; a longer one gives a prefix plus "...", at most `max_length + 3` long, cut after the last period past 70% of the limit, or at the limit when there is none |
| Parsing.PathName | backend/app/services/parsing.py:18 | the name of a path contains no '/' |
| Parsing.PathSuffix | backend/app/services/parsing.py:18 | `Path.suffix` is empty, or a dot followed by at least one character and no further dot |
| Parsing.SupportedFileIff | backend/app/services/parsing.py:16-18 | a file is supported exactly when its name has at least one character before a final ".pdf" in any case |
| Parsing.SupportedNameIff | backend/app/services/parsing.py:18 | for a bare name, the suffix rule and the ".pdf"-ending rule agree in both directions |
| Parsing.KeptPagesStep | backend/app/services/parsing.py:55-63 | one turn of the page loop adds the page exactly when its cleaned text is not blank |
| Parsing.KeptPagesContents | backend/app/services/parsing.py:55-63 | each kept page carries its 1-based number, its non-blank cleaned text, and that text's character and word counts |
| Parsing.KeptPagesOrdered | backend/app/services/parsing.py:46-63 | the kept pages are in strictly increasing page order |
| Parsing.KeptPagesComplete | backend/app/services/parsing.py:55-63 | every page whose cleaned text is not blank is kept |
| Parsing.ExtractText | backend/app/services/parsing.py:20-96 | an unreadable document gives the failure with its error; a readable one gives exactly the kept pages (each page cleaned on its own, in page order), the full text as each page preceded by its marker, and the page, character and word totals |
| Chunking.CreateChunk | backend/app/services/parsing.py:252-265 | a chunk carries its id, document name and start; its content is stripped and is empty exactly when the text was blank; its char count is the unstripped length |
| Chunking.StrippedNonEmpty | backend/app/services/parsing.py:224 | the kept paragraphs are non-empty and stripped, and stay separator-free when the pieces were |
| Chunking.SplitIntoParagraphs | backend/app/services/parsing.py:218-226 | every paragraph is non-empty, stripped, and contains no blank line or page marker |
| Chunking.SentenceFoldSnoc | backend/app/services/parsing.py:236-245 | the sentence loop is a left fold: one more sentence is one more step |
| Chunking.SentenceFoldStripped | backend/app/services/parsing.py:236-248 | every piece the sentence loop emits is stripped |
| Chunking.SentenceFoldNonEmpty | backend/app/services/parsing.py:236-248 | over sentences that start with a non-space, no emitted piece is empty |
| Chunking.SentenceStepCurrentBounded | backend/app/services/parsing.py:237-245 | after a step the current piece is at most two characters over the size, or is the sentence alone |
| Chunking.SentenceFoldBounded | backend/app/services/parsing.py:236-248 | every piece is at most `chunk_size + 2` long (the joining ". "), unless it is one whole sentence |
| Chunking.SentenceFoldKeepsLongSentences | backend/app/services/parsing.py:236-248 | a sentence longer than the size is never merged: it becomes a piece of its own |
| Chunking.LongParagraphPiecesStripped | backend/app/services/parsing.py:228-250 | the pieces of a long paragraph are stripped |
| Chunking.LongParagraphPiecesNonEmpty | backend/app/services/parsing.py:228-250 | the pieces of a stripped long paragraph are non-empty |
| Chunking.LongParagraphPiecesBounded | backend/app/services/parsing.py:228-250 | each piece of a long paragraph is within `chunk_size + 2`, or is one whole sentence |
| Chunking.LongParagraphKeepsLongSentences | backend/app/services/parsing.py:228-250 | each over-long sentence of a paragraph appears whole among its pieces |
| Chunking.LongParagraphKeepsSentences | backend/app/services/parsing.py:228-250 | no sentence of a long paragraph is lost: each non-blank sentence, stripped, occurs in the piece it was packed into |
| Chunking.SentenceHomeInOrder | backend/app/services/parsing.py:236-248 | sentences are packed in order: a later sentence never goes into an earlier piece than an earlier sentence |
| Chunking.SentenceBreakEnd | backend/app/services/parsing.py:231 | a sentence break ends at the end of the text or just before a non-space |
| Chunking.SentencesStartNonSpace | backend/app/services/parsing.py:231 | every sentence of a stripped paragraph starts with a non-space, or is empty |
| Chunking.PieceChunksSnoc | backend/app/services/parsing.py:172-177 | the piece loop emits the pieces' chunks with consecutive ids, in order |
| Chunking.PieceChunksAppend | backend/app/services/parsing.py:172-177 | appending the next piece's chunk extends the emitted run |
| Chunking.ChunkFoldSnoc | backend/app/services/parsing.py:161-208 | the paragraph loop is a left fold over the paragraphs |
| Chunking.FlushValid | backend/app/services/parsing.py:210-213 | closing the current chunk keeps the ids consecutive and every chunk well formed |
| Chunking.PieceChunksValid | backend/app/services/parsing.py:172-177 | chunks made from non-empty stripped pieces are well formed under consecutive ids |
| Chunking.ChunkStepValid | backend/app/services/parsing.py:161-208 | each paragraph step keeps the invariant: chunk i has id i, the document's name and non-empty stripped content |
| Chunking.ChunkFoldValid | backend/app/services/parsing.py:161-208 | the invariant holds after the whole paragraph loop |
| Chunking.ChunkTextSpecValid | backend/app/services/parsing.py:138-216 | a blank text has no chunks; the i-th chunk of any text has id i, the document's name and non-empty stripped content |
| Chunking.ChunkTextSpecBounded | backend/app/services/parsing.py:160-214 | every chunk is at most `chunk_size + chunk_overlap + 2` characters (the carried overlap, the blank line and the paragraphs that fit), unless it is one whole over-long sentence of a paragraph |
| Chunking.OverflowFlushes | backend/app/services/parsing.py:183-199 | a paragraph that fits a chunk but not the current one closes the current chunk (when not blank) and adds nothing else |
| Chunking.OverlapCarried | backend/app/services/parsing.py:183-199 | the new chunk starts with the last `min(overlap, len)` characters of the previous chunk, a blank line and the paragraph, or with the paragraph alone when there is no previous chunk or no overlap; its start is measured back from the end of the text |
| Chunking.LastCharacters | backend/app/services/parsing.py:194 | `s[-n:]` for positive n is the last `min(n, len(s))` characters |
| Chunking.NoOverlapAfterLongParagraph | backend/app/services/parsing.py:163-207 | after a long paragraph, the next paragraph that fits opens a chunk of its own with no overlap |
| Chunking.TextChunker.constructor | backend/app/services/parsing.py:134-136 | the chunker keeps the size and overlap it is given (1000 and 200 by default) |
| Chunking.TextChunker.SplitLongParagraph | backend/app/services/parsing.py:228-250 | the loop computes the sentence fold; its pieces are stripped, and non-empty for a stripped paragraph |
| Chunking.TextChunker.ChunkText | backend/app/services/parsing.py:138-216 | the loop computes the chunk fold; a blank text gives no chunks, and chunk i is well formed with id i |
| Chunking.TextChunker.ChunkParagraphs | backend/app/services/parsing.py:161-213 | the paragraph loop plus the final flush computes the fold of the paragraphs |
| Chunking.TextChunker.AddParagraph | backend/app/services/parsing.py:163-207 | one turn of the paragraph loop is one fold step |
| Chunking.TextChunker.AddPieces | backend/app/services/parsing.py:172-177 | the piece loop appends one chunk per piece and advances the id by the number of pieces |
| Ranking.WithKey | backend/app/db/vectorstore.py:122 | the selection is a subsequence of the input: every element it keeps has the score, and every element with the score is kept |
| Ranking.Insert | backend/app/db/vectorstore.py:122 | insertion adds exactly one element |
| Ranking.SortDesc | backend/app/db/vectorstore.py:122 | sorting keeps the length |
| Ranking.SortedTail | backend/app/db/vectorstore.py:122 | the tail of a descending sequence is descending |
| Ranking.InsertElements | backend/app/db/vectorstore.py:122 | insertion brings in no element other than the new one |
| Ranking.InsertSorted | backend/app/db/vectorstore.py:122 | insertion into a descending sequence keeps it descending |
| Ranking.InsertPermutes | backend/app/db/vectorstore.py:122 | insertion adds exactly one occurrence of the element |
| Ranking.WithKeyAppend | backend/app/db/vectorstore.py:122 | selecting one score commutes with concatenation |
| Ranking.WithKeyNone | backend/app/db/vectorstore.py:122 | a descending sequence that starts below a score has no element with it |
| Ranking.InsertKeepsKeyOrder | backend/app/db/vectorstore.py:122 | insertion places the new element after the old ones with the same score (stability) |
| Ranking.SortDescCorrect | backend/app/db/vectorstore.py:122 | `sort(reverse=True)` gives a descending permutation in which equal scores keep their original order |
| Ranking.SortedPrefix | backend/app/api/routes/docs.py:368-379 | a prefix of a descending sequence is descending, and none of the dropped elements scores higher than a kept one |
| Store.TurnsOf | backend/app/db/mongo.py:148-160 | a document's turns are exactly the saved turns about it |
| Store.TurnsOfAppend | backend/app/db/mongo.py:132-145 | a saved turn becomes the last of its own document's turns and leaves the others' turns alone |
| Store.Database.constructor | backend/app/db/mongo.py:38-53 | a new database holds no documents and no turns |
| Store.Database.Find | backend/app/db/mongo.py:76-82 | the record found has the id asked for; none is found exactly when no record has it |
| Store.Database.AllDocuments | backend/app/db/mongo.py:85-94 | the listing returns the first `min(100, n)` records; while records are kept newest first it is in descending upload date, and no record left out is newer than one listed |
| Store.Database.ChatHistory | backend/app/db/mongo.py:148-160 | the history is the last `min(limit, n)` turns about the document, oldest first |
| Store.Database.CreateDocument | backend/app/db/mongo.py:60-73 | a new record with zero counts and status "processed" goes ahead of the older ones; turns are untouched; under a fresh id and a date no earlier than any stored one, ids stay distinct and records stay newest first |
| Store.WithoutIdRemovesOne | backend/app/db/mongo.py:115-126 | over records with distinct ids, deleting an id removes exactly one record when the id exists and none otherwise, and ids stay distinct |
| Store.WithoutIdNewestFirst | backend/app/db/mongo.py:115-126 | deleting an id keeps the remaining records newest first |
| Store.Database.UpdateDocumentStats | backend/app/db/mongo.py:97-111 | only the document's record changes: its chunk count is set and its chat count goes up by one when asked; ids stay distinct and records stay newest first |
| Store.Database.SaveChatMessage | backend/app/db/mongo.py:132-145 | the turn is appended, then the document's chat count goes up by one |
| Store.Database.DeleteDocument | backend/app/db/mongo.py:115-126 | the record and every turn about it go, nothing else does, and the result says whether the record existed |
| Store.FindIn | backend/app/db/mongo.py:76-82 | lookup in a sequence of records: found with the id, or absent from all of them |
| Store.UpdatedAllFind | backend/app/db/mongo.py:97-111 | after the update a record is found under an id exactly when one was before; the updated document gets the chunk count when one is given and its chat count raised by one (from 0 when missing) when asked, with every other field kept; every other id finds what it found before |
| Store.WithoutId | backend/app/db/mongo.py:118 | the records left are exactly those with another id |
| Store.WithoutTurnsOf | backend/app/db/mongo.py:121 | the turns left are exactly those about other documents |
| Store.SavedTurnIsNewest | backend/app/db/mongo.py:132-160 | after a turn is saved, the next history request returns it last, after the preceding turns |
| Llm.SectionsGrow | backend/app/core/llm.py:115-122 | the context text only grows as sections are added |
| Llm.SectionsTaken | backend/app/core/llm.py:115-122 | the loop stops at the first section that would exceed 2,500 characters, and everything before it fits |
| Llm.ContextTextBounded | backend/app/core/llm.py:112-122 | the context text is at most 2,500 characters and is the longest run of leading sections that fits; the next section would not fit |
| Llm.FirstSectionTooLong | backend/app/core/llm.py:119-120 | when even the first section is over budget, the context is empty |
| Llm.UserPromptMentions | backend/app/core/llm.py:124-131 | the user prompt starts with "DOCUMENTO: " and the name, and contains the question |
| Llm.BuildUserPrompt | backend/app/core/llm.py:112-133 | the loop builds exactly the prompt over the stripped context text that fits |
| Llm.HistoryLines | backend/app/core/llm.py:161-166 | the recalled lines are those of the last two turns, oldest first |
| Llm.HistoryLineShape | backend/app/core/llm.py:163 | a recalled line is "Q: ", the question, "R: ", at most the first 200 characters of the answer, and "..." |
| Llm.BuildMessages | backend/app/core/llm.py:53-64 | the messages are the system prompt when it is non-empty, then the user prompt |
| Llm.GenerateResponse | backend/app/core/llm.py:50-89 | the model is sent those messages; its reply is returned, or its failure is raised as "Errore LLM: " and the error |
| Llm.BuildPrompts | backend/app/core/llm.py:157-173 | the system prompt recalls the history; the user prompt is built from at most the first three contexts |
| Llm.AnswerQuestion | backend/app/core/llm.py:146-194 | the model sees the system prompt with the recent turns and the prompt over the first three contexts; the record holds the reply with `min(3, n)` contexts and status success, or the error text with all n contexts and status error |
| VectorStore.Wanted | backend/app/db/vectorstore.py:107 | the search asks for `min(k, ntotal)` neighbours |
| VectorStore.Kept | backend/app/db/vectorstore.py:111-119 | filtering never adds results |
| VectorStore.KeptSound | backend/app/db/vectorstore.py:111-119 | every kept result reaches the threshold and projects a chunk record, and every neighbour that passes the threshold and position check is kept |
| VectorStore.RankedCorrect | backend/app/db/vectorstore.py:111-122 | the results are the kept ones, sorted by descending score with ties in neighbour order, all at or above the threshold and taken from the records |
| VectorStore.FaissVectorStore.constructor | backend/app/db/vectorstore.py:15-23 | a new store has its document and dimension, no index and no records |
| VectorStore.FaissVectorStore.CreateIndex | backend/app/db/vectorstore.py:25-62 | a matrix of the wrong width is refused with nothing changed; otherwise the index holds its rows and the records are replaced, and success means saved |
| VectorStore.FaissVectorStore.LoadIndex | backend/app/db/vectorstore.py:64-83 | loading succeeds exactly when both saved files exist, and then installs them; otherwise nothing changes |
| VectorStore.FaissVectorStore.Search | backend/app/db/vectorstore.py:85-129 | nothing without an index; otherwise the ranked results for `min(k, ntotal)` neighbours, never more than k or than the stored vectors |
| VectorStore.FaissVectorStore.AddChunks | backend/app/db/vectorstore.py:131-154 | without an index this is index creation; otherwise a matching matrix grows the index by its rows and appends the records after the old ones, and a mismatched one changes nothing |
| VectorStore.FaissVectorStore.DeleteIndex | backend/app/db/vectorstore.py:156-173 | after a successful removal the store is empty and reports "not loaded"; after a failed one nothing in memory changes |
| VectorStore.FaissVectorStore.GetStats | backend/app/db/vectorstore.py:175-186 | "not loaded" exactly without an index; otherwise the vector count, dimension, "IndexFlatIP" and record count |
| VectorStore.VectorStoreManager.constructor | backend/app/db/vectorstore.py:203-204 | the cache starts empty |
| VectorStore.VectorStoreManager.GetStore | backend/app/db/vectorstore.py:206-213 | a cached store is returned and the cache is unchanged; on a miss the cache gains exactly one entry, under the id: a fresh store holding the saved index and records, or nothing when none were saved |
| VectorStore.VectorStoreManager.CreateStore | backend/app/db/vectorstore.py:215-224 | the store is cached, holding the rows and records, exactly when building and saving its index succeeded, and no other entry changes; otherwise the cache is unchanged |
| VectorStore.VectorStoreManager.DeleteStore | backend/app/db/vectorstore.py:226-236 | the id leaves the cache, and a cached store is emptied when its files are removed |
| VectorStore.VectorStoreManager.GetStoreStats | backend/app/db/vectorstore.py:248-251 | the statistics of the cached store; on a miss, "not loaded" when nothing was saved and otherwise the saved vector count, the dimension, "IndexFlatIP" and the saved record count; the cache after is as `get_store` leaves it |
| VectorStore.VectorStoreManager.CleanupCache | backend/app/db/vectorstore.py:253-255 | the cache is emptied |
| Indexing.TotalsAppend | backend/app/services/indexing.py:209-220 | the character and word totals of two runs of chunks add up |
| Indexing.TotalsCoverEachChunk | backend/app/services/indexing.py:209-220 | each chunk's counts are included in the totals |
| Indexing.ProjectResults | backend/app/services/indexing.py:351-360 | contexts and sources line up position by position with the search results: context i is result i's content, and source i records its chunk id, score and word count |
| Indexing.DocumentIndexer.constructor | backend/app/services/indexing.py:130-138 | a new indexer is not ready and uses the shared cache and chunker |
| Indexing.DocumentIndexer.EnsureInitialized | backend/app/services/indexing.py:149-155 | a ready indexer stays ready with its dimension; otherwise it becomes ready exactly when the model loads, and then takes the model's dimension |
| Indexing.DocumentIndexer.IndexDocument | backend/app/services/indexing.py:157-232 | the first failing step decides the error (not ready, no chunks, encoding, store); on success the store holds one vector per chunk and the chunk records, every other cached store stays as it was, and the result has the count, dimension and totals; the texts sent to the model are the chunk contents, one per chunk, in order; on failure the cache is unchanged; the dimension is the one `ensure_initialized` leaves |
| Indexing.DocumentIndexer.SearchSimilarChunks | backend/app/services/indexing.py:234-272 | nothing, and the cache unchanged, when not ready or when encoding fails; otherwise the search of the cached or freshly loaded store, never more than k results, with the cache as `get_store` leaves it; readiness and dimension as `ensure_initialized` leaves them |
| Indexing.DocumentIndexer.DeleteDocumentIndex | backend/app/services/indexing.py:274-283 | the document's store leaves the cache, and success is whether its files were removed |
| Indexing.DocumentIndexer.GetIndexStats | backend/app/services/indexing.py:285-293 | an error when not ready; otherwise the statistics of the cached store or, on a miss, those of the saved index and records (loaded exactly when one was saved), with the cache as `get_store` leaves it; readiness and dimension as `ensure_initialized` leaves them |
| Indexing.ProcessQuery | backend/app/services/indexing.py:316-378 | not ready is a failure with no results; once ready, the results are exactly the search, for `max_chunks` neighbours at `min_score`, of the document's store as `get_store` gives it (cached, or loaded from what was saved), or none when the query cannot be encoded; nothing found is a failure; otherwise contexts and sources aligned with at most `max_chunks` results; readiness, dimension and cache are left as `ensure_initialized` and `get_store` leave them (the cache untouched when nothing was searched) |
| DocsRoutes.Matching | backend/app/api/routes/docs.py:61-66 | the name filter never adds documents |
| DocsRoutes.MatchingIff | backend/app/api/routes/docs.py:61-66 | a document is kept exactly when its lower-cased name contains the lower-cased term |
| DocsRoutes.FilterByNameIff | backend/app/api/routes/docs.py:61-66 | with no (or an empty) term every document is kept; otherwise exactly the matching ones |
| DocsRoutes.PaginateShape | backend/app/api/routes/docs.py:70-72 | page p holds at most `page_size` items, the ones starting at `(p-1)*page_size`, in order |
| DocsRoutes.PagesDisjoint | backend/app/api/routes/docs.py:70-72 | two different pages never show the same position |
| DocsRoutes.PagesCover | backend/app/api/routes/docs.py:70-72 | every document appears on some valid page, at the expected place |
| DocsRoutes.ListDocuments | backend/app/api/routes/docs.py:41-106 | the total is the number of filtered documents, and the page shows the requested window of them; each entry has the document's id and name, its counts with 0 for missing ones, its status or "unknown", and whether its index is loaded |
| DocsRoutes.CountLoaded | backend/app/api/routes/docs.py:244-257 | the number of processed documents never exceeds the number of documents |
| DocsRoutes.CountLoadedAll | backend/app/api/routes/docs.py:244-257 | every document is counted as processed exactly when every index is loaded |
| DocsRoutes.DocumentsOverview | backend/app/api/routes/docs.py:223-264 | the totals sum over the listed documents; complete plus pending is the number of documents; an empty database gives all zeros |
| DocsRoutes.MergedBound | backend/app/api/routes/docs.py:340-365 | at most five results per searched document are merged, and only searched documents contribute |
| DocsRoutes.SearchAcrossDocuments | backend/app/api/routes/docs.py:313-383 | the answer is the first `max_results` of the merged results, each tagged with its document, sorted by descending score, with the number of documents searched |
| DocsRoutes.CrossSearchRanked | backend/app/api/routes/docs.py:368-379 | the answer is sorted, is drawn from the merged results, has `min(n, max_results)` entries, and no dropped result scores higher than a kept one |
| DocsRoutes.ChunkLookup | backend/app/api/routes/docs.py:195-214 | as written: all chunks without an id, and 404 for an id at or past the end |
| DocsRoutes.NegativeChunkIdServed | backend/app/api/routes/docs.py:197-200 | as written, id -1 is answered with the last chunk, reported under id -1 |
| DocsRoutes.ChunkLookupCheckedSound | backend/app/api/routes/docs.py:195-214 | with the intended bound, a chunk is served exactly when the id is a record position, and it is that record; anything else is 404 |
| DocsRoutes.GetDocumentContent | backend/app/api/routes/docs.py:172-220 | 404 for an unknown document; otherwise the lookup, with the intended chunk-id bound (see Findings), over the records of the store `get_store` gives: the chunk, all chunks, or 404; the cache after is as `get_store` leaves it |
| UploadRoutes.AllowedFileIff | backend/app/api/routes/upload.py:103-108 | the upload check accepts exactly the files the parser supports: a named file ending in ".pdf" in any case |
| UploadRoutes.ValidateUpload | backend/app/api/routes/upload.py:99-115 | a file passes exactly when it has a non-empty name with an allowed extension and a size, when one is known, within the limit; each refusal is a 400 |
| UploadRoutes.UnknownSizeAccepted | backend/app/api/routes/upload.py:111-115 | a file of unknown size or of size 0 is never refused for its size |
| UploadRoutes.Disk.Remove | backend/app/api/routes/upload.py:143 | `os.remove`: the path is no longer present, and nothing else changes |
| UploadRoutes.UploadDocument | backend/app/api/routes/upload.py:85-201 | a refused file changes nothing; an unparsable one is stored and removed again, with a 400; otherwise the file is stored and a record with the preview of the extracted text is put first |
| UploadRoutes.ProcessDocumentBackground | backend/app/api/routes/upload.py:25-82 | the steps run in order and stop at the first failure; only when every step succeeds is the chunk count set to the number of chunks and the document's store cached with one vector and one record per chunk, every other cached store staying as it was; otherwise no record and no cached store changes; the model's readiness and dimension never change |
| UploadRoutes.DeleteDocument | backend/app/api/routes/upload.py:242-276 | unknown is 404 with nothing changed; otherwise the file (when it has a path), the store, the record and its turns are all removed, and the message names the file |
| ChatRoutes.DefaultRequestValid | backend/app/api/routes/chat.py:15-21 | with the default options, a request is valid exactly when its question has 1 to 2000 characters |
| ChatRoutes.AnswerFromContexts | backend/app/api/routes/chat.py:75-121 | the model is asked over the contexts and the last five turns; the response carries its answer (the error text when the call failed), the sources when requested and the metadata with the number of contexts used and found; the turn is saved with that answer and one "Chunk <id>" label per source when requested, and the document's chat count goes up by one |
| ChatRoutes.RespondToQuery | backend/app/api/routes/chat.py:65-121 | a failed retrieval gets the fixed answer and its message, with nothing asked or saved; found chunks are answered as `AnswerFromContexts` says, over their contexts and sources; the retrieval state is not touched |
| ChatRoutes.ChatWithDocument | backend/app/api/routes/chat.py:41-134 | 404 for an unknown document, with nothing changed; the chunks retrieved are exactly the search of the document's store for `max_chunks` at `similarity_threshold`; a failed search gives the fixed answer without asking the model or saving; otherwise the model sees the first three contexts and the last turns, and the turn is saved with the answer and the source labels when requested; readiness, dimension and cache are left as retrieval leaves them |
| ChatRoutes.PreviewShape | backend/app/api/routes/chat.py:234-237 | a preview is at most 203 characters; a short context is its own preview; a long one is its first 200 characters and "..." |
| ChatRoutes.TestSimilaritySearch | backend/app/api/routes/chat.py:197-244 | 404 for an unknown document, with nothing changed; otherwise the chunks found are exactly the search of the document's store for `max_chunks` at `similarity_threshold`, and success holds exactly when it found something, with the sources and one preview per context, in order; readiness, dimension and cache are left as retrieval leaves them |

## Left out

- PDF decoding and page metadata: a document is given as its pages' raw text, or the error
  opening it raised. The PDF metadata dictionary and the file size in the result are not
  modelled.
- Embeddings, normalisation and the FAISS inner products: the neighbours an index reports are
  a parameter (`Knn`), limited to the requested number of stored positions. Scores are exact
  `real` values rather than floating point.
- Averages: `average_similarity` and `np.mean` are not modelled.
- Times: timestamps and `processing_time` are not modelled, and the upload date is a
  parameter.
- Hashing: the MD5 `chunk_hash` of each chunk is not modelled.
- Persistence: pickle and `faiss.write_index` are reduced to "saved" or "not saved"
  parameters.
- `list_available_stores` and `list_indexed_documents` are not modelled, since nothing in the
  modelled routes calls them.
- Whether a document's index is loaded, and what a per-document search returns, are
  parameters (`loaded`, `resultsFor`) in the routes that span every document. The cache side
  effects of `get_index_stats` in those loops are not modelled.
- The embedding service and the indexer share one `initialized` flag. The background check on
  `embedding_service.model`, and the `hasattr` test before it, which is always true, read that
  flag.
- `FaissVectorStore.LoadIndex`: an index file without a metadata file, or a read error, is
  treated like missing files.
- Indexing.DocumentIndexer.SearchSimilarChunks: `k` is a natural number, so a negative `k`
  passed through to the index is not modelled.
- ChatRoutes.TestSimilaritySearch: `max_chunks` is a natural number for the same reason.
- Store.Database.ChatHistory: requires a positive limit; the routes only ask for 5 and 50.
- DocsRoutes.GetDocumentContent: serves chunks through the corrected lookup
  `ChunkLookupChecked`, which answers every id outside `0..len-1` with 404. As written, the route
  serves a negative id from the end of the list, or fails with a 500 below `-len`; that
  behaviour is modelled by `ChunkLookup` and shown by `NegativeChunkIdServed` (see Findings).
- Parsing.ContentPreview: compares `10 * index > 7 * max_length` exactly, where the code compares
  the index with the float product `max_length * 0.7`. The two agree for the default length 500,
  whose product is exactly 350.0, but not for every length: for `max_length` 90 the float product
  is 62.99999999999999, so a period at index 63 is a cut point for the code and not for the model.
- Patterns.IsDigit: only `0` to `9`. In a `str` pattern `\d` also matches the other Unicode
  decimal digits, so a page marker written with such digits splits paragraphs in the code but
  not in the model.
- PyStr.Lower: lower-cases ASCII letters only, so Unicode case mapping is not modelled.
- PyStr.Words: states only that each word is non-empty and free of whitespace, not that the
  words are exactly the maximal runs.
- Store.Database.CreateDocument: the status is kept as a string rather than a closed
  datatype. The id that `insert_one` assigns and the clock's reading are parameters. The model
  requires the id to be new and the date to be no earlier than any stored one, which is what the
  database and the clock supply.
- Store.Database.AllDocuments: the listing takes records in stored order, newest first. It
  agrees with the query's sort on `upload_date` as long as records stay newest first. Creating a
  record under the clock keeps that, and so does every other writer (`UpdateDocumentStats`, and
  `DeleteDocument` through `WithoutIdNewestFirst`). Records with equal dates are listed in
  insertion order, where the database leaves their order unspecified.
- Store.Database.DeleteDocument: its contract states the new records as `WithoutId` of the old
  ones. That distinct ids and newest-first order survive, and that exactly one record goes, is
  stated by `WithoutIdRemovesOne` and `WithoutIdNewestFirst`.
- Filename uniqueness: `DuplicateKeyError` on a repeated file name in the database is not
  modelled.
- The settings chunk size and overlap (800/150) are not modelled, because the shared chunker
  does not read them.
- Unexpected exceptions in the routes are not modelled: the generic 500 "Errore interno"
  handlers and the generic error answer of the chat route. One exception is kept: the
  out-of-range negative chunk id in the as-written lookup.
- Concurrency: the `async` scheduling, the thread offloading, and the background task running
  concurrently with other requests are not modelled.
- The upload response's metadata dictionary and `processing_time`, and the background task's
  scheduling, are not modelled.
- UploadRoutes.ProcessDocumentBackground: it checks that the model is loaded but does not
  load it. The embedding dimension is the one the indexer already has.
- These routes are not modelled:
  - `get_document_details` and `reprocess_document`;
  - `get_upload_status` and `validate_upload_settings`;
  - the chat history, clear-history and chat statistics routes;
  - the model-management routes, and the Ollama model availability check.

  They read or forward what the modelled operations produce. `reprocess_document` also calls
  `os.path.exists` (docs.py:282) although `os` is imported only inside `get_document_details`
  (docs.py:133). For any document with a file path it would therefore fail with `NameError`,
  which its handler turns into a 500 "Errore interno".
- `EmbeddingService.encode_texts` batching and the connection to the language model are
  outside the model: their outcomes are parameters.

## Findings

| source | as written | input that shows it | evidently intended | confidence | as-written member | corrected member |
|---|---|---|---|---|---|---|
| backend/app/api/routes/docs.py:197-200 | only `chunk_id >= len(chunks_metadata)` is refused, so a negative id indexes from the end, and one below `-len` raises and becomes a 500 | `chunk_id = -1` for a document with at least one chunk: the last chunk is returned under id -1 | 404 "Chunk non trovato" for every id outside `0..len-1` | medium; not executed | DocsRoutes.NegativeChunkIdServed | DocsRoutes.ChunkLookupCheckedSound |

=== FILE: chat.dfy ===
/**
 * The chat routes: the bounds on a chat request, one chat turn (retrieval, the model's
 * answer over the retrieved contexts and the recent history, and the saved turn), and the
 * similarity test that shows truncated previews of what retrieval found.
 */
module ChatRoutes {
  import opened Wrappers
  import opened PyStr
  import opened Store
  import opened Llm
  import opened VectorStore
  import opened Indexing

  const MaxQuestionLength: nat := 2000
  const MaxChunksLimit: int := 10
  const DefaultMaxChunks: int := 5
  const DefaultSimilarityThreshold: real := 0.1

  /** How many earlier turns a chat turn asks the history for. */
  const HistoryTurns: nat := 5

  /** How many characters of a context the similarity test shows. */
  const PreviewLength: nat := 200

  const NoInformationAnswer: string :=
    "Non sono riuscito a trovare informazioni rilevanti nel documento per rispondere alla tua domanda. "
    + "Prova a riformulare la domanda o a essere più specifico."

  const DocumentNotFound: string := "Documento non trovato"

  datatype ChatRequest = ChatRequest(documentId: string, question: string, includeSources: bool,
                                     maxChunks: int, similarityThreshold: real)

  /** The bounds the `ChatRequest` schema puts on its fields. */
  predicate ValidRequest(request: ChatRequest) {
    && 1 <= |request.question| <= MaxQuestionLength
    && 1 <= request.maxChunks <= MaxChunksLimit
    && 0.0 <= request.similarityThreshold <= 1.0
  }

  /** A request that gives only the document and the question. */
  function DefaultRequest(documentId: string, question: string): ChatRequest {
    ChatRequest(documentId, question, true, DefaultMaxChunks, DefaultSimilarityThreshold)
  }

  /** The defaults are within the bounds, so a request with only a question is valid exactly when its question is. */
  lemma DefaultRequestValid(documentId: string, question: string)
    ensures ValidRequest(DefaultRequest(documentId, question)) <==> 1 <= |question| <= MaxQuestionLength
  {
  }

  /** The labels saved with a turn: "Chunk " and the chunk's id, one per source. */
  function SourceLabels(sources: seq<Source>): seq<string> {
    seq(|sources|, i requires 0 <= i < |sources| => "Chunk " + NatToString(sources[i].chunkId))
  }

  datatype ChatMetadata = ChatMetadata(model: string, chunksUsed: nat, processingStatus: QaStatus, totalChunksFound: nat)

  datatype ChatResponse = ChatResponse(success: bool, answer: string, question: string, documentId: string,
                                       sources: Option<seq<Source>>, metadata: Option<ChatMetadata>,
                                       error: Option<string>)

  /**
   * The metadata of an answered turn: the model, how many contexts it was given (at most
   * `MaxContexts` when it answered, all of them when it failed), whether it answered, and how
   * many chunks retrieval found.
   */
  function TurnMetadata(model: string, reply: Result<string, string>, contexts: nat, found: nat): ChatMetadata {
    ChatMetadata(model, if reply.Ok? && contexts > MaxContexts then MaxContexts else contexts,
                 if reply.Ok? then Success else Error, found)
  }

  /** The answer given and saved for a model reply: the reply itself, or the model's error behind the error prefix. */
  function AnswerText(reply: Result<string, string>): string {
    if reply.Ok? then reply.value else ErrorPrefix + (LlmErrorPrefix + reply.error)
  }

  /** The response when retrieval gave nothing: the fixed "no relevant information" answer and the failure. */
  function NoAnswer(request: ChatRequest, message: string): ChatResponse {
    ChatResponse(false, NoInformationAnswer, request.question, request.documentId, None, None, Some(message))
  }

  /** The response when the model was asked over `contexts` contexts: the sources only when they are requested. */
  function AnsweredResponse(request: ChatRequest, sources: seq<Source>, model: string, reply: Result<string, string>,
                            contexts: nat, totalChunksFound: nat): ChatResponse {
    ChatResponse(true, AnswerText(reply), request.question, request.documentId,
                 if request.includeSources then Some(sources) else None,
                 Some(TurnMetadata(model, reply, contexts, totalChunksFound)), None)
  }

  /** The turn saved after the model was asked: the labels of the sources only when they are requested. */
  function SavedTurn(request: ChatRequest, sources: seq<Source>, reply: Result<string, string>): ChatMessage {
    ChatMessage(request.documentId, request.question, AnswerText(reply),
                if request.includeSources then SourceLabels(sources) else [])
  }

  datatype ChatOutcome = Answered(response: ChatResponse) | ChatRejected(statusCode: int, detail: string)

  /**
   * The answering half of `chat_with_document`, once retrieval found contexts: the model is
   * asked over them and the last five turns, and the turn is saved with the answer (also when
   * the model failed) and with the labels of the sources when they are requested.
   */
  method AnswerFromContexts(db: Database, request: ChatRequest, documentName: string, contexts: seq<string>,
                            sources: seq<Source>, totalChunksFound: nat, model: string, reply: Result<string, string>)
    returns (response: ChatResponse, ghost messages: seq<Message>)
    modifies db
    ensures var history := old(db.ChatHistory(request.documentId, HistoryTurns));
      messages == QaMessages(request.question, contexts, documentName, history)
    ensures response == AnsweredResponse(request, sources, model, reply, |contexts|, totalChunksFound)
    ensures db.chats == old(db.chats) + [SavedTurn(request, sources, reply)]
    ensures db.documents == UpdatedAll(old(db.documents), request.documentId, None, Some(1))
  {
    var chatHistory := db.ChatHistory(request.documentId, HistoryTurns);
    var qaResult;
    qaResult, messages := AnswerQuestion(request.question, contexts, documentName, chatHistory, model, reply);
    var metadata := ChatMetadata(qaResult.model, qaResult.contextCount, qaResult.status, totalChunksFound);
    var shown: Option<seq<Source>> := None;
    if request.includeSources {
      shown := Some(sources);
    }
    var labels := if shown.Some? && shown.value != [] then SourceLabels(shown.value) else [];
    assert SourceLabels([]) == [];
    assert labels == if request.includeSources then SourceLabels(sources) else [];
    assert metadata == TurnMetadata(model, reply, |contexts|, totalChunksFound);
    db.SaveChatMessage(request.documentId, request.question, qaResult.answer, labels);
    response := ChatResponse(true, qaResult.answer, request.question, request.documentId, shown, Some(metadata), None);
  }

  /**
   * The reply of `chat_with_document` to what retrieval gave: a failure is answered with the
   * fixed "no relevant information" text and its message, without asking the model or saving
   * anything; found chunks are answered over their contexts, as `AnswerFromContexts` does.
   */
  method RespondToQuery(db: Database, request: ChatRequest, documentName: string, query: QueryResult,
                        ghost found: seq<SearchResult>, model: string, reply: Result<string, string>)
    returns (response: ChatResponse, ghost messages: seq<Message>)
    requires query.QueryFailed? <==> found == []
    requires query.QueryFound? ==>
      query.contexts == ContextsOf(found) && query.sources == SourcesOf(found) && query.totalChunksFound == |found|
    modifies db
    ensures found == [] ==>
      response == NoAnswer(request, query.message) && db.documents == old(db.documents) && db.chats == old(db.chats)
    ensures found != [] ==>
      var history := old(db.ChatHistory(request.documentId, HistoryTurns));
      && messages == QaMessages(request.question, ContextsOf(found), documentName, history)
      && response == AnsweredResponse(request, SourcesOf(found), model, reply, |found|, |found|)
      && db.chats == old(db.chats) + [SavedTurn(request, SourcesOf(found), reply)]
      && db.documents == UpdatedAll(old(db.documents), request.documentId, None, Some(1))
  {
    messages := [];
    if query.QueryFailed? {
      response := NoAnswer(request, query.message);
      return;
    }
    response, messages := AnswerFromContexts(db, request, documentName, query.contexts, query.sources,
                                             query.totalChunksFound, model, reply);
  }

  /**
   * `chat_with_document`.  An unknown document is a 404 and nothing changes.  When retrieval
   * fails the response carries the fixed "no relevant information" answer and the failure,
   * the model is not asked and nothing is saved.  Otherwise the model is asked over the
   * retrieved contexts and the last five turns, and the turn is saved with its answer (also
   * when the model failed) and with the labels of its sources when they are requested.
   * `found` is what retrieval returned (the search of the document's store, when the service
   * is ready and the question could be encoded) and `messages` what was sent to the model.
   */
  method ChatWithDocument(db: Database, indexer: DocumentIndexer, request: ChatRequest, model: string,
                          modelDim: Option<nat>, encodeError: Option<string>,
                          saved: Option<(FlatIndex, seq<Chunking.Chunk>)>, knn: Knn, reply: Result<string, string>)
    returns (r: ChatOutcome, ghost found: seq<SearchResult>, ghost messages: seq<Message>)
    requires ValidRequest(request)
    requires indexer.Valid()
    modifies db, indexer, indexer.manager
    ensures indexer.Valid()
    ensures r.ChatRejected? <==> old(db.Find(request.documentId)).None?
    ensures r.ChatRejected? ==>
      r == ChatRejected(404, DocumentNotFound) && db.documents == old(db.documents) && db.chats == old(db.chats)
    ensures r.ChatRejected? ==>
      && indexer.initialized == old(indexer.initialized) && indexer.embeddingDim == old(indexer.embeddingDim)
      && indexer.manager.stores == old(indexer.manager.stores)
    ensures r.Answered? ==>
      AfterQuery(indexer, old(indexer.initialized), old(indexer.embeddingDim), old(indexer.manager.stores),
                 request.documentId, modelDim, encodeError, saved)
    ensures r.Answered? ==>
      r.response.question == request.question && r.response.documentId == request.documentId
      && |found| <= request.maxChunks
    ensures r.Answered? && indexer.initialized ==>
      found == if encodeError.Some? then []
               else old(indexer.manager.SearchThrough(request.documentId, saved, request.maxChunks as nat,
                                                      request.similarityThreshold, knn))
    ensures r.Answered? && !indexer.initialized ==>
      r.response == NoAnswer(request, SearchErrorPrefix + NotInitializedError)
      && db.documents == old(db.documents) && db.chats == old(db.chats)
    ensures r.Answered? && indexer.initialized && found == [] ==>
      r.response == NoAnswer(request, NothingRelevant)
      && db.documents == old(db.documents) && db.chats == old(db.chats)
    ensures r.Answered? && indexer.initialized && found != [] ==>
      var document := old(db.Find(request.documentId)).value;
      var history := old(db.ChatHistory(request.documentId, HistoryTurns));
      && messages == QaMessages(request.question, ContextsOf(found), document.filename, history)
      && r.response == AnsweredResponse(request, SourcesOf(found), model, reply, |found|, |found|)
      && db.chats == old(db.chats) + [SavedTurn(request, SourcesOf(found), reply)]
      && db.documents == UpdatedAll(old(db.documents), request.documentId, None, Some(1))
  {
    var document := db.Find(request.documentId);
    if document.None? {
      return ChatRejected(404, DocumentNotFound), [], [];
    }
    var contextResult;
    contextResult, found := ProcessQuery(indexer, request.documentId, request.question, request.maxChunks,
                                         request.similarityThreshold, modelDim, encodeError, saved, knn);
    var response;
    response, messages := RespondToQuery(db, request, document.value.filename, contextResult, found, model, reply);
    r := Answered(response);
  }

  /** The preview of one context in the similarity test: short contexts whole, long ones cut with "...". */
  function Preview(context: string): string {
    if |context| > PreviewLength then context[..PreviewLength] + "..." else context
  }

  /**
   * A preview is never longer than the cut plus the ellipsis, keeps a short context as it is,
   * and otherwise starts with the context's first 200 characters.
   */
  lemma PreviewShape(context: string)
    ensures |Preview(context)| <= PreviewLength + 3
    ensures |context| <= PreviewLength ==> Preview(context) == context
    ensures |context| > PreviewLength ==>
      && |Preview(context)| == PreviewLength + 3
      && Preview(context)[..PreviewLength] == context[..PreviewLength]
      && Preview(context)[PreviewLength..] == "..."
  {
  }

  /** The previews of `test_similarity_search`, one per context. */
  function Previews(contexts: seq<string>): seq<string> {
    seq(|contexts|, i requires 0 <= i < |contexts| => Preview(contexts[i]))
  }

  datatype SimilarityReport = SimilarityReport(query: string, documentId: string, documentName: string, success: bool,
                                               chunksFound: nat, sources: seq<Source>, contextsPreview: seq<string>)

  datatype SimilarityOutcome = Reported(report: SimilarityReport) | SimilarityRejected(statusCode: int, detail: string)

  /**
   * `test_similarity_search`: 404 for an unknown document; otherwise what retrieval found,
   * with its sources and one preview per context, in order, and nothing when it failed.
   */
  method TestSimilaritySearch(db: Database, indexer: DocumentIndexer, documentId: string, query: string,
                              maxChunks: nat, similarityThreshold: real, modelDim: Option<nat>,
                              encodeError: Option<string>, saved: Option<(FlatIndex, seq<Chunking.Chunk>)>, knn: Knn)
    returns (r: SimilarityOutcome, ghost found: seq<SearchResult>)
    requires indexer.Valid()
    modifies indexer, indexer.manager
    ensures indexer.Valid()
    ensures db.Find(documentId).None? ==>
      && r == SimilarityRejected(404, DocumentNotFound) && found == []
      && indexer.initialized == old(indexer.initialized) && indexer.embeddingDim == old(indexer.embeddingDim)
      && indexer.manager.stores == old(indexer.manager.stores)
    ensures db.Find(documentId).Some? ==>
      AfterQuery(indexer, old(indexer.initialized), old(indexer.embeddingDim), old(indexer.manager.stores),
                 documentId, modelDim, encodeError, saved)
    ensures db.Find(documentId).Some? ==>
      && r.Reported?
      && r.report.documentName == db.Find(documentId).value.filename
      && r.report.query == query && r.report.documentId == documentId
      && (r.report.success <==> indexer.initialized && found != [])
      && |found| <= maxChunks
      && (indexer.initialized ==>
            found == if encodeError.Some? then []
                     else old(indexer.manager.SearchThrough(documentId, saved, maxChunks, similarityThreshold, knn)))
      && r.report.chunksFound == |found|
      && r.report.sources == SourcesOf(found)
      && |r.report.contextsPreview| == |found|
      && forall i :: 0 <= i < |found| ==> r.report.contextsPreview[i] == Preview(found[i].content)
  {
    var document := db.Find(documentId);
    if document.None? {
      return SimilarityRejected(404, DocumentNotFound), [];
    }
    var contextResult;
    contextResult, found := ProcessQuery(indexer, documentId, query, maxChunks, similarityThreshold,
                                         modelDim, encodeError, saved, knn);
    if contextResult.QueryFailed? {
      r := Reported(SimilarityReport(query, documentId, document.value.filename, false, 0, [], []));
      return;
    }
    r := Reported(SimilarityReport(query, documentId, document.value.filename, true, contextResult.totalChunksFound,
                                   contextResult.sources, Previews(contextResult.contexts)));
  }
}

=== FILE: chunking.dfy ===
/**
 * The text chunker: the extracted text is split into paragraphs at blank lines and page
 * markers, paragraphs are packed into chunks of about `chunkSize` characters, a chunk opened
 * because the previous one was full starts with the last `chunkOverlap` characters of that
 * previous chunk, and a paragraph longer than `chunkSize` is split at sentence boundaries.
 *
 * The loops are methods of `TextChunker`; each is proved equal to a left fold over its input
 * (`SentenceFold`, `ChunkFold`), and the properties of the chunks are proved about the folds.
 */
module Chunking {
  import opened PyStr
  import opened Patterns

  datatype Chunk = Chunk(
    chunkId: nat,
    content: string,
    documentName: string,
    charCount: nat,
    wordCount: nat,
    startPosition: int)

  /**
   * A chunk record: the stored content is the stripped text, the character count is the
   * length of the text before stripping, and the word count is the number of
   * whitespace-separated words of that text.
   */
  function CreateChunk(content: string, chunkId: nat, documentName: string, startPos: int): (c: Chunk)
    ensures c.chunkId == chunkId && c.documentName == documentName && c.startPosition == startPos
    ensures IsStripped(c.content) && (c.content == [] <==> IsBlank(content))
    ensures |c.content| <= c.charCount == |content|
  {
    Chunk(chunkId, Strip(content), documentName, |content|, |Words(content)|, startPos)
  }

  // ---------------------------------------------------------------------------------------
  // Paragraphs
  // ---------------------------------------------------------------------------------------

  /** The stripped pieces that are not empty, in order. */
  function StrippedNonEmpty(pieces: seq<string>): (ps: seq<string>)
    ensures |ps| <= |pieces|
    ensures forall j :: 0 <= j < |ps| ==> ps[j] != [] && IsStripped(ps[j])
    ensures (forall j :: 0 <= j < |pieces| ==> NoMatchIn(ParagraphBreak, pieces[j])) ==>
              forall j :: 0 <= j < |ps| ==> NoMatchIn(ParagraphBreak, ps[j])
  {
    if pieces == [] then []
    else
      var p := Strip(pieces[0]);
      StripKeepsNoMatch(ParagraphBreak, pieces[0]);
      (if p != [] then [p] else []) + StrippedNonEmpty(pieces[1..])
  }

  /**
   * The paragraphs of a text: the pieces between blank lines and page markers, stripped,
   * without the empty ones.  No paragraph contains a blank line or a page marker.
   */
  function SplitIntoParagraphs(text: string): (ps: seq<string>)
    ensures forall j :: 0 <= j < |ps| ==> ps[j] != [] && IsStripped(ps[j]) && NoMatchIn(ParagraphBreak, ps[j])
  {
    StrippedNonEmpty(Split(ParagraphBreak, text))
  }

  // ---------------------------------------------------------------------------------------
  // Long paragraphs
  // ---------------------------------------------------------------------------------------

  /** The pieces emitted so far and the text accumulated for the next one. */
  datatype SentenceAcc = SentenceAcc(pieces: seq<string>, current: string)

  function SentenceStep(size: int, acc: SentenceAcc, sentence: string): SentenceAcc {
    if |acc.current| + |sentence| > size then
      SentenceAcc(if acc.current != [] then acc.pieces + [Strip(acc.current)] else acc.pieces, sentence)
    else if acc.current != [] then
      SentenceAcc(acc.pieces, acc.current + ". " + sentence)
    else
      SentenceAcc(acc.pieces, sentence)
  }

  function SentenceFold(size: int, sentences: seq<string>): SentenceAcc {
    if sentences == [] then SentenceAcc([], [])
    else SentenceStep(size, SentenceFold(size, sentences[..|sentences| - 1]), sentences[|sentences| - 1])
  }

  lemma SentenceFoldSnoc(size: int, sentences: seq<string>, i: nat)
    requires i < |sentences|
    ensures SentenceFold(size, sentences[..i + 1]) == SentenceStep(size, SentenceFold(size, sentences[..i]), sentences[i])
  {
    assert sentences[..i + 1][..i] == sentences[..i];
  }

  /** The sentences packed into pieces, with the last accumulated piece emitted if it is not empty. */
  function GroupSentences(size: int, sentences: seq<string>): seq<string> {
    var acc := SentenceFold(size, sentences);
    if acc.current != [] then acc.pieces + [Strip(acc.current)] else acc.pieces
  }

  function LongParagraphPieces(size: int, paragraph: string): seq<string> {
    GroupSentences(size, Split(SentenceBreak, paragraph))
  }

  predicate StartsNonSpace(s: string) {
    s == [] || !IsSpace(s[0])
  }

  lemma {:induction false} SentenceFoldStripped(size: int, sentences: seq<string>)
    ensures forall j :: 0 <= j < |SentenceFold(size, sentences).pieces| ==> IsStripped(SentenceFold(size, sentences).pieces[j])
  {
    if sentences != [] {
      SentenceFoldStripped(size, sentences[..|sentences| - 1]);
    }
  }

  /** When no sentence starts with whitespace, no emitted piece is empty. */
  lemma {:induction false} SentenceFoldNonEmpty(size: int, sentences: seq<string>)
    requires forall k :: 0 <= k < |sentences| ==> StartsNonSpace(sentences[k])
    ensures StartsNonSpace(SentenceFold(size, sentences).current)
    ensures forall j :: 0 <= j < |SentenceFold(size, sentences).pieces| ==> SentenceFold(size, sentences).pieces[j] != []
  {
    if sentences != [] {
      var init := sentences[..|sentences| - 1];
      SentenceFoldNonEmpty(size, init);
      var acc := SentenceFold(size, init);
      if acc.current != [] {
        assert !IsBlank(acc.current) by { assert !IsSpace(acc.current[0]); }
      }
    }
  }

  /**
   * Every piece is at most two characters over `size` (the ". " joining the last sentence),
   * unless it is one whole sentence.
   */
  lemma SentenceStepCurrentBounded(size: int, acc: SentenceAcc, sentence: string)
    ensures var next := SentenceStep(size, acc, sentence);
      |next.current| <= size + 2 || next.current == sentence
  {
  }

  lemma {:induction false} SentenceFoldBounded(size: int, sentences: seq<string>)
    ensures var acc := SentenceFold(size, sentences);
      && (acc.current == [] || |acc.current| <= size + 2 || exists k :: 0 <= k < |sentences| && acc.current == sentences[k])
      && forall j :: 0 <= j < |acc.pieces| ==>
           |acc.pieces[j]| <= size + 2 || exists k :: 0 <= k < |sentences| && acc.pieces[j] == Strip(sentences[k])
  {
    if sentences != [] {
      var n := |sentences| - 1;
      var init := sentences[..n];
      SentenceFoldBounded(size, init);
      var acc := SentenceFold(size, init);
      var next := SentenceFold(size, sentences);
      assert next == SentenceStep(size, acc, sentences[n]);
      forall j | 0 <= j < |next.pieces|
        ensures |next.pieces[j]| <= size + 2 || exists k :: 0 <= k < |sentences| && next.pieces[j] == Strip(sentences[k])
      {
        var piece := next.pieces[j];
        if j < |acc.pieces| {
          assert piece == acc.pieces[j];
          if |piece| > size + 2 {
            var k :| 0 <= k < |init| && piece == Strip(init[k]);
            assert init[k] == sentences[k];
          }
        } else {
          assert piece == Strip(acc.current) && acc.current != [];
          if |acc.current| > size + 2 {
            var k :| 0 <= k < |init| && acc.current == init[k];
            assert init[k] == sentences[k];
          }
        }
      }
      SentenceStepCurrentBounded(size, acc, sentences[n]);
      if |next.current| > size + 2 {
        assert next.current == sentences[n];
      }
    }
  }

  /** A sentence longer than `size` becomes a piece of its own, whole. */
  lemma {:induction false} SentenceFoldKeepsLongSentences(size: int, sentences: seq<string>)
    ensures var acc := SentenceFold(size, sentences);
      forall k :: 0 <= k < |sentences| && sentences[k] != [] && |sentences[k]| > size ==>
        Strip(sentences[k]) in acc.pieces || (k == |sentences| - 1 && acc.current == sentences[k])
  {
    if sentences != [] {
      var n := |sentences| - 1;
      var init := sentences[..n];
      SentenceFoldKeepsLongSentences(size, init);
      var acc := SentenceFold(size, init);
      var next := SentenceFold(size, sentences);
      forall k | 0 <= k < |sentences| && sentences[k] != [] && |sentences[k]| > size
        ensures Strip(sentences[k]) in next.pieces || (k == n && next.current == sentences[k])
      {
        if k < n {
          assert init[k] == sentences[k];
        }
      }
    }
  }

  /** The pieces of a long paragraph are stripped. */
  lemma LongParagraphPiecesStripped(size: int, paragraph: string)
    ensures forall j :: 0 <= j < |LongParagraphPieces(size, paragraph)| ==> IsStripped(LongParagraphPieces(size, paragraph)[j])
  {
    SentenceFoldStripped(size, Split(SentenceBreak, paragraph));
  }

  /** No piece of a stripped paragraph is empty. */
  lemma LongParagraphPiecesNonEmpty(size: int, paragraph: string)
    requires IsStripped(paragraph)
    ensures forall j :: 0 <= j < |LongParagraphPieces(size, paragraph)| ==> LongParagraphPieces(size, paragraph)[j] != []
  {
    var sentences := Split(SentenceBreak, paragraph);
    SentencesStartNonSpace(paragraph);
    SentenceFoldNonEmpty(size, sentences);
    var acc := SentenceFold(size, sentences);
    if acc.current != [] {
      assert !IsBlank(acc.current) by { assert !IsSpace(acc.current[0]); }
    }
  }

  /** Each piece of a long paragraph is at most `size + 2` characters long, or one whole sentence. */
  lemma LongParagraphPiecesBounded(size: int, paragraph: string)
    ensures var pieces := LongParagraphPieces(size, paragraph);
      var sentences := Split(SentenceBreak, paragraph);
      forall j :: 0 <= j < |pieces| ==>
        |pieces[j]| <= size + 2 || exists k :: 0 <= k < |sentences| && pieces[j] == Strip(sentences[k])
  {
    var sentences := Split(SentenceBreak, paragraph);
    SentenceFoldBounded(size, sentences);
  }

  /** Every non-empty sentence longer than `size` is kept whole as a piece of its own. */
  lemma LongParagraphKeepsLongSentences(size: int, paragraph: string)
    ensures var sentences := Split(SentenceBreak, paragraph);
      forall k :: 0 <= k < |sentences| && sentences[k] != [] && |sentences[k]| > size ==>
        Strip(sentences[k]) in LongParagraphPieces(size, paragraph)
  {
    SentenceFoldKeepsLongSentences(size, Split(SentenceBreak, paragraph));
  }

  /**
   * The piece a sentence ends up in: the number of pieces emitted before the sentence was
   * added to the accumulated text.
   */
  function SentenceHome(size: int, sentences: seq<string>, k: nat): nat
    requires k < |sentences|
  {
    |SentenceFold(size, sentences[..k + 1]).pieces|
  }

  /** Sentence `k` is inside its piece: already emitted, or still in the accumulated text. */
  predicate SentenceHeld(size: int, sentences: seq<string>, acc: SentenceAcc, k: nat)
    requires k < |sentences|
  {
    var h := SentenceHome(size, sentences, k);
    || (h < |acc.pieces| && Contains(acc.pieces[h], Strip(sentences[k])))
    || (h == |acc.pieces| && Contains(acc.current, sentences[k]))
  }

  lemma ContainsExtended(c: string, sub: string, t: string)
    requires Contains(c, sub)
    ensures Contains(c + ". " + t, sub)
  {
    var i: nat :| i <= |c| && OccursAt(c, sub, i);
    assert (c + ". " + t)[i..i + |sub|] == c[i..i + |sub|];
    assert OccursAt(c + ". " + t, sub, i);
  }

  /** A step puts the new sentence into the accumulated text. */
  lemma SentenceStepTakes(size: int, acc: SentenceAcc, sentence: string)
    ensures Contains(SentenceStep(size, acc, sentence).current, sentence)
  {
    var next := SentenceStep(size, acc, sentence);
    if next.current == sentence {
      assert OccursAt(sentence, sentence, 0);
    } else {
      var c := acc.current + ". ";
      assert next.current == c + sentence;
      assert next.current[|c|..|c| + |sentence|] == sentence;
      assert OccursAt(next.current, sentence, |c|);
    }
  }

  /** A step keeps every earlier non-blank sentence inside its piece. */
  lemma SentenceStepKeeps(size: int, sentences: seq<string>, acc: SentenceAcc, sentence: string, k: nat)
    requires k < |sentences| && !IsBlank(sentences[k])
    requires SentenceHeld(size, sentences, acc, k)
    ensures SentenceHeld(size, sentences, SentenceStep(size, acc, sentence), k)
  {
    var h := SentenceHome(size, sentences, k);
    var next := SentenceStep(size, acc, sentence);
    if h == |acc.pieces| {
      var i: nat :| i <= |acc.current| && OccursAt(acc.current, sentences[k], i);
      assert acc.current != [];
      if |acc.current| + |sentence| > size {
        assert next.pieces[h] == Strip(acc.current);
        StripKeepsOccurrence(acc.current, sentences[k], i);
      } else {
        ContainsExtended(acc.current, sentences[k], sentence);
      }
    } else {
      assert next.pieces[h] == acc.pieces[h];
    }
  }

  lemma {:induction false} SentenceFoldHolds(size: int, sentences: seq<string>, n: nat)
    requires n <= |sentences|
    ensures forall k :: 0 <= k < n && !IsBlank(sentences[k]) ==>
      SentenceHeld(size, sentences, SentenceFold(size, sentences[..n]), k)
  {
    if n > 0 {
      SentenceFoldHolds(size, sentences, n - 1);
      var acc := SentenceFold(size, sentences[..n - 1]);
      SentenceFoldSnoc(size, sentences, n - 1);
      var next := SentenceFold(size, sentences[..n]);
      assert next == SentenceStep(size, acc, sentences[n - 1]);
      forall k | 0 <= k < n && !IsBlank(sentences[k])
        ensures SentenceHeld(size, sentences, next, k)
      {
        if k < n - 1 {
          SentenceStepKeeps(size, sentences, acc, sentences[n - 1], k);
        } else {
          SentenceStepTakes(size, acc, sentences[n - 1]);
        }
      }
    }
  }

  /**
   * No sentence of a long paragraph is lost: every non-blank sentence, stripped, occurs in
   * the piece it was packed into.
   */
  lemma LongParagraphKeepsSentences(size: int, paragraph: string)
    ensures var sentences := Split(SentenceBreak, paragraph);
      var pieces := LongParagraphPieces(size, paragraph);
      forall k :: 0 <= k < |sentences| && !IsBlank(sentences[k]) ==>
        SentenceHome(size, sentences, k) < |pieces| && Contains(pieces[SentenceHome(size, sentences, k)], Strip(sentences[k]))
  {
    var sentences := Split(SentenceBreak, paragraph);
    var acc := SentenceFold(size, sentences);
    var pieces := LongParagraphPieces(size, paragraph);
    SentenceFoldHolds(size, sentences, |sentences|);
    assert sentences[..|sentences|] == sentences;
    forall k | 0 <= k < |sentences| && !IsBlank(sentences[k])
      ensures SentenceHome(size, sentences, k) < |pieces| && Contains(pieces[SentenceHome(size, sentences, k)], Strip(sentences[k]))
    {
      var h := SentenceHome(size, sentences, k);
      assert SentenceHeld(size, sentences, acc, k);
      if h == |acc.pieces| {
        var i: nat :| i <= |acc.current| && OccursAt(acc.current, sentences[k], i);
        assert acc.current != [];
        assert pieces[h] == Strip(acc.current);
        StripKeepsOccurrence(acc.current, sentences[k], i);
      } else {
        assert pieces[h] == acc.pieces[h];
      }
    }
  }

  /** The pieces emitted so far only grow as more sentences are folded in. */
  lemma {:induction false} SentenceFoldGrows(size: int, sentences: seq<string>, m: nat, n: nat)
    requires m <= n <= |sentences|
    ensures |SentenceFold(size, sentences[..m]).pieces| <= |SentenceFold(size, sentences[..n]).pieces|
    decreases n
  {
    if m < n {
      SentenceFoldGrows(size, sentences, m, n - 1);
      SentenceFoldSnoc(size, sentences, n - 1);
      var acc := SentenceFold(size, sentences[..n - 1]);
      var next := SentenceFold(size, sentences[..n]);
      assert next == SentenceStep(size, acc, sentences[n - 1]);
      assert |SentenceFold(size, sentences[..m]).pieces| <= |acc.pieces| <= |next.pieces|;
    }
  }

  /** Sentences go into pieces in order: a later sentence never lands in an earlier piece. */
  lemma SentenceHomeInOrder(size: int, sentences: seq<string>, k1: nat, k2: nat)
    requires k1 <= k2 < |sentences|
    ensures SentenceHome(size, sentences, k1) <= SentenceHome(size, sentences, k2)
  {
    SentenceFoldGrows(size, sentences, k1 + 1, k2 + 1);
  }

  /** The end of a sentence-break match is the end of the text or a non-whitespace character. */
  lemma SentenceBreakEnd(s: string, i: nat)
    requires i <= |s|
    ensures MatchAt(SentenceBreak, s, i).Some? ==>
      MatchAt(SentenceBreak, s, i).value == |s| || !IsSpace(s[MatchAt(SentenceBreak, s, i).value])
  {
  }

  /** The sentences of a stripped paragraph do not start with whitespace. */
  lemma SentencesStartNonSpace(paragraph: string)
    requires IsStripped(paragraph)
    ensures forall k :: 0 <= k < |Split(SentenceBreak, paragraph)| ==> StartsNonSpace(Split(SentenceBreak, paragraph)[k])
  {
    var spans := SplitSpans(SentenceBreak, paragraph, 0, 0);
    var sentences := Split(SentenceBreak, paragraph);
    forall k | 0 <= k < |sentences| ensures StartsNonSpace(sentences[k]) {
      var lo, hi := spans[k].0, spans[k].1;
      assert sentences[k] == paragraph[lo..hi];
      if lo < hi {
        assert sentences[k][0] == paragraph[lo];
        if k > 0 {
          SentenceBreakEnd(paragraph, spans[k - 1].1);
        }
      }
    }
  }

  // ---------------------------------------------------------------------------------------
  // Chunks
  // ---------------------------------------------------------------------------------------

  /** The chunks emitted so far, the accumulated text with its recorded start, and the next id. */
  datatype ChunkAcc = ChunkAcc(chunks: seq<Chunk>, current: string, currentStart: int, chunkId: nat)

  /** The chunks for the pieces of a long paragraph, numbered from `firstId`. */
  function PieceChunks(pieces: seq<string>, firstId: nat, documentName: string, startPos: int): seq<Chunk> {
    seq(|pieces|, j requires 0 <= j < |pieces| => CreateChunk(pieces[j], firstId + j, documentName, startPos))
  }

  lemma PieceChunksSnoc(pieces: seq<string>, j: nat, firstId: nat, documentName: string, startPos: int)
    requires j < |pieces|
    ensures PieceChunks(pieces[..j + 1], firstId, documentName, startPos)
         == PieceChunks(pieces[..j], firstId, documentName, startPos) + [CreateChunk(pieces[j], firstId + j, documentName, startPos)]
  {
    var a := PieceChunks(pieces[..j + 1], firstId, documentName, startPos);
    var b := PieceChunks(pieces[..j], firstId, documentName, startPos) + [CreateChunk(pieces[j], firstId + j, documentName, startPos)];
    forall k | 0 <= k < |a| ensures a[k] == b[k] {
      assert pieces[..j + 1][k] == pieces[k];
    }
  }

  lemma PieceChunksAppend(base: seq<Chunk>, pieces: seq<string>, j: nat, firstId: nat, documentName: string, startPos: int)
    requires j < |pieces|
    ensures base + PieceChunks(pieces[..j], firstId, documentName, startPos) + [CreateChunk(pieces[j], firstId + j, documentName, startPos)]
         == base + PieceChunks(pieces[..j + 1], firstId, documentName, startPos)
  {
    PieceChunksSnoc(pieces, j, firstId, documentName, startPos);
    var done := PieceChunks(pieces[..j], firstId, documentName, startPos);
    assert base + done + [CreateChunk(pieces[j], firstId + j, documentName, startPos)]
        == base + (done + [CreateChunk(pieces[j], firstId + j, documentName, startPos)]);
  }

  /** Emits the accumulated text as a chunk when it is not blank. */
  function Flush(documentName: string, acc: ChunkAcc): ChunkAcc {
    if !IsBlank(acc.current) then
      acc.(chunks := acc.chunks + [CreateChunk(acc.current, acc.chunkId, documentName, acc.currentStart)],
           chunkId := acc.chunkId + 1)
    else acc
  }

  function ChunkStep(size: int, overlap: int, text: string, documentName: string, acc: ChunkAcc, paragraph: string): ChunkAcc {
    if |paragraph| > size then
      var flushed := Flush(documentName, acc);
      var pieces := LongParagraphPieces(size, paragraph);
      ChunkAcc(flushed.chunks + PieceChunks(pieces, flushed.chunkId, documentName, |text|),
               "", |text|, flushed.chunkId + |pieces|)
    else if |acc.current| + |paragraph| > size then
      var flushed := Flush(documentName, acc);
      var current :=
        if flushed.chunks != [] && overlap > 0 then
          SliceFrom(flushed.chunks[|flushed.chunks| - 1].content, -overlap) + "\n\n" + paragraph
        else paragraph;
      ChunkAcc(flushed.chunks, current, |text| - |current|, flushed.chunkId)
    else if acc.current != [] then
      acc.(current := acc.current + "\n\n" + paragraph)
    else
      acc.(current := paragraph, currentStart := |text| - |paragraph|)
  }

  function ChunkFold(size: int, overlap: int, text: string, documentName: string, paragraphs: seq<string>): ChunkAcc {
    if paragraphs == [] then ChunkAcc([], "", 0, 0)
    else
      ChunkStep(size, overlap, text, documentName,
                ChunkFold(size, overlap, text, documentName, paragraphs[..|paragraphs| - 1]),
                paragraphs[|paragraphs| - 1])
  }

  lemma ChunkFoldSnoc(size: int, overlap: int, text: string, documentName: string, paragraphs: seq<string>, p: nat)
    requires p < |paragraphs|
    ensures ChunkFold(size, overlap, text, documentName, paragraphs[..p + 1])
         == ChunkStep(size, overlap, text, documentName, ChunkFold(size, overlap, text, documentName, paragraphs[..p]), paragraphs[p])
  {
    assert paragraphs[..p + 1][..p] == paragraphs[..p];
  }

  /** The chunks of a text: none for a blank text, else the folded paragraphs and the last accumulated chunk. */
  function ChunkTextSpec(size: int, overlap: int, text: string, documentName: string): seq<Chunk> {
    if IsBlank(text) then []
    else Flush(documentName, ChunkFold(size, overlap, text, documentName, SplitIntoParagraphs(text))).chunks
  }

  /** The `i`-th chunk of a document: it carries id `i`, the document's name and a non-empty stripped content. */
  predicate WellFormedChunk(c: Chunk, i: nat, documentName: string) {
    c.chunkId == i && c.documentName == documentName && c.content != [] && IsStripped(c.content)
  }

  predicate ValidAcc(documentName: string, acc: ChunkAcc) {
    && acc.chunkId == |acc.chunks|
    && forall i :: 0 <= i < |acc.chunks| ==> WellFormedChunk(acc.chunks[i], i, documentName)
  }

  lemma FlushValid(documentName: string, acc: ChunkAcc)
    requires ValidAcc(documentName, acc)
    ensures ValidAcc(documentName, Flush(documentName, acc))
  {
  }

  lemma PieceChunksValid(pieces: seq<string>, firstId: nat, documentName: string, startPos: int)
    requires forall j :: 0 <= j < |pieces| ==> pieces[j] != [] && IsStripped(pieces[j])
    ensures forall j :: 0 <= j < |pieces| ==>
      WellFormedChunk(PieceChunks(pieces, firstId, documentName, startPos)[j], firstId + j, documentName)
  {
    forall j | 0 <= j < |pieces|
      ensures WellFormedChunk(PieceChunks(pieces, firstId, documentName, startPos)[j], firstId + j, documentName)
    {
      assert !IsBlank(pieces[j]) by { assert !IsSpace(pieces[j][0]); }
    }
  }

  lemma {:induction false} ChunkStepValid(size: int, overlap: int, text: string, documentName: string, acc: ChunkAcc, paragraph: string)
    requires ValidAcc(documentName, acc)
    requires IsStripped(paragraph)
    ensures ValidAcc(documentName, ChunkStep(size, overlap, text, documentName, acc, paragraph))
  {
    FlushValid(documentName, acc);
    if |paragraph| > size {
      var flushed := Flush(documentName, acc);
      var pieces := LongParagraphPieces(size, paragraph);
      LongParagraphPiecesStripped(size, paragraph);
      LongParagraphPiecesNonEmpty(size, paragraph);
      PieceChunksValid(pieces, flushed.chunkId, documentName, |text|);
      var cs := flushed.chunks + PieceChunks(pieces, flushed.chunkId, documentName, |text|);
      forall i | 0 <= i < |cs| ensures WellFormedChunk(cs[i], i, documentName) {
        if i >= |flushed.chunks| {
          assert cs[i] == PieceChunks(pieces, flushed.chunkId, documentName, |text|)[i - |flushed.chunks|];
        }
      }
    }
  }

  lemma {:induction false} ChunkFoldValid(size: int, overlap: int, text: string, documentName: string, paragraphs: seq<string>)
    requires forall j :: 0 <= j < |paragraphs| ==> IsStripped(paragraphs[j])
    ensures ValidAcc(documentName, ChunkFold(size, overlap, text, documentName, paragraphs))
  {
    if paragraphs != [] {
      var n := |paragraphs| - 1;
      ChunkFoldValid(size, overlap, text, documentName, paragraphs[..n]);
      ChunkStepValid(size, overlap, text, documentName, ChunkFold(size, overlap, text, documentName, paragraphs[..n]), paragraphs[n]);
    }
  }

  /**
   * A blank text has no chunks; otherwise chunk `i` has id `i`, the document's name, and a
   * content that is neither empty nor starts or ends with whitespace.
   */
  lemma ChunkTextSpecValid(size: int, overlap: int, text: string, documentName: string)
    ensures IsBlank(text) ==> ChunkTextSpec(size, overlap, text, documentName) == []
    ensures var chunks := ChunkTextSpec(size, overlap, text, documentName);
      forall i :: 0 <= i < |chunks| ==> WellFormedChunk(chunks[i], i, documentName)
  {
    if !IsBlank(text) {
      var acc := ChunkFold(size, overlap, text, documentName, SplitIntoParagraphs(text));
      ChunkFoldValid(size, overlap, text, documentName, SplitIntoParagraphs(text));
      FlushValid(documentName, acc);
    }
  }

  /**
   * A paragraph that fits in a chunk but not in the current one closes the current chunk (when
   * it is not blank) and opens a new one holding the last `min(overlap, |previous|)`
   * characters of the previous chunk's content, a blank line and the paragraph; without a
   * previous chunk, or with no overlap, the new chunk is the paragraph alone.
   */
  lemma OverflowFlushes(size: int, overlap: int, text: string, documentName: string, acc: ChunkAcc, paragraph: string)
    requires |paragraph| <= size < |acc.current| + |paragraph|
    ensures var next := ChunkStep(size, overlap, text, documentName, acc, paragraph);
      && next.chunks == Flush(documentName, acc).chunks
      && |next.chunks| == |acc.chunks| + (if IsBlank(acc.current) then 0 else 1)
  {
  }

  lemma OverlapCarried(size: int, overlap: int, text: string, documentName: string, acc: ChunkAcc, paragraph: string)
    requires |paragraph| <= size < |acc.current| + |paragraph|
    ensures var flushed := Flush(documentName, acc);
      var next := ChunkStep(size, overlap, text, documentName, acc, paragraph);
      && next.currentStart == |text| - |next.current|
      && (flushed.chunks != [] && overlap > 0 ==>
            var prev := flushed.chunks[|flushed.chunks| - 1].content;
            var k := if overlap < |prev| then overlap else |prev|;
            next.current == prev[|prev| - k..] + "\n\n" + paragraph)
      && (flushed.chunks == [] || overlap <= 0 ==> next.current == paragraph)
  {
    var flushed := Flush(documentName, acc);
    var current :=
      if flushed.chunks != [] && overlap > 0 then
        SliceFrom(flushed.chunks[|flushed.chunks| - 1].content, -overlap) + "\n\n" + paragraph
      else paragraph;
    assert ChunkStep(size, overlap, text, documentName, acc, paragraph)
        == ChunkAcc(flushed.chunks, current, |text| - |current|, flushed.chunkId);
    if flushed.chunks != [] && overlap > 0 {
      LastCharacters(flushed.chunks[|flushed.chunks| - 1].content, overlap);
    }
  }

  /** `s[-n:]` for a positive `n`: the last `min(n, |s|)` characters. */
  lemma LastCharacters(s: string, n: int)
    requires n > 0
    ensures var k := if n < |s| then n else |s|;
      SliceFrom(s, -n) == s[|s| - k..]
  {
  }

  /** After a long paragraph, the next paragraph that fits opens a chunk with no overlap. */
  lemma NoOverlapAfterLongParagraph(size: int, overlap: int, text: string, documentName: string,
                                    acc: ChunkAcc, long: string, paragraph: string)
    requires |long| > size && |paragraph| <= size
    ensures var a := ChunkStep(size, overlap, text, documentName, acc, long);
      var b := ChunkStep(size, overlap, text, documentName, a, paragraph);
      b.chunks == a.chunks && b.current == paragraph
  {
  }

  // ---------------------------------------------------------------------------------------
  // Chunk lengths
  // ---------------------------------------------------------------------------------------

  /** The most text a chunk opened by packing can hold: `size`, the carried overlap and the blank line. */
  function ChunkBound(size: int, overlap: int): int {
    size + (if overlap > 0 then overlap else 0) + 2
  }

  /** A chunk content is within the bound, or it is one whole sentence of one of the paragraphs. */
  predicate WithinBound(size: int, overlap: int, paragraphs: seq<string>, content: string) {
    || |content| <= ChunkBound(size, overlap)
    || exists p, s :: p in paragraphs && s in Split(SentenceBreak, p) && content == Strip(s)
  }

  predicate AllWithinBound(size: int, overlap: int, paragraphs: seq<string>, cs: seq<Chunk>) {
    forall i :: 0 <= i < |cs| ==> WithinBound(size, overlap, paragraphs, cs[i].content)
  }

  lemma AllWithinBoundAppend(size: int, overlap: int, paragraphs: seq<string>, xs: seq<Chunk>, ys: seq<Chunk>)
    requires AllWithinBound(size, overlap, paragraphs, xs) && AllWithinBound(size, overlap, paragraphs, ys)
    ensures AllWithinBound(size, overlap, paragraphs, xs + ys)
  {
    forall i | 0 <= i < |xs + ys| ensures WithinBound(size, overlap, paragraphs, (xs + ys)[i].content) {
      if i >= |xs| {
        assert (xs + ys)[i] == ys[i - |xs|];
      }
    }
  }

  /** The accumulated text is within the bound and so is every chunk emitted so far. */
  predicate BoundedAcc(size: int, overlap: int, paragraphs: seq<string>, acc: ChunkAcc) {
    && (acc.current == [] || |acc.current| <= ChunkBound(size, overlap))
    && AllWithinBound(size, overlap, paragraphs, acc.chunks)
  }

  lemma FlushBounded(size: int, overlap: int, paragraphs: seq<string>, documentName: string, acc: ChunkAcc)
    requires BoundedAcc(size, overlap, paragraphs, acc)
    ensures AllWithinBound(size, overlap, paragraphs, Flush(documentName, acc).chunks)
  {
    if !IsBlank(acc.current) {
      var c := CreateChunk(acc.current, acc.chunkId, documentName, acc.currentStart);
      assert WithinBound(size, overlap, paragraphs, c.content);
      AllWithinBoundAppend(size, overlap, paragraphs, acc.chunks, [c]);
    }
  }

  /** One piece of a long paragraph: stripped, and at most `size + 2` long or one whole sentence. */
  lemma LongParagraphPiece(size: int, paragraph: string, j: nat)
    requires j < |LongParagraphPieces(size, paragraph)|
    ensures var piece := LongParagraphPieces(size, paragraph)[j];
      && IsStripped(piece)
      && (|piece| <= size + 2 || exists s :: s in Split(SentenceBreak, paragraph) && piece == Strip(s))
  {
    var pieces := LongParagraphPieces(size, paragraph);
    var sentences := Split(SentenceBreak, paragraph);
    LongParagraphPiecesStripped(size, paragraph);
    LongParagraphPiecesBounded(size, paragraph);
    if |pieces[j]| > size + 2 {
      var k :| 0 <= k < |sentences| && pieces[j] == Strip(sentences[k]);
      assert sentences[k] in sentences;
    }
  }

  lemma PieceWithinBound(size: int, overlap: int, paragraphs: seq<string>, paragraph: string, piece: string)
    requires paragraph in paragraphs && IsStripped(piece)
    requires |piece| <= size + 2 || exists s :: s in Split(SentenceBreak, paragraph) && piece == Strip(s)
    ensures WithinBound(size, overlap, paragraphs, Strip(piece))
  {
    StripOfStripped(piece);
  }

  lemma PieceChunkContent(pieces: seq<string>, firstId: nat, documentName: string, startPos: int, j: nat)
    requires j < |pieces|
    ensures PieceChunks(pieces, firstId, documentName, startPos)[j].content == Strip(pieces[j])
  {
  }

  /** The chunks of a long paragraph's pieces are within the bound or whole sentences of it. */
  lemma PieceChunksBounded(size: int, overlap: int, paragraphs: seq<string>, paragraph: string,
                           firstId: nat, documentName: string, startPos: int)
    requires paragraph in paragraphs
    ensures AllWithinBound(size, overlap, paragraphs, PieceChunks(LongParagraphPieces(size, paragraph), firstId, documentName, startPos))
  {
    var pieces := LongParagraphPieces(size, paragraph);
    var cs := PieceChunks(pieces, firstId, documentName, startPos);
    forall j | 0 <= j < |cs|
      ensures WithinBound(size, overlap, paragraphs, cs[j].content)
    {
      LongParagraphPiece(size, paragraph, j);
      PieceWithinBound(size, overlap, paragraphs, paragraph, pieces[j]);
      PieceChunkContent(pieces, firstId, documentName, startPos, j);
    }
  }

  /** A long paragraph flushes the accumulated text and adds the chunks of its pieces. */
  lemma LongStepBounded(size: int, overlap: int, text: string, documentName: string,
                        paragraphs: seq<string>, acc: ChunkAcc, paragraph: string)
    requires |paragraph| > size && paragraph in paragraphs
    requires BoundedAcc(size, overlap, paragraphs, acc)
    ensures BoundedAcc(size, overlap, paragraphs, ChunkStep(size, overlap, text, documentName, acc, paragraph))
  {
    var flushed := Flush(documentName, acc);
    FlushBounded(size, overlap, paragraphs, documentName, acc);
    var pieces := LongParagraphPieces(size, paragraph);
    var cs := PieceChunks(pieces, flushed.chunkId, documentName, |text|);
    PieceChunksBounded(size, overlap, paragraphs, paragraph, flushed.chunkId, documentName, |text|);
    AllWithinBoundAppend(size, overlap, paragraphs, flushed.chunks, cs);
    assert ChunkStep(size, overlap, text, documentName, acc, paragraph)
        == ChunkAcc(flushed.chunks + cs, "", |text|, flushed.chunkId + |pieces|);
  }

  /** A paragraph that fits is packed: appended, or opening a new chunk after the overlap. */
  lemma PackStepBounded(size: int, overlap: int, text: string, documentName: string,
                        paragraphs: seq<string>, acc: ChunkAcc, paragraph: string)
    requires |paragraph| <= size
    requires BoundedAcc(size, overlap, paragraphs, acc)
    ensures BoundedAcc(size, overlap, paragraphs, ChunkStep(size, overlap, text, documentName, acc, paragraph))
  {
    if |acc.current| + |paragraph| > size {
      var flushed := Flush(documentName, acc);
      FlushBounded(size, overlap, paragraphs, documentName, acc);
      if flushed.chunks != [] && overlap > 0 {
        var prev := flushed.chunks[|flushed.chunks| - 1].content;
        assert |SliceFrom(prev, -overlap)| <= overlap;
      }
    }
  }

  lemma ChunkStepBounded(size: int, overlap: int, text: string, documentName: string,
                         paragraphs: seq<string>, acc: ChunkAcc, paragraph: string)
    requires paragraph in paragraphs
    requires BoundedAcc(size, overlap, paragraphs, acc)
    ensures BoundedAcc(size, overlap, paragraphs, ChunkStep(size, overlap, text, documentName, acc, paragraph))
  {
    if |paragraph| > size {
      LongStepBounded(size, overlap, text, documentName, paragraphs, acc, paragraph);
    } else {
      PackStepBounded(size, overlap, text, documentName, paragraphs, acc, paragraph);
    }
  }

  lemma {:induction false} ChunkFoldBounded(size: int, overlap: int, text: string, documentName: string,
                                            paragraphs: seq<string>, all: seq<string>)
    requires forall j :: 0 <= j < |paragraphs| ==> paragraphs[j] in all
    ensures BoundedAcc(size, overlap, all, ChunkFold(size, overlap, text, documentName, paragraphs))
  {
    if paragraphs != [] {
      var n := |paragraphs| - 1;
      ChunkFoldBounded(size, overlap, text, documentName, paragraphs[..n], all);
      ChunkStepBounded(size, overlap, text, documentName, all,
                       ChunkFold(size, overlap, text, documentName, paragraphs[..n]), paragraphs[n]);
    }
  }

  /**
   * No chunk is longer than `size` plus the carried overlap plus the two characters of the
   * blank line that joins them, except a single sentence longer than that, which is kept
   * whole as a chunk of its own.
   */
  lemma ChunkTextSpecBounded(size: int, overlap: int, text: string, documentName: string)
    ensures var chunks := ChunkTextSpec(size, overlap, text, documentName);
      forall i :: 0 <= i < |chunks| ==> WithinBound(size, overlap, SplitIntoParagraphs(text), chunks[i].content)
  {
    ChunkTextSpecBoundedAll(size, overlap, text, documentName);
  }

  lemma ChunkTextSpecBoundedAll(size: int, overlap: int, text: string, documentName: string)
    ensures AllWithinBound(size, overlap, SplitIntoParagraphs(text), ChunkTextSpec(size, overlap, text, documentName))
  {
    if !IsBlank(text) {
      var paragraphs := SplitIntoParagraphs(text);
      ChunkFoldBounded(size, overlap, text, documentName, paragraphs, paragraphs);
      FlushBounded(size, overlap, paragraphs, documentName, ChunkFold(size, overlap, text, documentName, paragraphs));
    }
  }

  class TextChunker {
    const chunkSize: int
    const chunkOverlap: int

    constructor (chunkSize: int := 1000, chunkOverlap: int := 200)
      ensures this.chunkSize == chunkSize && this.chunkOverlap == chunkOverlap
    {
      this.chunkSize := chunkSize;
      this.chunkOverlap := chunkOverlap;
    }

    /**
     * Splits a paragraph into pieces of whole sentences: the result is the sentence fold of
     * the paragraph, every piece is stripped, and none is empty when the paragraph is stripped.
     */
    method SplitLongParagraph(paragraph: string) returns (chunks: seq<string>)
      ensures chunks == LongParagraphPieces(chunkSize, paragraph)
      ensures forall j :: 0 <= j < |chunks| ==> IsStripped(chunks[j])
      ensures IsStripped(paragraph) ==> forall j :: 0 <= j < |chunks| ==> chunks[j] != []
    {
      var sentences := Split(SentenceBreak, paragraph);
      chunks := [];
      var currentChunk := "";
      var i := 0;
      while i < |sentences|
        invariant i <= |sentences|
        invariant SentenceAcc(chunks, currentChunk) == SentenceFold(chunkSize, sentences[..i])
      {
        var sentence := sentences[i];
        SentenceFoldSnoc(chunkSize, sentences, i);
        if |currentChunk| + |sentence| > chunkSize {
          if currentChunk != [] {
            chunks := chunks + [Strip(currentChunk)];
          }
          currentChunk := sentence;
        } else {
          if currentChunk != [] {
            currentChunk := currentChunk + ". " + sentence;
          } else {
            currentChunk := sentence;
          }
        }
        i := i + 1;
      }
      if currentChunk != [] {
        chunks := chunks + [Strip(currentChunk)];
      }
      assert sentences[..|sentences|] == sentences;
      LongParagraphPiecesStripped(chunkSize, paragraph);
      if IsStripped(paragraph) {
        LongParagraphPiecesNonEmpty(chunkSize, paragraph);
      }
    }

    /**
     * Splits a text into chunks: the result is the chunk fold of the text's paragraphs; a
     * blank text has no chunks, and chunk `i` has id `i` and a non-empty stripped content.
     */
    method ChunkText(text: string, documentName: string := "") returns (chunks: seq<Chunk>)
      ensures chunks == ChunkTextSpec(chunkSize, chunkOverlap, text, documentName)
      ensures IsBlank(text) ==> chunks == []
      ensures forall i :: 0 <= i < |chunks| ==> WellFormedChunk(chunks[i], i, documentName)
    {
      ChunkTextSpecValid(chunkSize, chunkOverlap, text, documentName);
      if IsBlank(text) {
        return [];
      }
      var paragraphs := SplitIntoParagraphs(text);
      chunks := ChunkParagraphs(text, documentName, paragraphs);
    }

    /** The loop of `ChunkText` over the paragraphs of a text, closed by emitting the last accumulated chunk. */
    method ChunkParagraphs(text: string, documentName: string, paragraphs: seq<string>) returns (chunks: seq<Chunk>)
      ensures chunks == Flush(documentName, ChunkFold(chunkSize, chunkOverlap, text, documentName, paragraphs)).chunks
    {
      chunks := [];
      var chunkId := 0;
      var currentChunk := "";
      var currentChunkStart := 0;
      var p := 0;
      while p < |paragraphs|
        invariant p <= |paragraphs|
        invariant ChunkAcc(chunks, currentChunk, currentChunkStart, chunkId)
                  == ChunkFold(chunkSize, chunkOverlap, text, documentName, paragraphs[..p])
      {
        ChunkFoldSnoc(chunkSize, chunkOverlap, text, documentName, paragraphs, p);
        chunks, currentChunk, currentChunkStart, chunkId :=
          AddParagraph(text, documentName, chunks, currentChunk, currentChunkStart, chunkId, paragraphs[p]);
        p := p + 1;
      }
      assert paragraphs[..|paragraphs|] == paragraphs;
      if !IsBlank(currentChunk) {
        chunks := chunks + [CreateChunk(currentChunk, chunkId, documentName, currentChunkStart)];
      }
    }

    /**
     * One turn of the paragraph loop of `ChunkText`: a paragraph longer than a chunk closes
     * the current chunk and is emitted as its sentence pieces; a paragraph that does not fit
     * closes the current chunk and starts a new one with the overlap; otherwise it is appended.
     */
    method AddParagraph(text: string, documentName: string, chunks: seq<Chunk>, currentChunk: string,
                        currentChunkStart: int, chunkId: nat, paragraph: string)
      returns (chunks': seq<Chunk>, currentChunk': string, currentChunkStart': int, chunkId': nat)
      ensures ChunkAcc(chunks', currentChunk', currentChunkStart', chunkId')
           == ChunkStep(chunkSize, chunkOverlap, text, documentName,
                        ChunkAcc(chunks, currentChunk, currentChunkStart, chunkId), paragraph)
    {
      chunks', currentChunk', currentChunkStart', chunkId' := chunks, currentChunk, currentChunkStart, chunkId;
      if |paragraph| > chunkSize {
        chunks', chunkId' := FlushCurrent(documentName, chunks, currentChunk, currentChunkStart, chunkId);
        var paraChunks := SplitLongParagraph(paragraph);
        chunks', chunkId' := AddPieces(chunks', chunkId', paraChunks, documentName, |text|);
        currentChunk' := "";
        currentChunkStart' := |text|;
      } else if |currentChunk'| + |paragraph| > chunkSize {
        chunks', chunkId' := FlushCurrent(documentName, chunks, currentChunk, currentChunkStart, chunkId);
        if chunks' != [] && chunkOverlap > 0 {
          var prevChunk := chunks'[|chunks'| - 1].content;
          var overlapText := SliceFrom(prevChunk, -chunkOverlap);
          currentChunk' := overlapText + "\n\n" + paragraph;
        } else {
          currentChunk' := paragraph;
        }
        currentChunkStart' := |text| - |currentChunk'|;
      } else {
        if currentChunk' != [] {
          currentChunk' := currentChunk' + "\n\n" + paragraph;
        } else {
          currentChunk' := paragraph;
          currentChunkStart' := |text| - |currentChunk'|;
        }
      }
    }

    /** Closes the current chunk: it is emitted under the next id when it is not blank. */
    method FlushCurrent(documentName: string, chunks: seq<Chunk>, currentChunk: string, currentChunkStart: int,
                        chunkId: nat)
      returns (chunks': seq<Chunk>, chunkId': nat)
      ensures ChunkAcc(chunks', currentChunk, currentChunkStart, chunkId')
           == Flush(documentName, ChunkAcc(chunks, currentChunk, currentChunkStart, chunkId))
    {
      chunks', chunkId' := chunks, chunkId;
      if !IsBlank(currentChunk) {
        chunks' := chunks' + [CreateChunk(currentChunk, chunkId', documentName, currentChunkStart)];
        chunkId' := chunkId' + 1;
      }
    }

    /** The inner loop of `ChunkText` that emits the pieces of a long paragraph as chunks, numbered on. */
    method AddPieces(chunks: seq<Chunk>, chunkId: nat, pieces: seq<string>, documentName: string, startPos: int)
      returns (chunks': seq<Chunk>, chunkId': nat)
      ensures chunks' == chunks + PieceChunks(pieces, chunkId, documentName, startPos)
      ensures chunkId' == chunkId + |pieces|
    {
      chunks', chunkId' := chunks, chunkId;
      var j := 0;
      while j < |pieces|
        invariant j <= |pieces|
        invariant chunks' == chunks + PieceChunks(pieces[..j], chunkId, documentName, startPos)
        invariant chunkId' == chunkId + j
      {
        PieceChunksAppend(chunks, pieces, j, chunkId, documentName, startPos);
        chunks' := chunks' + [CreateChunk(pieces[j], chunkId', documentName, startPos)];
        chunkId' := chunkId' + 1;
        j := j + 1;
      }
      assert pieces[..|pieces|] == pieces;
    }
  }
}

=== FILE: docs.dfy ===
/**
 * The document routes: the listing with its file-name filter and pages, the overview
 * counters, the search across every indexed document, and the content of one document's
 * chunks.  Whether a document's index is loaded (what `get_index_stats` reports as its
 * status) and the results of searching one document are given as functions of the
 * document id.
 */
module DocsRoutes {
  import opened Wrappers
  import opened PyStr
  import opened Store
  import opened Ranking
  import opened Chunking
  import opened VectorStore

  const DefaultPageSize: nat := 20
  const MaxPageSize: nat := 100
  /** The cross-document search asks each document for at most this many results. */
  const PerDocumentResults: nat := 5
  const MaxSearchResults: nat := 50

  // ---------------------------------------------------------------------------------------
  // Listing: filter and pages
  // ---------------------------------------------------------------------------------------

  /** `if search:` holds for a given, non-empty term. */
  predicate HasTerm(search: Option<string>) {
    search.Some? && search.value != []
  }

  /** `search.lower() in doc['filename'].lower()` */
  predicate NameMatches(d: DocumentRecord, term: string) {
    Contains(Lower(d.filename), Lower(term))
  }

  /** The documents whose file name contains the term, ignoring case, in order. */
  function Matching(documents: seq<DocumentRecord>, term: string): (r: seq<DocumentRecord>)
    ensures |r| <= |documents|
  {
    if documents == [] then []
    else (if NameMatches(documents[0], term) then [documents[0]] else []) + Matching(documents[1..], term)
  }

  /** The listing's filter: every document without a term, the matching ones with one. */
  function FilterByName(documents: seq<DocumentRecord>, search: Option<string>): seq<DocumentRecord> {
    if HasTerm(search) then Matching(documents, search.value) else documents
  }

  lemma {:induction false} MatchingIff(documents: seq<DocumentRecord>, term: string)
    ensures forall d :: d in Matching(documents, term) <==> d in documents && NameMatches(d, term)
  {
    if documents != [] {
      MatchingIff(documents[1..], term);
      assert documents == [documents[0]] + documents[1..];
    }
  }

  /**
   * A document is listed exactly when it is one of the documents and, when a term is given,
   * its file name contains the term ignoring case.
   */
  lemma FilterByNameIff(documents: seq<DocumentRecord>, search: Option<string>)
    ensures forall d :: d in FilterByName(documents, search) <==>
      d in documents && (HasTerm(search) ==> NameMatches(d, search.value))
  {
    if HasTerm(search) {
      MatchingIff(documents, search.value);
    }
  }

  /** The query bounds on a page request. */
  predicate ValidPaging(page: int, pageSize: int) {
    page >= 1 && 1 <= pageSize <= MaxPageSize
  }

  /** `items[(page - 1) * page_size : (page - 1) * page_size + page_size]` */
  function Paginate<T>(items: seq<T>, page: int, pageSize: int): seq<T>
    requires ValidPaging(page, pageSize)
  {
    Slice(items, (page - 1) * pageSize, (page - 1) * pageSize + pageSize)
  }

  /**
   * A page holds the items from position `(page - 1) * page_size` on, at most `page_size` of
   * them, and is empty once that position is past the end.
   */
  lemma PaginateShape<T>(items: seq<T>, page: int, pageSize: int)
    requires ValidPaging(page, pageSize)
    ensures var start := (page - 1) * pageSize;
      var r := Paginate(items, page, pageSize);
      && 0 <= start
      && |r| <= pageSize
      && |r| == (if start >= |items| then 0 else if |items| - start < pageSize then |items| - start else pageSize)
      && forall i :: 0 <= i < |r| ==> r[i] == items[start + i]
  {
    MulNonNegative(page - 1, pageSize);
    Window(items, (page - 1) * pageSize, pageSize);
  }

  lemma MulNonNegative(a: int, b: int)
    requires a >= 0 && b >= 0
    ensures a * b >= 0
  {
  }

  /** `items[start:start + size]` for a start that is not negative. */
  lemma Window<T>(items: seq<T>, start: int, size: int)
    requires 0 <= start && 1 <= size
    ensures var r := Slice(items, start, start + size);
      && |r| <= size
      && |r| == (if start >= |items| then 0 else if |items| - start < size then |items| - start else size)
      && forall i :: 0 <= i < |r| ==> r[i] == items[start + i]
  {
  }

  /** Two different pages of the same size never hold the same position. */
  lemma PagesDisjoint<T>(items: seq<T>, p: int, q: int, pageSize: int, i: nat, j: nat)
    requires ValidPaging(p, pageSize) && ValidPaging(q, pageSize) && p != q
    requires i < |Paginate(items, p, pageSize)| && j < |Paginate(items, q, pageSize)|
    ensures (p - 1) * pageSize + i != (q - 1) * pageSize + j
  {
    PaginateShape(items, p, pageSize);
    PaginateShape(items, q, pageSize);
    if p < q {
      StartsApart(p, q, pageSize);
    } else {
      StartsApart(q, p, pageSize);
    }
  }

  /** A later page starts at least one page size after an earlier one. */
  lemma StartsApart(p: int, q: int, pageSize: int)
    requires 1 <= p < q && 1 <= pageSize
    ensures (p - 1) * pageSize + pageSize <= (q - 1) * pageSize
  {
    MulAtLeast(q - p, pageSize);
    Distribute(p - 1, q - p, pageSize);
  }

  lemma MulAtLeast(d: int, b: int)
    requires d >= 1 && b >= 1
    ensures d * b >= b
  {
  }

  lemma Distribute(a: int, d: int, b: int)
    ensures (a + d) * b == a * b + d * b
  {
  }

  /** Every item is on a page: item `idx` is entry `idx % page_size` of page `idx / page_size + 1`. */
  lemma PagesCover<T>(items: seq<T>, pageSize: int, idx: nat)
    requires 1 <= pageSize <= MaxPageSize && idx < |items|
    ensures var page := idx / pageSize + 1;
      && ValidPaging(page, pageSize)
      && idx % pageSize < |Paginate(items, page, pageSize)|
      && Paginate(items, page, pageSize)[idx % pageSize] == items[idx]
  {
    var page := idx / pageSize + 1;
    PaginateShape(items, page, pageSize);
    assert (page - 1) * pageSize + idx % pageSize == idx;
  }

  /** One entry of the listing. */
  datatype DocumentInfo = DocumentInfo(
    id: string,
    filename: string,
    uploadDate: nat,
    contentPreview: string,
    chunkCount: int,
    chatCount: int,
    status: string,
    processingComplete: bool)

  /** The entry for a record, with missing counters read as 0 and a missing status as "unknown". */
  function InfoOf(d: DocumentRecord, complete: bool): (info: DocumentInfo)
    ensures info.id == d.id && info.filename == d.filename && info.processingComplete == complete
    ensures info.chunkCount == (if d.chunkCount.Some? then d.chunkCount.value else 0)
    ensures info.chatCount == (if d.chatCount.Some? then d.chatCount.value else 0)
    ensures info.status == (if d.status.Some? then d.status.value else "unknown")
  {
    DocumentInfo(d.id, d.filename, d.uploadDate, d.contentPreview,
                 GetOr(d.chunkCount, 0), GetOr(d.chatCount, 0), GetOr(d.status, "unknown"), complete)
  }

  datatype DocumentList = DocumentList(documents: seq<DocumentInfo>, totalCount: nat, page: int, pageSize: int)

  /**
   * `list_documents`: the total counts the filtered documents before paging, and the
   * entries are the requested page of them, each marked complete when its index is loaded.
   */
  method ListDocuments(db: Database, page: int, pageSize: int, search: Option<string>, loaded: string -> bool)
    returns (r: DocumentList)
    requires ValidPaging(page, pageSize)
    ensures var filtered := FilterByName(db.AllDocuments(), search);
      var shown := Paginate(filtered, page, pageSize);
      && r.totalCount == |filtered| && r.page == page && r.pageSize == pageSize
      && |r.documents| == |shown|
      && forall i :: 0 <= i < |shown| ==> r.documents[i] == InfoOf(shown[i], loaded(shown[i].id))
  {
    var allDocuments := db.AllDocuments();
    allDocuments := FilterByName(allDocuments, search);
    var totalCount := |allDocuments|;
    var paginatedDocs := Paginate(allDocuments, page, pageSize);
    var documentsInfo: seq<DocumentInfo> := [];
    var i := 0;
    while i < |paginatedDocs|
      invariant i <= |paginatedDocs| && |documentsInfo| == i
      invariant forall j :: 0 <= j < i ==> documentsInfo[j] == InfoOf(paginatedDocs[j], loaded(paginatedDocs[j].id))
    {
      var doc := paginatedDocs[i];
      documentsInfo := documentsInfo + [InfoOf(doc, loaded(doc.id))];
      i := i + 1;
    }
    r := DocumentList(documentsInfo, totalCount, page, pageSize);
  }

  // ---------------------------------------------------------------------------------------
  // Overview
  // ---------------------------------------------------------------------------------------

  /** The number of documents whose index is loaded. */
  function CountLoaded(documents: seq<DocumentRecord>, loaded: string -> bool): (n: nat)
    ensures n <= |documents|
  {
    if documents == [] then 0
    else CountLoaded(documents[..|documents| - 1], loaded) + (if loaded(documents[|documents| - 1].id) then 1 else 0)
  }

  /** The sum of the chunk counts, a missing count read as 0. */
  function SumChunks(documents: seq<DocumentRecord>): int {
    if documents == [] then 0
    else SumChunks(documents[..|documents| - 1]) + GetOr(documents[|documents| - 1].chunkCount, 0)
  }

  /** The sum of the chat counts, a missing count read as 0. */
  function SumChats(documents: seq<DocumentRecord>): int {
    if documents == [] then 0
    else SumChats(documents[..|documents| - 1]) + GetOr(documents[|documents| - 1].chatCount, 0)
  }

  /** Every document is counted as complete exactly when every document's index is loaded. */
  lemma {:induction false} CountLoadedAll(documents: seq<DocumentRecord>, loaded: string -> bool)
    ensures CountLoaded(documents, loaded) == |documents| <==> forall i :: 0 <= i < |documents| ==> loaded(documents[i].id)
  {
    if documents != [] {
      var n := |documents| - 1;
      CountLoadedAll(documents[..n], loaded);
      if forall i :: 0 <= i < |documents| ==> loaded(documents[i].id) {
        assert forall i :: 0 <= i < n ==> loaded(documents[..n][i].id);
      } else if CountLoaded(documents, loaded) == |documents| {
        assert loaded(documents[n].id);
        forall i | 0 <= i < |documents| ensures loaded(documents[i].id) {
          if i < n {
            assert documents[..n][i] == documents[i];
          }
        }
      }
    }
  }

  datatype Overview = Overview(totalDocuments: nat, totalChunks: int, totalChats: int,
                               processingComplete: nat, processingPending: nat)

  /**
   * `get_documents_overview`: all zeros without documents; otherwise the chunk and chat
   * totals, the documents whose index is loaded, and the others as pending.
   */
  method DocumentsOverview(db: Database, loaded: string -> bool) returns (o: Overview)
    ensures var docs := db.AllDocuments();
      && o.totalDocuments == |docs|
      && o.totalChunks == SumChunks(docs) && o.totalChats == SumChats(docs)
      && o.processingComplete == CountLoaded(docs, loaded)
      && o.processingPending == |docs| - CountLoaded(docs, loaded)
    ensures db.documents == [] ==> o == Overview(0, 0, 0, 0, 0)
  {
    var allDocuments := db.AllDocuments();
    if allDocuments == [] {
      return Overview(0, 0, 0, 0, 0);
    }
    var processingComplete := 0;
    var totalChunks := 0;
    var totalChats := 0;
    var i := 0;
    while i < |allDocuments|
      invariant i <= |allDocuments|
      invariant processingComplete == CountLoaded(allDocuments[..i], loaded)
      invariant totalChunks == SumChunks(allDocuments[..i]) && totalChats == SumChats(allDocuments[..i])
    {
      var doc := allDocuments[i];
      assert allDocuments[..i + 1][..i] == allDocuments[..i];
      if loaded(doc.id) {
        processingComplete := processingComplete + 1;
      }
      totalChunks := totalChunks + GetOr(doc.chunkCount, 0);
      totalChats := totalChats + GetOr(doc.chatCount, 0);
      i := i + 1;
    }
    assert allDocuments[..i] == allDocuments;
    o := Overview(|allDocuments|, totalChunks, totalChats, processingComplete, |allDocuments| - processingComplete);
  }

  // ---------------------------------------------------------------------------------------
  // Search across documents
  // ---------------------------------------------------------------------------------------

  datatype DocumentRef = DocumentRef(id: string, filename: string, uploadDate: nat)

  /** A search result with the document it came from. */
  datatype DocumentHit = DocumentHit(result: SearchResult, documentInfo: DocumentRef)

  function HitScore(h: DocumentHit): real {
    h.result.similarityScore
  }

  function RefOf(d: DocumentRecord): DocumentRef {
    DocumentRef(d.id, d.filename, d.uploadDate)
  }

  /** One document's results, each tagged with the document. */
  function Tagged(results: seq<SearchResult>, d: DocumentRecord): (hits: seq<DocumentHit>)
    ensures |hits| == |results|
    ensures forall i :: 0 <= i < |results| ==> hits[i] == DocumentHit(results[i], RefOf(d))
  {
    seq(|results|, i requires 0 <= i < |results| => DocumentHit(results[i], RefOf(d)))
  }

  /** The tagged results of the documents whose index is loaded, document by document. */
  function Merged(documents: seq<DocumentRecord>, loaded: string -> bool, resultsFor: string -> seq<SearchResult>)
    : seq<DocumentHit>
  {
    if documents == [] then []
    else
      var d := documents[|documents| - 1];
      Merged(documents[..|documents| - 1], loaded, resultsFor) + (if loaded(d.id) then Tagged(resultsFor(d.id), d) else [])
  }

  /** Each searched document contributes at most five results, and only searched documents contribute. */
  lemma {:induction false} MergedBound(documents: seq<DocumentRecord>, loaded: string -> bool, resultsFor: string -> seq<SearchResult>)
    requires forall id :: |resultsFor(id)| <= PerDocumentResults
    ensures |Merged(documents, loaded, resultsFor)| <= PerDocumentResults * CountLoaded(documents, loaded)
  {
    if documents != [] {
      MergedBound(documents[..|documents| - 1], loaded, resultsFor);
    }
  }

  datatype CrossSearch = CrossSearch(results: seq<DocumentHit>, totalResults: nat, documentsSearched: nat)

  /**
   * `search_content_across_documents`: the documents whose index is loaded are searched and
   * counted, their tagged results merged, sorted by descending similarity (equal scores
   * keep their merged order) and cut to `max_results`.
   */
  method SearchAcrossDocuments(db: Database, maxResults: int, loaded: string -> bool,
                               resultsFor: string -> seq<SearchResult>)
    returns (r: CrossSearch)
    requires 1 <= maxResults <= MaxSearchResults
    ensures var docs := db.AllDocuments();
      && r.results == SliceTo(SortDesc(Merged(docs, loaded, resultsFor), HitScore), maxResults)
      && r.documentsSearched == CountLoaded(docs, loaded)
    ensures r.totalResults == |r.results| <= maxResults
  {
    var allDocuments := db.AllDocuments();
    if allDocuments == [] {
      return CrossSearch([], 0, 0);
    }
    var allResults: seq<DocumentHit> := [];
    var documentsSearched := 0;
    var i := 0;
    while i < |allDocuments|
      invariant i <= |allDocuments|
      invariant allResults == Merged(allDocuments[..i], loaded, resultsFor)
      invariant documentsSearched == CountLoaded(allDocuments[..i], loaded)
    {
      var doc := allDocuments[i];
      assert allDocuments[..i + 1][..i] == allDocuments[..i];
      if loaded(doc.id) {
        documentsSearched := documentsSearched + 1;
        var results := resultsFor(doc.id);
        allResults := allResults + Tagged(results, doc);
      }
      i := i + 1;
    }
    assert allDocuments[..i] == allDocuments;
    allResults := SortDesc(allResults, HitScore);
    var limited := SliceTo(allResults, maxResults);
    r := CrossSearch(limited, |limited|, documentsSearched);
  }

  /**
   * The results of a search across documents are sorted by descending similarity, are
   * merged results, are at most five per searched document, and are the best ones: no
   * merged result left out scores above one that was kept.
   */
  lemma CrossSearchRanked(merged: seq<DocumentHit>, maxResults: int)
    requires 1 <= maxResults
    ensures var r := SliceTo(SortDesc(merged, HitScore), maxResults);
      && SortedDesc(r, HitScore)
      && multiset(r) <= multiset(merged)
      && |r| == (if |merged| < maxResults then |merged| else maxResults)
      && forall x, y :: x in r && y in multiset(merged) - multiset(r) ==> HitScore(x) >= HitScore(y)
  {
    var sorted := SortDesc(merged, HitScore);
    SortDescCorrect(merged, HitScore);
    var r := SliceTo(sorted, maxResults);
    var n := |r|;
    SortedPrefix(sorted, n, HitScore);
    assert sorted == r + sorted[n..];
    assert multiset(sorted) == multiset(r) + multiset(sorted[n..]);
    forall x, y | x in r && y in multiset(merged) - multiset(r)
      ensures HitScore(x) >= HitScore(y)
    {
      assert y in sorted[n..];
    }
  }

  // ---------------------------------------------------------------------------------------
  // Chunk content
  // ---------------------------------------------------------------------------------------

  datatype ContentResponse =
    | ChunkFound(documentId: string, chunkId: int, content: string, metadata: Chunk)
    | AllChunks(documentId: string, filename: string, totalChunks: nat, chunks: seq<Chunk>)
    | HttpError(statusCode: nat, detail: string)

  /**
   * The chunk part of `get_document_content`, as written: every chunk without an id; an id
   * at or past the end is refused with 404; any other id indexes the records the Python way,
   * so a negative id from `-len` on counts from the end, and one below that raises and is
   * answered with 500.
   */
  function ChunkLookup(documentId: string, filename: string, metadata: seq<Chunk>, chunkId: Option<int>)
    : (r: ContentResponse)
    ensures chunkId.None? ==> r == AllChunks(documentId, filename, |metadata|, metadata)
    ensures chunkId.Some? && chunkId.value >= |metadata| ==> r == HttpError(404, "Chunk non trovato")
  {
    if chunkId.None? then AllChunks(documentId, filename, |metadata|, metadata)
    else
      var id := chunkId.value;
      if id >= |metadata| then HttpError(404, "Chunk non trovato")
      else if id >= -|metadata| then
        var chunk := metadata[if id < 0 then |metadata| + id else id];
        ChunkFound(documentId, id, chunk.content, chunk)
      else HttpError(500, "Errore interno: list index out of range")
  }

  /** As written, id -1 is answered with the last chunk, reported under id -1. */
  lemma NegativeChunkIdServed(documentId: string, filename: string, metadata: seq<Chunk>)
    requires metadata != []
    ensures ChunkLookup(documentId, filename, metadata, Some(-1))
      == ChunkFound(documentId, -1, metadata[|metadata| - 1].content, metadata[|metadata| - 1])
  {
  }

  /** The lookup with the evidently intended bound: an id outside the records is refused with 404. */
  function ChunkLookupChecked(documentId: string, filename: string, metadata: seq<Chunk>, chunkId: Option<int>)
    : (r: ContentResponse)
  {
    if chunkId.None? then AllChunks(documentId, filename, |metadata|, metadata)
    else
      var id := chunkId.value;
      if id < 0 || id >= |metadata| then HttpError(404, "Chunk non trovato")
      else ChunkFound(documentId, id, metadata[id].content, metadata[id])
  }

  /**
   * With the intended bound a chunk is served exactly when its id is a position of the
   * records, and it is the record at that position; nothing else is answered with 404.
   */
  lemma ChunkLookupCheckedSound(documentId: string, filename: string, metadata: seq<Chunk>, id: int)
    ensures var r := ChunkLookupChecked(documentId, filename, metadata, Some(id));
      && (r.ChunkFound? <==> 0 <= id < |metadata|)
      && (r.ChunkFound? ==> r.chunkId == id && r.metadata == metadata[id] && r.content == metadata[id].content)
      && (!r.ChunkFound? ==> r == HttpError(404, "Chunk non trovato"))
  {
  }

  /**
   * `get_document_content`: 404 for an unknown document; otherwise the chunk lookup, with the
   * intended bound, over the records of the store `get_store` gives for the document.
   */
  method GetDocumentContent(db: Database, manager: VectorStoreManager, documentId: string, chunkId: Option<int>,
                            saved: Option<(FlatIndex, seq<Chunk>)>)
    returns (r: ContentResponse)
    requires manager.Valid()
    modifies manager
    ensures manager.Valid()
    ensures db.Find(documentId).None? ==> r == HttpError(404, "Documento non trovato") && manager.stores == old(manager.stores)
    ensures db.Find(documentId).Some? && old(documentId in manager.stores) ==>
      r == ChunkLookupChecked(documentId, db.Find(documentId).value.filename, old(manager.stores[documentId].chunksMetadata), chunkId)
    ensures db.Find(documentId).Some? && old(documentId !in manager.stores) ==>
      r == ChunkLookupChecked(documentId, db.Find(documentId).value.filename, if saved.Some? then saved.value.1 else [], chunkId)
    ensures db.Find(documentId).Some? ==>
      CachedAfterGet(old(manager.stores), manager.stores, documentId, DefaultEmbeddingDim, saved)
  {
    var document := db.Find(documentId);
    if document.None? {
      return HttpError(404, "Documento non trovato");
    }
    var store := manager.GetStore(documentId, DefaultEmbeddingDim, saved);
    r := ChunkLookupChecked(documentId, document.value.filename, store.chunksMetadata, chunkId);
  }
}

=== FILE: indexing.dfy ===
/**
 * The indexing service: turning a document's text into chunks, embeddings and a vector store,
 * searching a document's store for a query, and shaping the search results into the contexts
 * and sources the chat uses.  The embedding model is an outside service: whether it loads
 * (and the dimension of its vectors), and whether encoding raises, are parameters.  Encoding
 * a list of texts yields one row per text, of the model's dimension.
 */
module Indexing {
  import opened Wrappers
  import opened Chunking
  import opened VectorStore

  const NoChunksError: string := "Nessun chunk generato dal documento"
  const StoreError: string := "Errore creazione vector store"
  const NotInitializedError: string := "Servizio di indicizzazione non inizializzato"
  const NothingRelevant: string := "Nessun contenuto rilevante trovato nel documento"
  const SearchErrorPrefix: string := "Errore durante la ricerca: "

  datatype IndexStatistics = IndexStatistics(totalCharacters: nat, totalWords: nat, chunks: nat)

  /** The outcome of `index_document`. */
  datatype IndexResult =
    | Indexed(documentId: string, chunksCount: nat, embeddingDimension: nat, statistics: IndexStatistics)
    | IndexFailed(error: string, chunksCount: nat)

  /** `sum(chunk['char_count'] for chunk in chunks)` */
  function TotalCharacters(chunks: seq<Chunk>): nat {
    if chunks == [] then 0 else TotalCharacters(chunks[..|chunks| - 1]) + chunks[|chunks| - 1].charCount
  }

  /** `sum(chunk['word_count'] for chunk in chunks)` */
  function TotalWords(chunks: seq<Chunk>): nat {
    if chunks == [] then 0 else TotalWords(chunks[..|chunks| - 1]) + chunks[|chunks| - 1].wordCount
  }

  /** The totals of two runs of chunks add up. */
  lemma {:induction false} TotalsAppend(a: seq<Chunk>, b: seq<Chunk>)
    ensures TotalCharacters(a + b) == TotalCharacters(a) + TotalCharacters(b)
    ensures TotalWords(a + b) == TotalWords(a) + TotalWords(b)
    decreases |b|
  {
    if b != [] {
      var n := |b| - 1;
      assert (a + b)[..|a + b| - 1] == a + b[..n];
      TotalsAppend(a, b[..n]);
    } else {
      assert a + b == a;
    }
  }

  /** Every chunk counts towards the totals: each total is at least any one chunk's count. */
  lemma {:induction false} TotalsCoverEachChunk(chunks: seq<Chunk>, i: nat)
    requires i < |chunks|
    ensures chunks[i].charCount <= TotalCharacters(chunks)
    ensures chunks[i].wordCount <= TotalWords(chunks)
    decreases |chunks|
  {
    var n := |chunks| - 1;
    if i < n {
      TotalsCoverEachChunk(chunks[..n], i);
    }
  }

  /** `[chunk['content'] for chunk in chunks]`: the texts sent to the embedding model. */
  function Contents(chunks: seq<Chunk>): (texts: seq<string>)
    ensures |texts| == |chunks|
    ensures forall i :: 0 <= i < |chunks| ==> texts[i] == chunks[i].content
  {
    seq(|chunks|, i requires 0 <= i < |chunks| => chunks[i].content)
  }

  /** One source of an answer: the chunk's id, its similarity and its word count. */
  datatype Source = Source(chunkId: nat, similarityScore: real, wordCount: nat)

  /** The outcome of `process_query`; a failed one has no contexts and no sources. */
  datatype QueryResult =
    | QueryFound(contexts: seq<string>, sources: seq<Source>, totalChunksFound: nat, query: string)
    | QueryFailed(message: string)

  /** `get_index_stats`: the statistics of the document's store, or the error that stopped it. */
  datatype IndexStats = StatsOf(stats: StoreStats) | StatsError(error: string)

  /** `index_stats.get("status") == "loaded"` */
  predicate IsLoaded(s: IndexStats) {
    s.StatsOf? && s.stats.Loaded?
  }

  /** The source recorded for a search result. */
  function SourceOf(r: SearchResult): (s: Source)
    ensures s.chunkId == r.chunkId && s.similarityScore == r.similarityScore
    ensures s.wordCount == r.chunkMetadata.wordCount
  {
    Source(r.chunkId, r.similarityScore, r.chunkMetadata.wordCount)
  }

  /**
   * The loop of `process_query` over the search results: the contexts and the sources are
   * aligned with the results, position by position.
   */
  method ProjectResults(results: seq<SearchResult>) returns (contexts: seq<string>, sources: seq<Source>)
    ensures |contexts| == |results| && |sources| == |results|
    ensures forall i :: 0 <= i < |results| ==> contexts[i] == results[i].content
    ensures forall i :: 0 <= i < |results| ==>
      && sources[i].chunkId == results[i].chunkId
      && sources[i].similarityScore == results[i].similarityScore
      && sources[i].wordCount == results[i].chunkMetadata.wordCount
  {
    contexts := [];
    sources := [];
    var i := 0;
    while i < |results|
      invariant i <= |results| && |contexts| == i && |sources| == i
      invariant forall j :: 0 <= j < i ==> contexts[j] == results[j].content && sources[j] == SourceOf(results[j])
    {
      contexts := contexts + [results[i].content];
      sources := sources + [SourceOf(results[i])];
      i := i + 1;
    }
  }

  /**
   * The model's dimension after `ensure_initialized`: set by the first successful load, and
   * kept otherwise.
   */
  function InitializedDim(wasReady: bool, dim: nat, modelDim: Option<nat>): (d: nat)
    ensures wasReady || modelDim.None? ==> d == dim
    ensures !wasReady && modelDim.Some? ==> d == modelDim.value
  {
    if !wasReady && modelDim.Some? then modelDim.value else dim
  }

  /**
   * The service behind indexing and search: whether the embedding model is loaded, the
   * dimension of its vectors, the shared cache of vector stores and the shared chunker.
   */
  class DocumentIndexer {
    var initialized: bool
    var embeddingDim: nat
    const manager: VectorStoreManager
    const chunker: TextChunker

    ghost predicate Valid()
      reads this, manager
    {
      manager.Valid()
    }

    constructor (manager: VectorStoreManager, chunker: TextChunker)
      ensures this.manager == manager && this.chunker == chunker && !initialized
    {
      this.manager := manager;
      this.chunker := chunker;
      initialized := false;
      embeddingDim := 0;
    }

    /**
     * `ensure_initialized`: a loaded model stays loaded; otherwise loading is tried once
     * (`modelDim` is the dimension of the loaded model, or nothing when loading fails), and
     * the result says whether the service is now ready.
     */
    method EnsureInitialized(modelDim: Option<nat>) returns (ready: bool)
      modifies this
      ensures ready == initialized
      ensures old(initialized) ==> initialized && embeddingDim == old(embeddingDim)
      ensures !old(initialized) ==> (initialized <==> modelDim.Some?)
      ensures !old(initialized) && modelDim.Some? ==> embeddingDim == modelDim.value
      ensures embeddingDim == InitializedDim(old(initialized), old(embeddingDim), modelDim)
    {
      if !initialized {
        if modelDim.Some? {
          initialized := true;
          embeddingDim := modelDim.value;
        }
      }
      ready := initialized;
    }

    /**
     * `index_document`.  The steps run in order and the first failure decides the result: the
     * service must be ready, the text must yield chunks, encoding their contents must not
     * raise, and the store must be created; `requested` holds the texts given to the model,
     * when it was called.  A success reports the chunk count, the model's dimension and the
     * summed character and word counts, and leaves the document's store in the cache.
     */
    method IndexDocument(documentId: string, text: string, documentName: string,
                         modelDim: Option<nat>, encodeError: Option<string>, saveOk: bool)
      returns (result: IndexResult, requested: Option<seq<string>>)
      requires Valid()
      modifies this, manager
      ensures Valid()
      ensures var chunks := ChunkTextSpec(chunker.chunkSize, chunker.chunkOverlap, text, documentName);
        && (!initialized ==> result == IndexFailed(NotInitializedError, 0) && requested.None?)
        && (initialized && chunks == [] ==> result == IndexFailed(NoChunksError, 0) && requested.None?)
        && (initialized && chunks != [] ==> requested == Some(Contents(chunks)))
        && (initialized && chunks != [] && encodeError.Some? ==> result == IndexFailed(encodeError.value, 0))
        && (initialized && chunks != [] && encodeError.None? && !saveOk ==> result == IndexFailed(StoreError, |chunks|))
        && (initialized && chunks != [] && encodeError.None? && saveOk ==>
              && result == Indexed(documentId, |chunks|, embeddingDim,
                                   IndexStatistics(TotalCharacters(chunks), TotalWords(chunks), |chunks|))
              && OnlyEntryChanged(old(manager.stores), manager.stores, documentId)
              && manager.stores[documentId].index == Some(FlatIndex(|chunks|))
              && manager.stores[documentId].chunksMetadata == chunks)
      ensures !result.Indexed? ==> manager.stores == old(manager.stores)
      ensures initialized <==> old(initialized) || modelDim.Some?
      ensures embeddingDim == InitializedDim(old(initialized), old(embeddingDim), modelDim)
    {
      requested := None;
      var ready := EnsureInitialized(modelDim);
      if !ready {
        return IndexFailed(NotInitializedError, 0), None;
      }
      var chunks := chunker.ChunkText(text, documentName);
      if chunks == [] {
        return IndexFailed(NoChunksError, 0), None;
      }
      var chunkTexts := Contents(chunks);
      requested := Some(chunkTexts);
      if encodeError.Some? {
        return IndexFailed(encodeError.value, 0), requested;
      }
      var embeddings := Embeddings(|chunkTexts|, embeddingDim);
      var success := manager.CreateStore(documentId, embeddings, chunks, embeddingDim, saveOk);
      if !success {
        return IndexFailed(StoreError, |chunks|), requested;
      }
      result := Indexed(documentId, |chunks|, embeddingDim,
                        IndexStatistics(TotalCharacters(chunks), TotalWords(chunks), |chunks|));
    }

    /**
     * `search_similar_chunks`: nothing when the service is not ready or the query cannot be
     * encoded; otherwise the search of the document's store as `get_store` gives it (the
     * cached one, or a new one loaded from what was saved for the document).
     */
    method SearchSimilarChunks(documentId: string, k: nat, scoreThreshold: real, modelDim: Option<nat>,
                               encodeError: Option<string>, saved: Option<(FlatIndex, seq<Chunk>)>, knn: Knn)
      returns (results: seq<SearchResult>)
      requires Valid()
      modifies this, manager
      ensures Valid()
      ensures initialized <==> old(initialized) || modelDim.Some?
      ensures |results| <= k
      ensures !initialized || encodeError.Some? ==> results == [] && manager.stores == old(manager.stores)
      ensures initialized && encodeError.None? && old(documentId in manager.stores) ==>
        var store := old(manager.stores[documentId]);
        results == StoreSearch(old(store.index), old(store.chunksMetadata), k, scoreThreshold, knn)
      ensures initialized && encodeError.None? && old(documentId !in manager.stores) ==>
        results == (if saved.None? then [] else StoreSearch(Some(saved.value.0), saved.value.1, k, scoreThreshold, knn))
      ensures initialized && encodeError.None? ==>
        CachedAfterGet(old(manager.stores), manager.stores, documentId, embeddingDim, saved)
      ensures embeddingDim == InitializedDim(old(initialized), old(embeddingDim), modelDim)
    {
      var ready := EnsureInitialized(modelDim);
      if !ready || encodeError.Some? {
        return [];
      }
      var store := manager.GetStore(documentId, embeddingDim, saved);
      results := store.Search(k, scoreThreshold, knn);
    }

    /** `delete_document_index`: the document's store is deleted through the cache. */
    method DeleteDocumentIndex(documentId: string, removeOk: bool) returns (success: bool)
      requires Valid()
      modifies manager, if documentId in manager.stores then {manager.stores[documentId]} else {}
      ensures Valid()
      ensures success == removeOk
      ensures manager.stores == old(manager.stores) - {documentId}
    {
      success := manager.DeleteStore(documentId, removeOk);
    }

    /**
     * `get_index_stats`: an error when the service cannot be made ready; otherwise the
     * statistics of the store `get_store` gives for the document, made with the default
     * dimension when it is not cached.
     */
    method GetIndexStats(documentId: string, modelDim: Option<nat>, saved: Option<(FlatIndex, seq<Chunk>)>)
      returns (stats: IndexStats)
      requires Valid()
      modifies this, manager
      ensures Valid()
      ensures !initialized ==> stats == StatsError(NotInitializedError) && manager.stores == old(manager.stores)
      ensures initialized && old(documentId in manager.stores) ==>
        stats == StatsOf(old(manager.stores[documentId].GetStats())) && manager.stores == old(manager.stores)
      ensures initialized && old(documentId !in manager.stores) ==>
        stats == StatsOf(SavedStats(DefaultEmbeddingDim, saved)) && (IsLoaded(stats) <==> saved.Some?)
      ensures initialized ==> CachedAfterGet(old(manager.stores), manager.stores, documentId, DefaultEmbeddingDim, saved)
      ensures initialized <==> old(initialized) || modelDim.Some?
      ensures embeddingDim == InitializedDim(old(initialized), old(embeddingDim), modelDim)
    {
      var ready := EnsureInitialized(modelDim);
      if !ready {
        return StatsError(NotInitializedError);
      }
      var s := manager.GetStoreStats(documentId, DefaultEmbeddingDim, saved);
      stats := StatsOf(s);
    }
  }

  /** The text of each retrieved chunk, in order. */
  function ContextsOf(found: seq<SearchResult>): seq<string> {
    seq(|found|, i requires 0 <= i < |found| => found[i].content)
  }

  /** The source records of the retrieved chunks, in order. */
  function SourcesOf(found: seq<SearchResult>): seq<Source> {
    seq(|found|, i requires 0 <= i < |found| => SourceOf(found[i]))
  }

  /**
   * What a query leaves in the service, given its readiness, dimension and cache before: the
   * model is loaded when it was or when loading succeeds, with its dimension; the cache is
   * untouched unless the search ran, and then it is the cache after `get_store`.
   */
  ghost predicate AfterQuery(indexer: DocumentIndexer, wasReady: bool, dim: nat, stores: map<string, FaissVectorStore>,
                             documentId: string, modelDim: Option<nat>, encodeError: Option<string>,
                             saved: Option<(FlatIndex, seq<Chunk>)>)
    reads indexer, indexer.manager
    reads if documentId in indexer.manager.stores then {indexer.manager.stores[documentId]} else {}
  {
    && (indexer.initialized <==> wasReady || modelDim.Some?)
    && indexer.embeddingDim == InitializedDim(wasReady, dim, modelDim)
    && (!indexer.initialized || encodeError.Some? ==> indexer.manager.stores == stores)
    && (indexer.initialized && encodeError.None? ==>
          CachedAfterGet(stores, indexer.manager.stores, documentId, indexer.embeddingDim, saved))
  }

  /**
   * `process_query`: the service must be ready, or the error is reported; then the search
   * for `max_chunks` results at `min_score`, and either the "nothing relevant" failure when
   * it finds nothing, or the contexts and sources aligned with its results.
   */
  method ProcessQuery(indexer: DocumentIndexer, documentId: string, query: string, maxChunks: nat, minScore: real,
                      modelDim: Option<nat>, encodeError: Option<string>,
                      saved: Option<(FlatIndex, seq<Chunk>)>, knn: Knn)
    returns (r: QueryResult, ghost found: seq<SearchResult>)
    requires indexer.Valid()
    modifies indexer, indexer.manager
    ensures indexer.Valid()
    ensures !indexer.initialized ==> r == QueryFailed(SearchErrorPrefix + NotInitializedError) && found == []
    ensures indexer.initialized && found == [] ==> r == QueryFailed(NothingRelevant)
    ensures r.QueryFailed? ==> found == []
    ensures |found| <= maxChunks
    ensures indexer.initialized ==>
      found == if encodeError.Some? then [] else old(indexer.manager.SearchThrough(documentId, saved, maxChunks, minScore, knn))
    ensures AfterQuery(indexer, old(indexer.initialized), old(indexer.embeddingDim), old(indexer.manager.stores),
                       documentId, modelDim, encodeError, saved)
    ensures r.QueryFound? ==>
      && found != [] && r.totalChunksFound == |found| && r.query == query
      && |r.contexts| == |found| && |r.sources| == |found|
      && (forall i :: 0 <= i < |found| ==> r.contexts[i] == found[i].content && r.sources[i] == SourceOf(found[i]))
    ensures r.QueryFound? ==> r.contexts == ContextsOf(found) && r.sources == SourcesOf(found)
  {
    var ready := indexer.EnsureInitialized(modelDim);
    if !ready {
      return QueryFailed(SearchErrorPrefix + NotInitializedError), [];
    }
    var similar := indexer.SearchSimilarChunks(documentId, maxChunks, minScore, modelDim, encodeError, saved, knn);
    found := similar;
    if similar == [] {
      return QueryFailed(NothingRelevant), found;
    }
    var contexts, sources := ProjectResults(similar);
    r := QueryFound(contexts, sources, |similar|, query);
  }
}

=== FILE: llm.dfy ===
/**
 * The question-answering side: the fixed system prompt, the user prompt that numbers the
 * retrieved context sections under a 2,500-character budget, the block of recent chat turns
 * added to the system prompt, the message list sent to the language model, and the answer
 * record built from the model's reply.  The model itself is not part of this module: its
 * reply (the text it produced, or the message of the exception it raised) is a parameter.
 */
module Llm {
  import opened Wrappers
  import opened PyStr
  import opened Store

  const SystemPrompt: string :=
    "Sei un assistente AI specializzato nell'analisi di documenti. \n\n"
    + "ISTRUZIONI:\n"
    + "- Rispondi basandoti SOLO sui contenuti forniti\n"
    + "- Se non hai informazioni sufficienti, dillo chiaramente\n"
    + "- Mantieni risposte concise ma complete\n"
    + "- Cita le parti specifiche del documento\n"
    + "- Usa un tono professionale, ma al contempo gentile e allegro\n\n"
    + "FORMATO RISPOSTA:\n"
    + "- Inizia con risposta diretta\n"
    + "- Aggiungi dettagli dal documento\n"
    + "- Concludi con riferimenti quando disponibili"

  /** The budget for the numbered context sections of the user prompt. */
  const MaxContextLength: nat := 2500

  /** At most this many retrieved contexts are given to the prompt builder. */
  const MaxContexts: nat := 3

  /** At most this many of the most recent chat turns are recalled in the system prompt. */
  const RecalledTurns: nat := 2

  /** A recalled answer is cut to this many characters. */
  const RecalledAnswerLength: nat := 200

  const ErrorPrefix: string := "Errore durante l'elaborazione: "
  const LlmErrorPrefix: string := "Errore LLM: "

  // ---------------------------------------------------------------------------------------
  // The user prompt
  // ---------------------------------------------------------------------------------------

  /** Context number `i` (counted from 0) as it appears in the prompt, numbered from 1. */
  function Section(i: nat, ctx: string): string {
    "SEZIONE " + NatToString(i + 1) + ":\n" + ctx + "\n\n"
  }

  /** The first `n` sections, in order. */
  function Sections(contexts: seq<string>, n: nat): (r: string)
    requires n <= |contexts|
    ensures n > 0 ==> |r| == |Sections(contexts, n - 1)| + |Section(n - 1, contexts[n - 1])|
  {
    if n == 0 then [] else Sections(contexts, n - 1) + Section(n - 1, contexts[n - 1])
  }

  lemma {:induction false} SectionsGrow(contexts: seq<string>, m: nat, n: nat)
    requires m <= n <= |contexts|
    ensures |Sections(contexts, m)| <= |Sections(contexts, n)|
    decreases n
  {
    if m < n {
      SectionsGrow(contexts, m, n - 1);
    }
  }

  /**
   * How many sections the prompt builder takes when the first `n` already fit: it goes on
   * until the next section would take the text past the budget, or the contexts run out.
   */
  function SectionsTaken(contexts: seq<string>, n: nat): (r: nat)
    requires n <= |contexts| && |Sections(contexts, n)| <= MaxContextLength
    ensures n <= r <= |contexts|
    ensures |Sections(contexts, r)| <= MaxContextLength
    ensures r == |contexts| || |Sections(contexts, r + 1)| > MaxContextLength
    decreases |contexts| - n
  {
    if n == |contexts| || |Sections(contexts, n + 1)| > MaxContextLength then n
    else SectionsTaken(contexts, n + 1)
  }

  /** The accumulated context text: the longest run of leading sections within the budget. */
  function ContextText(contexts: seq<string>): string {
    Sections(contexts, SectionsTaken(contexts, 0))
  }

  /**
   * The context text never exceeds the budget, every section in it fitted when it was added,
   * and it stops only at the end of the contexts or at the first section that does not fit.
   */
  lemma ContextTextBounded(contexts: seq<string>)
    ensures var n := SectionsTaken(contexts, 0);
      && ContextText(contexts) == Sections(contexts, n)
      && |ContextText(contexts)| <= MaxContextLength
      && (forall m :: 0 < m <= n ==> |Sections(contexts, m)| <= MaxContextLength)
      && (n < |contexts| ==> |Sections(contexts, n) + Section(n, contexts[n])| > MaxContextLength)
  {
    var n := SectionsTaken(contexts, 0);
    forall m | 0 < m <= n ensures |Sections(contexts, m)| <= MaxContextLength {
      SectionsGrow(contexts, m, n);
    }
  }

  /** A first section that alone exceeds the budget leaves the context text empty. */
  lemma FirstSectionTooLong(contexts: seq<string>)
    requires contexts != [] && |Section(0, contexts[0])| > MaxContextLength
    ensures ContextText(contexts) == []
  {
    assert |Sections(contexts, 1)| > MaxContextLength;
  }

  function UserPrompt(documentName: string, context: string, question: string): string {
    "DOCUMENTO: " + documentName + "\n\nCONTENUTO RILEVANTE:\n" + context
    + "\n\nDOMANDA: " + question
    + "\n\nRispondi alla domanda basandoti sui contenuti forniti dal documento \"" + documentName + "\"."
  }

  /** Whatever the context, the prompt opens with the document's name and contains the question. */
  lemma UserPromptMentions(documentName: string, context: string, question: string)
    ensures var p := UserPrompt(documentName, context, question);
      && |"DOCUMENTO: " + documentName| <= |p|
      && p[..|"DOCUMENTO: " + documentName|] == "DOCUMENTO: " + documentName
      && Contains(p, question)
  {
    var open := "DOCUMENTO: " + documentName;
    var s1 := open + "\n\nCONTENUTO RILEVANTE:\n";
    var s2 := s1 + context;
    var s3 := s2 + "\n\nDOMANDA: ";
    var s4 := s3 + question;
    var s5 := s4 + "\n\nRispondi alla domanda basandoti sui contenuti forniti dal documento \"";
    var s6 := s5 + documentName;
    assert UserPrompt(documentName, context, question) == s6 + "\".";
    StartsWith(open, open, []);
    StartsWith(open, s1, "\n\nCONTENUTO RILEVANTE:\n");
    StartsWith(open, s2, context);
    StartsWith(open, s3, "\n\nDOMANDA: ");
    StartsWith(open, s4, question);
    StartsWith(open, s5, "\n\nRispondi alla domanda basandoti sui contenuti forniti dal documento \"");
    StartsWith(open, s6, documentName);
    StartsWith(open, s6 + "\".", []);
    EndsWith(s3, question);
    ContainsExtend(s4, "\n\nRispondi alla domanda basandoti sui contenuti forniti dal documento \"", question);
    ContainsExtend(s5, documentName, question);
    ContainsExtend(s6, "\".", question);
  }

  lemma StartsWith(a: string, x: string, t: string)
    requires |a| <= |x| && x[..|a|] == a
    ensures |a| <= |x + t| && (x + t)[..|a|] == a
  {
    assert (x + t)[..|a|] == x[..|a|];
  }

  lemma EndsWith(a: string, b: string)
    ensures Contains(a + b, b)
  {
    assert OccursAt(a + b, b, |a|);
  }

  lemma ContainsExtend(s: string, t: string, sub: string)
    requires Contains(s, sub)
    ensures Contains(s + t, sub)
  {
    var i: nat :| i <= |s| && OccursAt(s, sub, i);
    assert (s + t)[i..i + |sub|] == s[i..i + |sub|];
    assert OccursAt(s + t, sub, i);
  }

  /** `RAGPromptBuilder.build_user_prompt` */
  method BuildUserPrompt(question: string, contexts: seq<string>, documentName: string) returns (prompt: string)
    ensures prompt == UserPrompt(documentName, Strip(ContextText(contexts)), question)
  {
    var contextText := "";
    var i := 0;
    while i < |contexts|
      invariant i <= |contexts|
      invariant contextText == Sections(contexts, i)
      invariant |contextText| <= MaxContextLength
      invariant SectionsTaken(contexts, i) == SectionsTaken(contexts, 0)
    {
      var section := Section(i, contexts[i]);
      if |contextText + section| > MaxContextLength {
        break;
      }
      contextText := contextText + section;
      i := i + 1;
    }
    prompt := UserPrompt(documentName, Strip(contextText), question);
  }

  // ---------------------------------------------------------------------------------------
  // Recalled chat turns and the system prompt
  // ---------------------------------------------------------------------------------------

  /** One recalled turn: the question, and the answer cut to 200 characters and always followed by "...". */
  function HistoryLine(m: ChatMessage): string {
    "Q: " + m.question + "\nR: " + SliceTo(m.answer, RecalledAnswerLength as int) + "..."
  }

  /** The lines for the last two turns of the history, oldest first. */
  function HistoryLines(history: seq<ChatMessage>): (lines: seq<string>)
    ensures |lines| == if |history| < RecalledTurns then |history| else RecalledTurns
    ensures forall i :: 0 <= i < |lines| ==> lines[i] == HistoryLine(history[|history| - |lines| + i])
  {
    var recent := SliceFrom(history, -(RecalledTurns as int));
    seq(|recent|, i requires 0 <= i < |recent| => HistoryLine(recent[i]))
  }

  /** A recalled line ends with "..." after at most 200 characters of the answer. */
  lemma HistoryLineShape(m: ChatMessage)
    ensures var line := HistoryLine(m);
      var cut := SliceTo(m.answer, RecalledAnswerLength as int);
      && |cut| <= RecalledAnswerLength && cut == m.answer[..|cut|]
      && line == "Q: " + m.question + "\nR: " + cut + "..."
      && line[|line| - 3..] == "..."
  {
  }

  /** The system prompt, followed by the recalled turns when there is any history. */
  function SystemPromptWith(history: seq<ChatMessage>): string {
    if history != [] then SystemPrompt + "\n\nCONTESTO PRECEDENTE:\n" + Join("\n", HistoryLines(history))
    else SystemPrompt
  }

  // ---------------------------------------------------------------------------------------
  // Messages and answers
  // ---------------------------------------------------------------------------------------

  datatype Message = Message(role: string, content: string)

  /** `if system_prompt:` is false for None and for the empty string. */
  predicate Truthy(s: Option<string>) {
    s.Some? && s.value != []
  }

  /** The message list of `OllamaClient.generate_response`. */
  method BuildMessages(prompt: string, systemPrompt: Option<string>) returns (messages: seq<Message>)
    ensures |messages| == if Truthy(systemPrompt) then 2 else 1
    ensures Truthy(systemPrompt) ==> messages[0] == Message("system", systemPrompt.value)
    ensures messages[|messages| - 1] == Message("user", prompt)
  {
    messages := [];
    if Truthy(systemPrompt) {
      messages := messages + [Message("system", systemPrompt.value)];
    }
    messages := messages + [Message("user", prompt)];
  }

  /**
   * `OllamaClient.generate_response`: the messages sent, and the model's reply or the
   * exception the method re-raises, whose message is prefixed with "Errore LLM: ".
   */
  method GenerateResponse(prompt: string, systemPrompt: Option<string>, reply: Result<string, string>)
    returns (response: Result<string, string>, messages: seq<Message>)
    ensures messages == if Truthy(systemPrompt) then [Message("system", systemPrompt.value), Message("user", prompt)]
                        else [Message("user", prompt)]
    ensures reply.Ok? ==> response == Ok(reply.value)
    ensures reply.Err? ==> response == Err(LlmErrorPrefix + reply.error)
  {
    messages := BuildMessages(prompt, systemPrompt);
    assert |messages| == 2 ==> messages == [messages[0], messages[1]];
    assert |messages| == 1 ==> messages == [messages[0]];
    match reply
    case Ok(content) => response := Ok(content);
    case Err(e) => response := Err(LlmErrorPrefix + e);
  }

  /**
   * The two prompts of `DocumentQA.answer_question`: the system prompt, extended with the
   * recalled turns when there is a history, and the user prompt over the first three contexts.
   */
  method BuildPrompts(question: string, contexts: seq<string>, documentName: string, history: seq<ChatMessage>)
    returns (systemPrompt: string, userPrompt: string)
    ensures systemPrompt == SystemPromptWith(history) && systemPrompt != []
    ensures userPrompt == UserPrompt(documentName, Strip(ContextText(SliceTo(contexts, MaxContexts as int))), question)
  {
    systemPrompt := SystemPrompt;
    if history != [] {
      var recentContext := Join("\n", HistoryLines(history));
      systemPrompt := systemPrompt + "\n\nCONTESTO PRECEDENTE:\n" + recentContext;
    }
    assert systemPrompt[0] == SystemPrompt[0];
    var limited := SliceTo(contexts, MaxContexts as int);
    userPrompt := BuildUserPrompt(question, limited, documentName);
  }

  /** The `status` of an answer record: "success" or "error". */
  datatype QaStatus = Success | Error

  datatype QaAnswer = QaAnswer(answer: string, model: string, contextCount: nat, status: QaStatus)

  /** The conversation `answer_question` sends: the system prompt with the recalled turns, then the user prompt. */
  function QaMessages(question: string, contexts: seq<string>, documentName: string, history: seq<ChatMessage>): seq<Message> {
    [Message("system", SystemPromptWith(history)),
     Message("user", UserPrompt(documentName, Strip(ContextText(SliceTo(contexts, MaxContexts as int))), question))]
  }

  /**
   * `DocumentQA.answer_question`: the system prompt recalls the last two turns when there is
   * a history, the user prompt is built from the first three contexts, and the answer record
   * reports the model's reply with the number of contexts used, or the error with the number
   * of contexts received.
   */
  method AnswerQuestion(question: string, contexts: seq<string>, documentName: string,
                        history: seq<ChatMessage>, model: string, reply: Result<string, string>)
    returns (r: QaAnswer, messages: seq<Message>)
    ensures messages == QaMessages(question, contexts, documentName, history)
    ensures r.model == model
    ensures r.status == Success <==> reply.Ok?
    ensures reply.Ok? ==> r.answer == reply.value && r.contextCount == (if |contexts| < MaxContexts then |contexts| else MaxContexts)
    ensures reply.Err? ==> r.answer == ErrorPrefix + (LlmErrorPrefix + reply.error) && r.contextCount == |contexts|
  {
    var systemPrompt, userPrompt := BuildPrompts(question, contexts, documentName, history);
    var response;
    assert Truthy(Some(systemPrompt));
    response, messages := GenerateResponse(userPrompt, Some(systemPrompt), reply);
    match response
    case Ok(answer) =>
      r := QaAnswer(answer, model, |SliceTo(contexts, MaxContexts as int)|, Success);
    case Err(e) =>
      r := QaAnswer(ErrorPrefix + e, model, |contexts|, Error);
  }
}

=== FILE: parsing.dfy ===
/**
 * The PDF parser: per-page text cleaning, assembly of the extracted pages into one text with
 * page markers, the content preview and the supported-file test.  Decoding a PDF is outside
 * the model: a document arrives as the list of its raw page texts, or as the error that
 * opening it raised.
 */
module Parsing {
  import opened Wrappers
  import opened PyStr
  import opened Patterns

  // ---------------------------------------------------------------------------------------
  // Text cleaning
  // ---------------------------------------------------------------------------------------

  predicate NoControl(s: string) {
    forall k :: 0 <= k < |s| ==> !IsControl(s[k])
  }

  /** Every whitespace character is a plain space, and no two whitespace characters are adjacent. */
  predicate SpacesCollapsed(s: string) {
    && (forall k :: 0 <= k < |s| && IsSpace(s[k]) ==> s[k] == ' ')
    && (forall k :: 0 <= k < |s| - 1 && IsSpace(s[k]) ==> !IsSpace(s[k + 1]))
  }

  /**
   * The cleaning of one page: control characters are removed, every whitespace run becomes a
   * single space, blank lines are reduced to one, and the result is stripped.
   */
  function CleanText(text: string): string {
    if text == [] then []
    else Strip(Sub(BlankLine, Sub(SpaceRun, Sub(ControlChar, text, ""), " "), "\n\n"))
  }

  /**
   * A cleaned page has no newline, no two adjacent whitespace characters, no control
   * character and no whitespace at either end; an empty page stays empty.
   */
  lemma CleanTextShape(text: string)
    ensures var r := CleanText(text);
      && (text == [] ==> r == [])
      && IsStripped(r) && NoControl(r) && SpacesCollapsed(r)
      && '\n' !in r
  {
    if text != [] {
      var a := Sub(ControlChar, text, "");
      var b := Sub(SpaceRun, a, " ");
      ControlCharsRemoved(text, 0);
      SpaceRunsCollapsed(a, 0);
      NoBlankLineAfterCollapse(b);
      var r := Strip(b);
      CleanSlice(b, RunEnd(b, 0, IsSpace), RunEnd(b, 0, IsSpace) + |r|);
    }
  }

  lemma {:induction false} ControlCharsRemoved(s: string, pos: nat)
    requires pos <= |s|
    ensures NoControl(SubFrom(ControlChar, s, "", pos))
    decreases |s| - pos
  {
    if pos < |s| {
      ControlCharsRemoved(s, pos + 1);
    }
  }

  /**
   * Replacing every whitespace run of a control-free text by one space leaves a text whose
   * first character is whitespace exactly when the text's was.
   */
  lemma {:induction false} SpaceRunsCollapsed(s: string, pos: nat)
    requires pos <= |s| && NoControl(s)
    ensures var r := SubFrom(SpaceRun, s, " ", pos);
      && NoControl(r) && SpacesCollapsed(r)
      && (pos < |s| ==> r != [] && (IsSpace(r[0]) <==> IsSpace(s[pos])))
    decreases |s| - pos
  {
    if pos < |s| {
      match MatchAt(SpaceRun, s, pos)
      case Some(e) =>
        assert e == RunEnd(s, pos, IsSpace);
        var rest := SubFrom(SpaceRun, s, " ", e);
        assert SubFrom(SpaceRun, s, " ", pos) == [' '] + rest;
        SpaceRunsCollapsed(s, e);
        ConsCollapsed(' ', rest);
      case None =>
        var rest := SubFrom(SpaceRun, s, " ", pos + 1);
        assert SubFrom(SpaceRun, s, " ", pos) == [s[pos]] + rest;
        SpaceRunsCollapsed(s, pos + 1);
        ConsCollapsed(s[pos], rest);
    }
  }

  lemma ConsCollapsed(c: char, rest: string)
    requires !IsControl(c) && NoControl(rest) && SpacesCollapsed(rest)
    requires IsSpace(c) ==> c == ' ' && (rest == [] || !IsSpace(rest[0]))
    ensures NoControl([c] + rest) && SpacesCollapsed([c] + rest)
  {
    var r := [c] + rest;
    forall k | 1 <= k < |r| ensures r[k] == rest[k - 1] { }
  }

  lemma NoBlankLineAfterCollapse(s: string)
    requires SpacesCollapsed(s)
    ensures Sub(BlankLine, s, "\n\n") == s
  {
    assert MatchFree(BlankLine, s, 0, |s|);
  }

  lemma CleanSlice(s: string, lo: nat, hi: nat)
    requires lo <= hi <= |s|
    requires NoControl(s) && SpacesCollapsed(s)
    ensures NoControl(s[lo..hi]) && SpacesCollapsed(s[lo..hi])
  {
    var t := s[lo..hi];
    forall k | 0 <= k < |t| ensures t[k] == s[lo + k] { }
  }

  // ---------------------------------------------------------------------------------------
  // Content preview
  // ---------------------------------------------------------------------------------------

  /**
   * A text no longer than `maxLength` is returned unchanged.  A longer one is cut to
   * `maxLength` characters, or just after the last period of that cut when the period lies
   * past 70% of `maxLength`, and "..." is appended.  The 70% threshold is compared exactly,
   * as 10 * index > 7 * maxLength.
   */
  function ContentPreview(fullText: string, maxLength: int := 500): (r: string)
    ensures |fullText| <= maxLength ==> r == fullText
    ensures |fullText| > maxLength ==> 3 <= |r| <= |fullText| + 3 && r[|r| - 3..] == "..." && r[..|r| - 3] == fullText[..|r| - 3]
    ensures |fullText| > maxLength >= 0 ==> |r| <= maxLength + 3
    ensures |fullText| > maxLength >= 0 ==> PreviewCut(fullText, maxLength, |r| - 3)
  {
    if |fullText| <= maxLength then fullText
    else
      var truncated := SliceTo(fullText, maxLength);
      var lastSentence := RFind(truncated, '.');
      if 10 * lastSentence > 7 * maxLength then
        var r := SliceTo(truncated, lastSentence + 1) + "...";
        assert maxLength >= 0 ==> PreviewCut(fullText, maxLength, |r| - 3);
        r
      else
        var r := truncated + "...";
        assert maxLength >= 0 ==> PreviewCut(fullText, maxLength, |r| - 3) by {
          if maxLength >= 0 {
            assert truncated == fullText[..maxLength];
            forall k | 0 <= k < maxLength && 7 * maxLength < 10 * k ensures fullText[k] != '.' {
              assert truncated[k] == fullText[k];
            }
          }
        }
        r
  }

  /**
   * Where a preview of a text longer than `maxLength` may be cut: at `maxLength` when no
   * period lies past 70% of it, or just after the last period of the first `maxLength`
   * characters when that period lies past 70%.
   */
  predicate PreviewCut(fullText: string, maxLength: nat, cut: int)
    requires maxLength < |fullText|
  {
    || (cut == maxLength && forall k :: 0 <= k < maxLength && 7 * maxLength < 10 * k ==> fullText[k] != '.')
    || (2 <= cut <= maxLength && fullText[cut - 1] == '.' && 7 * maxLength < 10 * (cut - 1)
        && forall k :: cut <= k < maxLength ==> fullText[k] != '.')
  }

  // ---------------------------------------------------------------------------------------
  // Supported files
  // ---------------------------------------------------------------------------------------

  const SupportedExtensions: seq<string> := [".pdf"]

  /**
   * The final component of a POSIX path, as `PurePath.name`: empty components and "."
   * components are skipped, and a path with no other component has the empty name.
   */
  function PathName(path: string): (r: string)
    ensures '/' !in r
    decreases |path|
  {
    var j := RFind(path, '/');
    var last := path[j + 1..];
    if last != "" && last != "." then last
    else if j < 0 then ""
    else PathName(path[..j])
  }

  /** `PurePath.suffix`: from the last '.' of the name, unless that '.' is its first or last character. */
  function PathSuffix(path: string): (r: string)
    ensures r == [] || (|r| >= 2 && r[0] == '.' && '.' !in r[1..])
  {
    NameSuffix(PathName(path))
  }

  /** The suffix of a final path component. */
  function NameSuffix(name: string): (r: string)
    ensures r == [] || (|r| >= 2 && r[0] == '.' && '.' !in r[1..])
  {
    var i := RFind(name, '.');
    if 0 < i < |name| - 1 then name[i..] else ""
  }

  /** The lower-cased suffix is one of the supported extensions. */
  predicate IsSupportedFile(filename: string) {
    Lower(PathSuffix(filename)) in SupportedExtensions
  }

  /** A file is supported exactly when its name has a stem and ends in ".pdf" in any letter case. */
  lemma SupportedFileIff(filename: string)
    ensures IsSupportedFile(filename) <==>
      var name := PathName(filename);
      |name| >= 5 && Lower(name[|name| - 4..]) == ".pdf"
  {
    SupportedNameIff(PathName(filename));
  }

  lemma SupportedNameIff(name: string)
    ensures Lower(NameSuffix(name)) in SupportedExtensions <==> |name| >= 5 && Lower(name[|name| - 4..]) == ".pdf"
  {
    var i := RFind(name, '.');
    var suf := NameSuffix(name);
    assert Lower(suf) in SupportedExtensions <==> Lower(suf) == ".pdf";
    if 0 < i < |name| - 1 {
      assert suf == name[i..];
      if Lower(suf) == ".pdf" {
        SupportedSuffixShape(name);
      }
    } else {
      assert |Lower(suf)| == 0;
    }
    if |name| >= 5 && Lower(name[|name| - 4..]) == ".pdf" {
      PdfEndingIsSuffix(name);
    }
  }

  lemma SupportedSuffixShape(name: string)
    requires var i := RFind(name, '.'); 0 < i < |name| - 1 && Lower(name[i..]) == ".pdf"
    ensures |name| >= 5 && Lower(name[|name| - 4..]) == ".pdf"
  {
    var i := RFind(name, '.');
    assert |Lower(name[i..])| == 4;
  }

  lemma PdfEndingIsSuffix(name: string)
    requires |name| >= 5 && Lower(name[|name| - 4..]) == ".pdf"
    ensures var i := RFind(name, '.'); 0 < i < |name| - 1 && name[i..] == name[|name| - 4..]
  {
    var n := |name|;
    var t := Lower(name[n - 4..]);
    assert t[0] == '.' && t[1] == 'p' && t[2] == 'd' && t[3] == 'f';
    assert name[n - 4] == '.';
    assert name[n - 3] != '.' && name[n - 2] != '.' && name[n - 1] != '.';
  }

  // ---------------------------------------------------------------------------------------
  // Page assembly
  // ---------------------------------------------------------------------------------------

  datatype PageInfo = PageInfo(pageNumber: nat, text: string, charCount: nat, wordCount: nat)

  datatype Extraction =
    | ExtractionFailed(error: string)
    | Extracted(fullText: string, pages: seq<PageInfo>, pageCount: nat,
                totalPages: nat, totalCharacters: nat, totalWords: nat)

  /** The marker that introduces page `n` in the extracted text. */
  function PageHeader(n: nat): string {
    "\n\n" + PageMarkerHead + NatToString(n) + PageMarkerTail + "\n"
  }

  /** The information kept about page `n` (counted from 1) once its text has been cleaned. */
  function PageOf(n: nat, cleaned: string): PageInfo {
    PageInfo(n, cleaned, |cleaned|, |Words(cleaned)|)
  }

  /** The cleaned text of every page, in order. */
  function CleanedPages(raw: seq<string>): (cleaned: seq<string>)
    ensures |cleaned| == |raw|
    ensures forall n :: 0 <= n < |raw| ==> cleaned[n] == CleanText(raw[n])
  {
    seq(|raw|, n requires 0 <= n < |raw| => CleanText(raw[n]))
  }

  /** The pages whose (cleaned) text is not blank, numbered from 1 by position, in order. */
  function KeptPages(cleaned: seq<string>): seq<PageInfo> {
    if cleaned == [] then []
    else
      var n := |cleaned| - 1;
      KeptPages(cleaned[..n]) + (if IsBlank(cleaned[n]) then [] else [PageOf(n + 1, cleaned[n])])
  }

  /** The extracted text: every kept page preceded by its marker. */
  function AssembledText(pages: seq<PageInfo>): string {
    if pages == [] then []
    else AssembledText(pages[..|pages| - 1]) + PageHeader(pages[|pages| - 1].pageNumber) + pages[|pages| - 1].text
  }

  /** The last step of `KeptPages`, for the page at index `n`. */
  lemma KeptPagesStep(cleaned: seq<string>, n: nat)
    requires n < |cleaned|
    ensures KeptPages(cleaned[..n + 1]) ==
      KeptPages(cleaned[..n]) + (if IsBlank(cleaned[n]) then [] else [PageOf(n + 1, cleaned[n])])
  {
    assert cleaned[..n + 1][..n] == cleaned[..n];
  }

  /**
   * `page` is numbered from 1 by its position in `cleaned` and holds that page's text,
   * which is not blank, with the text's character and word counts.
   */
  predicate PageHolds(cleaned: seq<string>, page: PageInfo) {
    && 1 <= page.pageNumber <= |cleaned|
    && page.text == cleaned[page.pageNumber - 1] && !IsBlank(page.text)
    && page.charCount == |page.text| && page.wordCount == |Words(page.text)|
  }

  /**
   * Every kept page is numbered from 1 by its position in the document and holds that page's
   * text, which is not blank, with the text's character and word counts.
   */
  lemma {:induction false} KeptPagesContents(cleaned: seq<string>)
    ensures forall j :: 0 <= j < |KeptPages(cleaned)| ==> PageHolds(cleaned, KeptPages(cleaned)[j])
  {
    if cleaned != [] {
      var n := |cleaned| - 1;
      var init := cleaned[..n];
      KeptPagesContents(init);
      var before := KeptPages(init);
      var pages := KeptPages(cleaned);
      forall j | 0 <= j < |pages| ensures PageHolds(cleaned, pages[j]) {
        if j < |before| {
          assert pages[j] == before[j];
          assert PageHolds(init, before[j]);
          assert init[before[j].pageNumber - 1] == cleaned[before[j].pageNumber - 1];
        } else {
          assert pages[j] == PageOf(n + 1, cleaned[n]);
        }
      }
    }
  }

  /** Kept pages appear in increasing page order. */
  lemma {:induction false} KeptPagesOrdered(cleaned: seq<string>)
    ensures forall j, k :: 0 <= j < k < |KeptPages(cleaned)| ==> KeptPages(cleaned)[j].pageNumber < KeptPages(cleaned)[k].pageNumber
  {
    if cleaned != [] {
      var n := |cleaned| - 1;
      var init := cleaned[..n];
      KeptPagesOrdered(init);
      KeptPagesContents(init);
      var before := KeptPages(init);
      var pages := KeptPages(cleaned);
      forall j, k | 0 <= j < k < |pages| ensures pages[j].pageNumber < pages[k].pageNumber {
        assert pages[j] == before[j];
        assert PageHolds(init, before[j]);
        if k < |before| {
          assert pages[k] == before[k];
        } else {
          assert pages[k].pageNumber == n + 1;
        }
      }
    }
  }

  /** Some page of `pages` carries the number `number`. */
  predicate HasPage(pages: seq<PageInfo>, number: int) {
    exists j :: 0 <= j < |pages| && pages[j].pageNumber == number
  }

  /** No page whose text is not blank is dropped. */
  lemma {:induction false} KeptPagesComplete(cleaned: seq<string>)
    ensures forall n :: 0 <= n < |cleaned| && !IsBlank(cleaned[n]) ==> HasPage(KeptPages(cleaned), n + 1)
  {
    if cleaned != [] {
      var last := |cleaned| - 1;
      var init := cleaned[..last];
      KeptPagesComplete(init);
      var pages := KeptPages(cleaned);
      var before := KeptPages(init);
      forall n | 0 <= n < |cleaned| && !IsBlank(cleaned[n]) ensures HasPage(pages, n + 1) {
        if n < last {
          assert init[n] == cleaned[n];
          var j :| 0 <= j < |before| && before[j].pageNumber == n + 1;
          assert pages[j] == before[j];
        } else {
          assert pages == before + [PageOf(n + 1, cleaned[n])];
          assert pages[|before|].pageNumber == n + 1;
        }
      }
    }
  }

  /**
   * The page loop of the extractor.  A document that cannot be opened gives a failure; for
   * one that can, the pages with non-blank cleaned text are kept in order and the full text
   * is their concatenation, each page preceded by its marker.
   */
  method ExtractText(document: Result<seq<string>, string>) returns (r: Extraction)
    ensures document.Err? ==> r == ExtractionFailed(document.error)
    ensures document.Ok? ==>
      && r.Extracted?
      && r.pages == KeptPages(CleanedPages(document.value))
      && r.fullText == AssembledText(r.pages)
      && r.pageCount == |document.value|
      && r.totalPages == |r.pages|
      && r.totalCharacters == |r.fullText|
      && r.totalWords == |Words(r.fullText)|
  {
    if document.Err? {
      return ExtractionFailed(document.error);
    }
    var raw := document.value;
    var pagesContent: seq<PageInfo> := [];
    var fullText := "";
    var pageNum := 0;
    ghost var cleaned := CleanedPages(raw);
    while pageNum < |raw|
      invariant pageNum <= |raw|
      invariant pagesContent == KeptPages(cleaned[..pageNum])
      invariant fullText == AssembledText(pagesContent)
    {
      var cleanedText := CleanText(raw[pageNum]);
      KeptPagesStep(cleaned, pageNum);
      if !IsBlank(cleanedText) {
        var pageInfo := PageOf(pageNum + 1, cleanedText);
        pagesContent := pagesContent + [pageInfo];
        fullText := fullText + PageHeader(pageNum + 1) + cleanedText;
      }
      pageNum := pageNum + 1;
    }
    assert cleaned[..|raw|] == cleaned;
    r := Extracted(fullText, pagesContent, |raw|, |pagesContent|, |fullText|, |Words(fullText)|);
  }
}

=== FILE: patterns.dfy ===
/**
 * The regular expressions of the text pipeline, each written out as an explicit matcher with
 * the leftmost, greedy semantics of Python's `re` module, together with `re.split` and
 * `re.sub` over them.  None of the patterns can match the empty string, so the special
 * rules `re` has for empty matches never apply.
 */
module Patterns {
  import opened Wrappers
  import opened PyStr

  datatype Pattern =
    | ControlChar     // one character of the class removed by the page cleaner
    | SpaceRun        // one or more whitespace characters
    | BlankLine       // a newline, any whitespace, a newline
    | ParagraphBreak  // a blank line, or else a page marker "--- PAGINA <digits> ---"
    | SentenceBreak   // one or more of . ! ? followed by one or more whitespace characters

  /** U+0000..U+0008, U+000B, U+000C, U+000E..U+001F and U+007F (tab, newline and CR are kept). */
  predicate IsControl(c: char) {
    c <= '\U{08}' || c == '\U{0B}' || c == '\U{0C}' || ('\U{0E}' <= c <= '\U{1F}') || c == '\U{7F}'
  }

  predicate IsDigit(c: char) {
    '0' <= c <= '9'
  }

  predicate IsPunct(c: char) {
    c == '.' || c == '!' || c == '?'
  }

  /** Every character of `s[lo..hi]` satisfies `p`. */
  predicate AllIn(s: string, lo: nat, hi: nat, p: char -> bool)
    requires lo <= hi <= |s|
  {
    forall k :: lo <= k < hi ==> p(s[k])
  }

  const PageMarkerHead := "--- PAGINA "
  const PageMarkerTail := " ---"

  // ---------------------------------------------------------------------------------------
  // What it means for `s[i..e]` to be a match (the reference definitions)
  // ---------------------------------------------------------------------------------------

  predicate IsBlankLineMatch(s: string, i: nat, e: nat) {
    i + 2 <= e <= |s| && s[i] == '\n' && s[e - 1] == '\n' && IsBlank(s[i + 1..e - 1])
  }

  predicate IsPageMarkerMatch(s: string, i: nat, e: nat) {
    e <= |s| && i + |PageMarkerHead| + |PageMarkerTail| < e
    && s[i..i + |PageMarkerHead|] == PageMarkerHead
    && AllIn(s, i + |PageMarkerHead|, e - |PageMarkerTail|, IsDigit)
    && s[e - |PageMarkerTail|..e] == PageMarkerTail
  }

  predicate IsSentenceBreakMatch(s: string, i: nat, e: nat) {
    e <= |s| && exists m :: i < m < e && AllIn(s, i, m, IsPunct) && IsBlank(s[m..e])
  }

  /** `s[i..e]` is a (non-empty) match of `p` starting at `i`. */
  predicate Matches(p: Pattern, s: string, i: nat, e: nat) {
    i < e <= |s| &&
    match p
    case ControlChar => e == i + 1 && IsControl(s[i])
    case SpaceRun => IsBlank(s[i..e])
    case BlankLine => IsBlankLineMatch(s, i, e)
    case ParagraphBreak => IsBlankLineMatch(s, i, e) || IsPageMarkerMatch(s, i, e)
    case SentenceBreak => IsSentenceBreakMatch(s, i, e)
  }

  // ---------------------------------------------------------------------------------------
  // The matchers
  // ---------------------------------------------------------------------------------------

  /** The last index in `[lo, hi)` holding `c`. */
  function LastIndexIn(s: string, lo: nat, hi: nat, c: char): (r: Option<nat>)
    requires lo <= hi <= |s|
    ensures r.Some? ==> lo <= r.value < hi && s[r.value] == c
    ensures r.Some? ==> forall k :: r.value < k < hi ==> s[k] != c
    ensures r.None? ==> forall k :: lo <= k < hi ==> s[k] != c
    decreases hi
  {
    if hi == lo then None else if s[hi - 1] == c then Some(hi - 1) else LastIndexIn(s, lo, hi - 1, c)
  }

  /**
   * Greedy `\s*` runs to the end of the whitespace after the newline; backtracking then gives
   * back characters until the last of them is a newline.
   */
  function BlankLineAt(s: string, i: nat): Option<nat>
    requires i < |s|
  {
    if s[i] != '\n' then None
    else
      var r := RunEnd(s, i + 1, IsSpace);
      match LastIndexIn(s, i + 1, r, '\n')
      case None => None
      case Some(j) => Some(j + 1)
  }

  function PageMarkerAt(s: string, i: nat): Option<nat>
    requires i < |s|
  {
    var h := i + |PageMarkerHead|;
    if h <= |s| && s[i..h] == PageMarkerHead then
      var d := RunEnd(s, h, IsDigit);
      if h < d && d + |PageMarkerTail| <= |s| && s[d..d + |PageMarkerTail|] == PageMarkerTail then
        Some(d + |PageMarkerTail|)
      else None
    else None
  }

  function SentenceBreakAt(s: string, i: nat): Option<nat>
    requires i < |s|
  {
    var m := RunEnd(s, i, IsPunct);
    if i < m < |s| && IsSpace(s[m]) then Some(RunEnd(s, m, IsSpace)) else None
  }

  /**
   * The match of `p` that the regex engine finds when it tries position `i`: the longest
   * match starting there, or none at all.
   */
  function MatchAt(p: Pattern, s: string, i: nat): Option<nat>
    requires i <= |s|
  {
    if i == |s| then None
    else
      match p
      case ControlChar => if IsControl(s[i]) then Some(i + 1) else None
      case SpaceRun => if IsSpace(s[i]) then Some(RunEnd(s, i, IsSpace)) else None
      case BlankLine => BlankLineAt(s, i)
      case ParagraphBreak => if s[i] == '\n' then BlankLineAt(s, i) else PageMarkerAt(s, i)
      case SentenceBreak => SentenceBreakAt(s, i)
  }

  /** What the engine finds at `i` is a match, and no match starting at `i` is longer. */
  lemma MatchAtLongest(p: Pattern, s: string, i: nat)
    requires i <= |s|
    ensures var r := MatchAt(p, s, i);
      && (r.Some? ==> Matches(p, s, i, r.value))
      && (r.Some? ==> forall e: nat :: Matches(p, s, i, e) ==> e <= r.value)
      && (r.None? ==> forall e: nat :: !Matches(p, s, i, e))
  {
    if i < |s| {
      match p
      case ControlChar =>
      case SpaceRun => SpaceRunLongest(s, i);
      case BlankLine => BlankLineLongest(s, i);
      case ParagraphBreak =>
        BlankLineLongest(s, i);
        PageMarkerLongest(s, i);
      case SentenceBreak => SentenceBreakLongest(s, i);
    }
  }

  lemma SpaceRunLongest(s: string, i: nat)
    requires i < |s|
    ensures IsSpace(s[i]) ==> Matches(SpaceRun, s, i, RunEnd(s, i, IsSpace))
    ensures forall e: nat :: Matches(SpaceRun, s, i, e) ==> IsSpace(s[i]) && e <= RunEnd(s, i, IsSpace)
  {
    var r := RunEnd(s, i, IsSpace);
    if IsSpace(s[i]) {
      assert IsBlank(s[i..r]) by {
        forall k | 0 <= k < r - i ensures IsSpace(s[i..r][k]) { assert s[i..r][k] == s[i + k]; }
      }
    }
    forall e: nat | Matches(SpaceRun, s, i, e) ensures IsSpace(s[i]) && e <= r {
      assert s[i..e][0] == s[i];
    }
  }

  lemma BlankLineLongest(s: string, i: nat)
    requires i < |s|
    ensures BlankLineAt(s, i).Some? ==> IsBlankLineMatch(s, i, BlankLineAt(s, i).value)
    ensures BlankLineAt(s, i).Some? ==> forall e: nat :: IsBlankLineMatch(s, i, e) ==> e <= BlankLineAt(s, i).value
    ensures BlankLineAt(s, i).None? ==> forall e: nat :: !IsBlankLineMatch(s, i, e)
    ensures s[i] != '\n' ==> BlankLineAt(s, i).None?
  {
    if s[i] == '\n' {
      var r := RunEnd(s, i + 1, IsSpace);
      var last := LastIndexIn(s, i + 1, r, '\n');
      if last.Some? {
        var j := last.value;
        var w := s[i + 1..j];
        assert IsBlank(w) by {
          forall k | 0 <= k < |w| ensures IsSpace(w[k]) { assert w[k] == s[i + 1 + k]; }
        }
      }
      forall e: nat | IsBlankLineMatch(s, i, e)
        ensures last.Some? && e <= last.value + 1
      {
        // every character strictly between the two newlines is whitespace, and so is the
        // closing newline: the whole of s[i+1..e] lies inside the run that ends at r
        assert e - 1 < r by {
          forall k | i + 1 <= k < e - 1 ensures IsSpace(s[k]) { assert s[i + 1..e - 1][k - i - 1] == s[k]; }
          RunEndCovers(s, i + 1, e - 1);
        }
      }
    }
  }

  /** A run of `IsSpace` characters from `i` up to `j` lies within the maximal run from `i`. */
  lemma {:induction false} RunEndCovers(s: string, i: nat, j: nat)
    requires i <= j < |s|
    requires forall k :: i <= k < j ==> IsSpace(s[k])
    requires IsSpace(s[j])
    ensures j < RunEnd(s, i, IsSpace)
    decreases j - i
  {
    if i < j {
      RunEndCovers(s, i + 1, j);
    }
  }

  lemma PageMarkerLongest(s: string, i: nat)
    requires i < |s|
    ensures PageMarkerAt(s, i).Some? ==> IsPageMarkerMatch(s, i, PageMarkerAt(s, i).value)
    ensures forall e: nat :: IsPageMarkerMatch(s, i, e) ==> PageMarkerAt(s, i) == Some(e)
    ensures s[i] == '\n' ==> forall e: nat :: !IsPageMarkerMatch(s, i, e)
  {
    var h := i + |PageMarkerHead|;
    forall e: nat | IsPageMarkerMatch(s, i, e) ensures PageMarkerAt(s, i) == Some(e) {
      var d := RunEnd(s, h, IsDigit);
      var t := e - |PageMarkerTail|;
      // the digit run stops exactly where the tail begins, since the tail starts with a space
      assert s[t..e][0] == s[t];
    }
  }

  lemma SentenceBreakLongest(s: string, i: nat)
    requires i < |s|
    ensures SentenceBreakAt(s, i).Some? ==> IsSentenceBreakMatch(s, i, SentenceBreakAt(s, i).value)
    ensures SentenceBreakAt(s, i).Some? ==> forall e: nat :: IsSentenceBreakMatch(s, i, e) ==> i < e && e <= SentenceBreakAt(s, i).value
    ensures SentenceBreakAt(s, i).None? ==> forall e: nat :: !IsSentenceBreakMatch(s, i, e)
  {
    var m := RunEnd(s, i, IsPunct);
    if i < m < |s| && IsSpace(s[m]) {
      var e := RunEnd(s, m, IsSpace);
      assert AllIn(s, i, m, IsPunct);
      assert IsBlank(s[m..e]) by {
        forall k | 0 <= k < e - m ensures IsSpace(s[m..e][k]) { assert s[m..e][k] == s[m + k]; }
      }
    }
    forall e: nat, m': nat | e <= |s| && i < m' < e && AllIn(s, i, m', IsPunct) && IsBlank(s[m'..e])
      ensures m' == m && IsSpace(s[m]) && e <= RunEnd(s, m, IsSpace)
    {
      assert s[m'..e][0] == s[m'];
      var r := RunEnd(s, m, IsSpace);
    }
  }

  // ---------------------------------------------------------------------------------------
  // re.split and re.sub
  // ---------------------------------------------------------------------------------------

  /** No match of `p` starts anywhere in `[lo, hi)`. */
  predicate MatchFree(p: Pattern, s: string, lo: nat, hi: nat)
    requires lo <= hi <= |s|
  {
    forall k :: lo <= k < hi ==> MatchAt(p, s, k).None?
  }

  /**
   * The pieces of `re.split(p, s[start..])` as index ranges into `s`, when the search for the
   * next separator has already moved on to `pos`: the pieces cover `s` from `start` to the
   * end, consecutive pieces are separated by exactly the match the engine finds at the end of
   * the earlier one, and no match starts inside a piece.
   */
  function SplitSpans(p: Pattern, s: string, start: nat, pos: nat): (r: seq<(nat, nat)>)
    requires start <= pos <= |s|
    requires MatchFree(p, s, start, pos)
    ensures |r| >= 1 && r[0].0 == start && pos <= r[0].1 && r[|r| - 1].1 == |s|
    ensures forall j :: 0 <= j < |r| ==> r[j].0 <= r[j].1 <= |s| && MatchFree(p, s, r[j].0, r[j].1)
    ensures forall j :: 0 <= j < |r| - 1 ==> MatchAt(p, s, r[j].1) == Some(r[j + 1].0)
    decreases |s| - pos
  {
    if pos == |s| then [(start, pos)]
    else
      match MatchAt(p, s, pos)
      case Some(e) =>
        MatchAtLongest(p, s, pos);
        [(start, pos)] + SplitSpans(p, s, e, e)
      case None =>
        MatchFreeExtend(p, s, start, pos);
        SplitSpans(p, s, start, pos + 1)
  }

  lemma MatchFreeExtend(p: Pattern, s: string, lo: nat, hi: nat)
    requires lo <= hi < |s|
    requires MatchFree(p, s, lo, hi) && MatchAt(p, s, hi).None?
    ensures MatchFree(p, s, lo, hi + 1)
  {
  }

  /** `t` contains no match of `p` at all. */
  ghost predicate NoMatchIn(p: Pattern, t: string) {
    forall i: nat, e: nat :: !Matches(p, t, i, e)
  }

  lemma SliceOfSlice(s: string, lo: nat, hi: nat, i: nat, e: nat)
    requires lo <= hi <= |s| && i <= e <= hi - lo
    ensures s[lo..hi][i..e] == s[lo + i..lo + e]
  {
    var t := s[lo..hi][i..e];
    forall k | 0 <= k < e - i ensures t[k] == s[lo + i + k] { }
  }

  /** A match inside a slice of `s` is a match in `s` itself. */
  lemma MatchesInSlice(p: Pattern, s: string, lo: nat, hi: nat, i: nat, e: nat)
    requires lo <= hi <= |s|
    requires Matches(p, s[lo..hi], i, e)
    ensures Matches(p, s, lo + i, lo + e)
  {
    var t := s[lo..hi];
    SliceOfSlice(s, lo, hi, i, e);
    assert t[i] == s[lo + i];
    match p
    case ControlChar =>
    case SpaceRun =>
    case BlankLine =>
      assert t[e - 1] == s[lo + e - 1];
      SliceOfSlice(s, lo, hi, i + 1, e - 1);
    case ParagraphBreak =>
      if IsBlankLineMatch(t, i, e) {
        assert t[e - 1] == s[lo + e - 1];
        SliceOfSlice(s, lo, hi, i + 1, e - 1);
      } else {
        var h, d := i + |PageMarkerHead|, e - |PageMarkerTail|;
        SliceOfSlice(s, lo, hi, i, h);
        SliceOfSlice(s, lo, hi, d, e);
        assert AllIn(s, lo + h, lo + d, IsDigit) by {
          forall k | lo + h <= k < lo + d ensures IsDigit(s[k]) { assert t[k - lo] == s[k]; }
        }
      }
    case SentenceBreak =>
      var m :| i < m < e && AllIn(t, i, m, IsPunct) && IsBlank(t[m..e]);
      SliceOfSlice(s, lo, hi, m, e);
      assert AllIn(s, lo + i, lo + m, IsPunct) by {
        forall k | lo + i <= k < lo + m ensures IsPunct(s[k]) { assert t[k - lo] == s[k]; }
      }
  }

  /** A slice of a stretch of `s` in which no match starts contains no match. */
  lemma NoMatchInSlice(p: Pattern, s: string, lo: nat, hi: nat, a: nat, b: nat)
    requires lo <= a <= b <= hi <= |s|
    requires MatchFree(p, s, lo, hi)
    ensures NoMatchIn(p, s[a..b])
  {
    forall i: nat, e: nat | Matches(p, s[a..b], i, e) ensures false {
      MatchesInSlice(p, s, a, b, i, e);
      MatchAtLongest(p, s, a + i);
    }
  }

  /** Removing characters from either end of a text cannot create a match. */
  lemma NoMatchInSubstring(p: Pattern, t: string, a: nat, b: nat)
    requires a <= b <= |t|
    requires NoMatchIn(p, t)
    ensures NoMatchIn(p, t[a..b])
  {
    forall k | 0 <= k < |t| ensures MatchAt(p, t, k).None? {
      MatchAtLongest(p, t, k);
    }
    NoMatchInSlice(p, t, 0, |t|, a, b);
  }

  lemma StripKeepsNoMatch(p: Pattern, t: string)
    ensures NoMatchIn(p, t) ==> NoMatchIn(p, Strip(t))
  {
    if NoMatchIn(p, t) {
      var a := RunEnd(t, 0, IsSpace);
      NoMatchInSubstring(p, t, a, a + |Strip(t)|);
    }
  }

  /** `re.split(p, s)`: no piece contains a match of the separator. */
  function Split(p: Pattern, s: string): (r: seq<string>)
    ensures |r| >= 1
    ensures forall j :: 0 <= j < |r| ==> NoMatchIn(p, r[j])
  {
    var spans := SplitSpans(p, s, 0, 0);
    var r := seq(|spans|, j requires 0 <= j < |spans| => s[spans[j].0..spans[j].1]);
    assert forall j :: 0 <= j < |r| ==> NoMatchIn(p, r[j]) by {
      forall j | 0 <= j < |r| ensures NoMatchIn(p, r[j]) {
        NoMatchInSlice(p, s, spans[j].0, spans[j].1, spans[j].0, spans[j].1);
      }
    }
    r
  }

  /** `re.sub(p, repl, s[pos..])` for a literal replacement. */
  function SubFrom(p: Pattern, s: string, repl: string, pos: nat): (r: string)
    requires pos <= |s|
    ensures MatchFree(p, s, pos, |s|) ==> r == s[pos..]
    decreases |s| - pos
  {
    if pos == |s| then []
    else
      match MatchAt(p, s, pos)
      case Some(e) =>
        MatchAtLongest(p, s, pos);
        repl + SubFrom(p, s, repl, e)
      case None => [s[pos]] + SubFrom(p, s, repl, pos + 1)
  }

  /** `re.sub(p, repl, s)` */
  function Sub(p: Pattern, s: string, repl: string): (r: string)
    ensures MatchFree(p, s, 0, |s|) ==> r == s
  {
    SubFrom(p, s, repl, 0)
  }
}

=== FILE: pystr.dfy ===
/**
 * The parts of Python's `str` and sequence semantics that the backend relies on:
 * `isspace` (and the regex class `\s`), `strip`, `split()`, `lower`, slices with negative
 * and out-of-range bounds, `str(int)`, `in` on strings, `rfind` and `join`.
 */
module PyStr {

  /**
   * `c.isspace()`, which is also the set the regex class `\s` matches on str patterns:
   * U+0009..U+000D, U+001C..U+001F, space, U+0085, U+00A0, U+1680, U+2000..U+200A,
   * U+2028, U+2029, U+202F, U+205F and U+3000.
   */
  predicate IsSpace(c: char) {
    || '\t' <= c <= '\r'
    || '\U{1C}' <= c <= '\U{1F}'
    || c == ' '
    || c == '\U{85}' || c == '\U{A0}' || c == '\U{1680}'
    || '\U{2000}' <= c <= '\U{200A}'
    || c == '\U{2028}' || c == '\U{2029}' || c == '\U{202F}' || c == '\U{205F}'
    || c == '\U{3000}'
  }

  predicate NotSpace(c: char) {
    !IsSpace(c)
  }

  /** `not s.strip()`: every character is whitespace (the empty string included). */
  predicate IsBlank(s: string) {
    forall i :: 0 <= i < |s| ==> IsSpace(s[i])
  }

  /** No whitespace character at all. */
  predicate NoSpace(s: string) {
    forall i :: 0 <= i < |s| ==> !IsSpace(s[i])
  }

  /** Neither starts nor ends with whitespace: the shape of every `strip()` result. */
  predicate IsStripped(s: string) {
    s == [] || (!IsSpace(s[0]) && !IsSpace(s[|s| - 1]))
  }

  /** End of the longest run of characters satisfying `p` that starts at `i`. */
  function RunEnd(s: string, i: nat, p: char -> bool): (e: nat)
    requires i <= |s|
    ensures i <= e <= |s|
    ensures forall k :: i <= k < e ==> p(s[k])
    ensures e == |s| || !p(s[e])
    decreases |s| - i
  {
    if i < |s| && p(s[i]) then RunEnd(s, i + 1, p) else i
  }

  /** Start of the longest run of characters satisfying `p` that ends just before `j`. */
  function RunStart(s: string, j: nat, p: char -> bool): (b: nat)
    requires j <= |s|
    ensures b <= j
    ensures forall k :: b <= k < j ==> p(s[k])
    ensures b == 0 || !p(s[b - 1])
    decreases j
  {
    if j > 0 && p(s[j - 1]) then RunStart(s, j - 1, p) else j
  }

  /**
   * `s.strip()`: the result is the part of `s` between its leading and trailing whitespace,
   * it is empty exactly when `s` is blank, and it has no whitespace at either end.
   */
  function Strip(s: string): (r: string)
    ensures |r| <= |s|
    ensures r == [] <==> IsBlank(s)
    ensures IsStripped(r)
    ensures var a := RunEnd(s, 0, IsSpace);
            a + |r| <= |s| && r == s[a..a + |r|] && IsBlank(s[..a]) && IsBlank(s[a + |r|..])
  {
    var a := RunEnd(s, 0, IsSpace);
    if a == |s| then
      assert s[..a] == s;
      []
    else
      var b := RunStart(s, |s|, IsSpace);
      assert a < b;
      s[a..b]
  }

  lemma {:induction false} StripOfStripped(s: string)
    requires IsStripped(s)
    ensures Strip(s) == s
  {
    if s != [] {
      assert RunEnd(s, 0, IsSpace) == 0;
      assert RunStart(s, |s|, IsSpace) == |s|;
    }
  }

  /**
   * `s.split()`: the maximal runs of non-whitespace characters, in order; none of them is
   * empty and none contains whitespace.
   */
  function Words(s: string): (ws: seq<string>)
    ensures forall i :: 0 <= i < |ws| ==> ws[i] != [] && NoSpace(ws[i])
    decreases |s|
  {
    var a := RunEnd(s, 0, IsSpace);
    if a == |s| then []
    else
      var e := RunEnd(s, a, NotSpace);
      [s[a..e]] + Words(s[e..])
  }

  /** `c.lower()` for ASCII letters; every other character is left as it is. */
  function LowerChar(c: char): char {
    if 'A' <= c <= 'Z' then (c as int + 32) as char else c
  }

  /** `s.lower()` */
  function Lower(s: string): (r: string)
    ensures |r| == |s|
    ensures forall i :: 0 <= i < |s| ==> r[i] == LowerChar(s[i])
  {
    seq(|s|, i requires 0 <= i < |s| => LowerChar(s[i]))
  }

  /** Python's normalisation of a slice bound against a length `n`: negative counts from the end, then clamp. */
  function SliceBound(k: int, n: nat): (b: nat)
    ensures b <= n
    ensures 0 <= k <= n ==> b == k
  {
    if k < 0 then (if n + k < 0 then 0 else n + k) else if k > n then n else k
  }

  /** `s[lo:hi]` */
  function Slice<T>(s: seq<T>, lo: int, hi: int): (r: seq<T>)
    ensures |r| <= |s|
    ensures var a, b := SliceBound(lo, |s|), SliceBound(hi, |s|);
            |r| == (if a < b then b - a else 0) && r == s[a..a + |r|]
  {
    var a, b := SliceBound(lo, |s|), SliceBound(hi, |s|);
    if a < b then s[a..b] else []
  }

  /** `s[:hi]` */
  function SliceTo<T>(s: seq<T>, hi: int): (r: seq<T>)
    ensures |r| <= |s| && r == s[..|r|]
    ensures 0 <= hi <= |s| ==> r == s[..hi]
    ensures hi >= |s| ==> r == s
  {
    Slice(s, 0, hi)
  }

  /** `s[lo:]` */
  function SliceFrom<T>(s: seq<T>, lo: int): (r: seq<T>)
    ensures |r| <= |s| && r == s[|s| - |r|..]
    ensures 0 <= lo <= |s| ==> r == s[lo..]
    ensures lo < 0 ==> |r| == if -lo < |s| then -lo else |s|
  {
    Slice(s, lo, |s|)
  }

  function DigitChar(d: nat): (c: char)
    requires d < 10
    ensures '0' <= c <= '9'
  {
    "0123456789"[d]
  }

  /** `str(n)` for a non-negative integer: decimal digits, at least one. */
  function NatToString(n: nat): (r: string)
    ensures r != [] && forall i :: 0 <= i < |r| ==> '0' <= r[i] <= '9'
  {
    if n < 10 then [DigitChar(n)] else NatToString(n / 10) + [DigitChar(n % 10)]
  }

  /** The value of a string of decimal digits, most significant first (`int(r)`). */
  function DecimalValue(r: string): nat
    requires forall i :: 0 <= i < |r| ==> '0' <= r[i] <= '9'
  {
    if r == [] then 0 else 10 * DecimalValue(r[..|r| - 1]) + (r[|r| - 1] as int - '0' as int)
  }

  /** `int(str(n)) == n`: the digits `str` writes spell the number, so distinct numbers get distinct strings. */
  lemma {:induction false} NatToStringValue(n: nat)
    ensures DecimalValue(NatToString(n)) == n
  {
    if n >= 10 {
      var r := NatToString(n);
      assert r[..|r| - 1] == NatToString(n / 10);
      NatToStringValue(n / 10);
    }
  }

  /** `str(i)` */
  function IntToString(i: int): string {
    if i < 0 then "-" + NatToString(-i) else NatToString(i)
  }

  /** `sub` occurs in `s` starting at index `i`. */
  predicate OccursAt(s: string, sub: string, i: nat) {
    i + |sub| <= |s| && s[i..i + |sub|] == sub
  }

  /** `sub in s` */
  predicate Contains(s: string, sub: string) {
    exists i: nat | i <= |s| :: OccursAt(s, sub, i)
  }

  /** A window of `s` that starts and ends with non-whitespace lies inside what stripping keeps. */
  lemma StripSpansWindow(s: string, j: nat, len: nat)
    requires 0 < len && j + len <= |s| && !IsSpace(s[j]) && !IsSpace(s[j + len - 1])
    ensures var a, e := RunEnd(s, 0, IsSpace), RunStart(s, |s|, IsSpace);
      a <= j && j + len <= e && Strip(s) == s[a..e]
  {
  }

  lemma SliceOfSlice<T>(s: seq<T>, a: nat, e: nat, j: nat, len: nat)
    requires a <= j && j + len <= e <= |s|
    ensures s[a..e][j - a..j - a + len] == s[j..j + len]
  {
    forall k | j <= k < j + len
      ensures s[a..e][k - a] == s[k]
    {
    }
  }

  /** A window of `s` with non-whitespace at both ends occurs in `s.strip()`. */
  lemma StripKeepsWindow(s: string, j: nat, len: nat)
    requires 0 < len && j + len <= |s| && !IsSpace(s[j]) && !IsSpace(s[j + len - 1])
    ensures Contains(Strip(s), s[j..j + len])
  {
    var b, f := RunEnd(s, 0, IsSpace), RunStart(s, |s|, IsSpace);
    StripSpansWindow(s, j, len);
    SliceOfSlice(s, b, f, j, len);
    assert OccursAt(Strip(s), s[j..j + len], j - b);
  }

  /** The stripped part of a non-blank string is a window of it with non-whitespace at both ends. */
  lemma StripWindow(s: string) returns (a: nat, len: nat)
    requires !IsBlank(s)
    ensures 0 < len && a + len <= |s| && !IsSpace(s[a]) && !IsSpace(s[a + len - 1])
    ensures s[a..a + len] == Strip(s)
  {
    a := RunEnd(s, 0, IsSpace);
    var e := RunStart(s, |s|, IsSpace);
    StripSpansWindow(s, a, 1);
    len := e - a;
  }

  /** A window of an occurrence of `sub` in `s` is the same window of `s`, shifted. */
  lemma OccurrenceWindow(s: string, sub: string, i: nat, a: nat, len: nat)
    requires OccursAt(s, sub, i) && 0 < len && a + len <= |sub|
    ensures i + a + len <= |s| && s[i + a..i + a + len] == sub[a..a + len]
    ensures s[i + a] == sub[a] && s[i + a + len - 1] == sub[a + len - 1]
  {
    SliceOfSlice(s, i, i + |sub|, i + a, len);
    assert s[i..i + |sub|][a] == s[i + a];
    assert s[i..i + |sub|][a + len - 1] == s[i + a + len - 1];
  }

  /** Where `sub` occurs in `s`, its stripped part is a window of `s` with non-whitespace at both ends. */
  lemma StrippedWindow(s: string, sub: string, i: nat) returns (j: nat, len: nat)
    requires OccursAt(s, sub, i) && !IsBlank(sub)
    ensures 0 < len && j + len <= |s| && !IsSpace(s[j]) && !IsSpace(s[j + len - 1])
    ensures s[j..j + len] == Strip(sub)
  {
    var a;
    a, len := StripWindow(sub);
    OccurrenceWindow(s, sub, i, a, len);
    j := i + a;
  }

  /**
   * Stripping a text keeps every non-blank piece of it, up to that piece's own surrounding
   * whitespace: if `sub` occurs in `s`, `sub.strip()` occurs in `s.strip()`.
   */
  lemma StripKeepsOccurrence(s: string, sub: string, i: nat)
    requires OccursAt(s, sub, i) && !IsBlank(sub)
    ensures Contains(Strip(s), Strip(sub))
  {
    var j, len := StrippedWindow(s, sub, i);
    StripKeepsWindow(s, j, len);
  }

  /** `s.rfind(c)`: the last index holding `c`, or -1. */
  function RFind(s: string, c: char): (r: int)
    ensures -1 <= r < |s|
    ensures r >= 0 ==> s[r] == c && forall k :: r < k < |s| ==> s[k] != c
    ensures r == -1 ==> forall k :: 0 <= k < |s| ==> s[k] != c
  {
    if s == [] then -1 else if s[|s| - 1] == c then |s| - 1 else RFind(s[..|s| - 1], c)
  }

  /** `sep.join(parts)` */
  function Join(sep: string, parts: seq<string>): string {
    if parts == [] then [] else if |parts| == 1 then parts[0] else parts[0] + sep + Join(sep, parts[1..])
  }
}

=== FILE: ranking.dfy ===
/**
 * Python's `list.sort(key=k, reverse=True)`, used to order search results by descending
 * similarity: a stable sort, so elements with equal keys keep the order they had.  It is
 * written as an insertion sort, and the three properties that make it Python's sort are
 * proved about it: the result is ordered by descending key, it is a permutation of the input,
 * and for every key the elements carrying that key appear in their original order.
 */
module Ranking {

  predicate SortedDesc<T>(s: seq<T>, key: T -> real) {
    forall i, j :: 0 <= i < j < |s| ==> key(s[i]) >= key(s[j])
  }

  /** `r` is `s` with some of its elements left out and the others in their order. */
  ghost predicate Subsequence<T>(r: seq<T>, s: seq<T>)
    decreases |s|
  {
    if r == [] then true
    else if s == [] then false
    else (r[0] == s[0] && Subsequence(r[1..], s[1..])) || Subsequence(r, s[1..])
  }

  /** The elements of `s` whose key is `v`, in order. */
  function WithKey<T>(s: seq<T>, key: T -> real, v: real): (r: seq<T>)
    ensures |r| <= |s|
    ensures Subsequence(r, s)
    ensures forall i :: 0 <= i < |r| ==> key(r[i]) == v
    ensures forall i :: 0 <= i < |s| && key(s[i]) == v ==> s[i] in r
  {
    if s == [] then []
    else
      var rest := WithKey(s[1..], key, v);
      if key(s[0]) == v then assert ([s[0]] + rest)[1..] == rest; [s[0]] + rest
      else rest
  }

  /** Places `x` after every element of `s` whose key is at least `key(x)`. */
  function Insert<T>(x: T, s: seq<T>, key: T -> real): (r: seq<T>)
    ensures |r| == |s| + 1
  {
    if s == [] then [x]
    else if key(s[0]) >= key(x) then [s[0]] + Insert(x, s[1..], key)
    else [x] + s
  }

  /** `sorted(xs, key=key, reverse=True)` */
  function SortDesc<T>(xs: seq<T>, key: T -> real): (r: seq<T>)
    ensures |r| == |xs|
  {
    if xs == [] then []
    else Insert(xs[|xs| - 1], SortDesc(xs[..|xs| - 1], key), key)
  }

  lemma SortedTail<T>(s: seq<T>, key: T -> real)
    requires s != [] && SortedDesc(s, key)
    ensures SortedDesc(s[1..], key)
  {
    forall i, j | 0 <= i < j < |s| - 1 ensures key(s[1..][i]) >= key(s[1..][j]) {
      assert s[1..][i] == s[i + 1] && s[1..][j] == s[j + 1];
    }
  }

  lemma {:induction false} InsertElements<T>(x: T, s: seq<T>, key: T -> real)
    ensures forall y :: y in Insert(x, s, key) ==> y == x || y in s
  {
    if s != [] && key(s[0]) >= key(x) {
      InsertElements(x, s[1..], key);
    }
  }

  lemma {:induction false} InsertSorted<T>(x: T, s: seq<T>, key: T -> real)
    requires SortedDesc(s, key)
    ensures SortedDesc(Insert(x, s, key), key)
  {
    if s != [] && key(s[0]) >= key(x) {
      SortedTail(s, key);
      InsertSorted(x, s[1..], key);
      var t := Insert(x, s[1..], key);
      var r := [s[0]] + t;
      InsertElements(x, s[1..], key);
      forall i, j | 0 <= i < j < |r| ensures key(r[i]) >= key(r[j]) {
        if i == 0 {
          assert r[j] == t[j - 1];
          assert r[j] in t;
          if r[j] != x {
            var k :| 0 <= k < |s[1..]| && s[1..][k] == r[j];
            assert s[k + 1] == r[j];
          }
        } else {
          assert r[i] == t[i - 1] && r[j] == t[j - 1];
        }
      }
    } else if s != [] {
      var r := [x] + s;
      forall i, j | 0 <= i < j < |r| ensures key(r[i]) >= key(r[j]) {
        assert r[j] == s[j - 1];
        if i > 0 {
          assert r[i] == s[i - 1];
        }
      }
    }
  }

  lemma {:induction false} InsertPermutes<T>(x: T, s: seq<T>, key: T -> real)
    ensures multiset(Insert(x, s, key)) == multiset(s) + multiset{x}
  {
    if s != [] && key(s[0]) >= key(x) {
      InsertPermutes(x, s[1..], key);
      assert s == [s[0]] + s[1..];
    }
  }

  lemma {:induction false} WithKeyAppend<T>(s: seq<T>, t: seq<T>, key: T -> real, v: real)
    ensures WithKey(s + t, key, v) == WithKey(s, key, v) + WithKey(t, key, v)
  {
    if s != [] {
      assert (s + t)[0] == s[0] && (s + t)[1..] == s[1..] + t;
      WithKeyAppend(s[1..], t, key, v);
      var h := if key(s[0]) == v then [s[0]] else [];
      assert WithKey(s + t, key, v) == h + (WithKey(s[1..], key, v) + WithKey(t, key, v));
    } else {
      assert s + t == t;
    }
  }

  /** In a descending list whose first key is below `v`, no element has the key `v`. */
  lemma {:induction false} WithKeyNone<T>(s: seq<T>, key: T -> real, v: real)
    requires SortedDesc(s, key)
    requires s == [] || key(s[0]) < v
    ensures WithKey(s, key, v) == []
  {
    if s != [] {
      SortedTail(s, key);
      if |s| > 1 {
        assert key(s[1]) <= key(s[0]);
      }
      WithKeyNone(s[1..], key, v);
    }
  }

  /** Inserting `x` into a descending list places it after every element with the same key. */
  lemma {:induction false} InsertKeepsKeyOrder<T>(x: T, s: seq<T>, key: T -> real, v: real)
    requires SortedDesc(s, key)
    ensures WithKey(Insert(x, s, key), key, v) == WithKey(s, key, v) + WithKey([x], key, v)
  {
    if s == [] {
    } else if key(s[0]) >= key(x) {
      SortedTail(s, key);
      InsertKeepsKeyOrder(x, s[1..], key, v);
      assert Insert(x, s, key) == [s[0]] + Insert(x, s[1..], key);
    } else {
      WithKeyAppend([x], s, key, v);
      if key(x) == v {
        WithKeyNone(s, key, v);
      } else {
        assert WithKey([x], key, v) == [];
      }
    }
  }

  /**
   * Python's stable descending sort: ordered by key, a permutation of the input, and for
   * every key value the elements with that key keep their original relative order.
   */
  lemma {:induction false} SortDescCorrect<T>(xs: seq<T>, key: T -> real)
    ensures SortedDesc(SortDesc(xs, key), key)
    ensures multiset(SortDesc(xs, key)) == multiset(xs)
    ensures forall v :: WithKey(SortDesc(xs, key), key, v) == WithKey(xs, key, v)
  {
    if xs != [] {
      var n := |xs| - 1;
      SortDescCorrect(xs[..n], key);
      var s := SortDesc(xs[..n], key);
      InsertSorted(xs[n], s, key);
      InsertPermutes(xs[n], s, key);
      assert xs == xs[..n] + [xs[n]];
      forall v ensures WithKey(SortDesc(xs, key), key, v) == WithKey(xs, key, v) {
        InsertKeepsKeyOrder(xs[n], s, key, v);
        WithKeyAppend(xs[..n], [xs[n]], key, v);
      }
    }
  }

  /** A prefix of a descending list is descending, and nothing after it ranks above anything in it. */
  lemma SortedPrefix<T>(s: seq<T>, n: nat, key: T -> real)
    requires SortedDesc(s, key) && n <= |s|
    ensures SortedDesc(s[..n], key)
    ensures forall x, y :: x in s[..n] && y in s[n..] ==> key(x) >= key(y)
  {
    forall x, y | x in s[..n] && y in s[n..]
      ensures key(x) >= key(y)
    {
      var i :| 0 <= i < n && s[..n][i] == x;
      var j :| 0 <= j < |s| - n && s[n..][j] == y;
      assert s[i] == x && s[n + j] == y;
    }
  }
}

=== FILE: store.dfy ===
/**
 * The document database, seen through the operations the routes use: document records kept
 * newest first (the order in which the listing query returns them), and chat turns kept in
 * the order they were saved.  Identifiers, upload dates and the database connection are not
 * modelled beyond what those operations need.
 */
module Store {
  import opened Wrappers
  import opened PyStr

  /** A stored document; the counters and the status may be missing from a record. */
  datatype DocumentRecord = DocumentRecord(
    id: string,
    filename: string,
    filePath: Option<string>,
    contentPreview: string,
    uploadDate: nat,
    status: Option<string>,
    chunkCount: Option<int>,
    chatCount: Option<int>)

  datatype ChatMessage = ChatMessage(documentId: string, question: string, answer: string, sources: seq<string>)

  /** `d.get(key, default)` */
  function GetOr<T>(o: Option<T>, default: T): T {
    if o.Some? then o.value else default
  }

  /** The listing query returns at most this many documents. */
  const ListingLimit: nat := 100

  /** The turns about one document, in the order they were saved. */
  function TurnsOf(chats: seq<ChatMessage>, documentId: string): (r: seq<ChatMessage>)
    ensures |r| <= |chats|
    ensures forall i :: 0 <= i < |r| ==> r[i].documentId == documentId && r[i] in chats
    ensures forall m :: m in chats && m.documentId == documentId ==> m in r
  {
    if chats == [] then []
    else
      var rest := TurnsOf(chats[..|chats| - 1], documentId);
      var last := chats[|chats| - 1];
      assert chats == chats[..|chats| - 1] + [last];
      if last.documentId == documentId then rest + [last] else rest
  }

  lemma {:induction false} TurnsOfAppend(chats: seq<ChatMessage>, m: ChatMessage, documentId: string)
    ensures TurnsOf(chats + [m], documentId) == TurnsOf(chats, documentId) + (if m.documentId == documentId then [m] else [])
  {
    assert (chats + [m])[..|chats|] == chats;
  }

  class Database {
    var documents: seq<DocumentRecord>
    var chats: seq<ChatMessage>

    constructor ()
      ensures documents == [] && chats == []
    {
      documents := [];
      chats := [];
    }

    /** `DocumentManager.get_document`: the record with that id, if any. */
    function Find(documentId: string): (r: Option<DocumentRecord>)
      reads this
      ensures r.Some? ==> r.value in documents && r.value.id == documentId
      ensures r.None? ==> forall i :: 0 <= i < |documents| ==> documents[i].id != documentId
    {
      FindIn(documents, documentId)
    }

    /** `DocumentManager.get_all_documents`: the newest records, at most 100 of them. */
    function AllDocuments(): (r: seq<DocumentRecord>)
      reads this
      ensures |r| == if |documents| < ListingLimit then |documents| else ListingLimit
      ensures r == documents[..|r|]
      ensures NewestFirst(documents) ==>
        && NewestFirst(r)
        && forall i, j :: 0 <= i < |r| <= j < |documents| ==> r[i].uploadDate >= documents[j].uploadDate
    {
      SliceTo(documents, ListingLimit as int)
    }

    /** `ChatManager.get_chat_history`: the last `limit` turns about the document, oldest first. */
    function ChatHistory(documentId: string, limit: nat): (r: seq<ChatMessage>)
      requires limit > 0
      reads this
      ensures var all := TurnsOf(chats, documentId);
        && |r| == (if |all| < limit then |all| else limit)
        && r == all[|all| - |r|..]
    {
      SliceFrom(TurnsOf(chats, documentId), -(limit as int))
    }

    /**
     * `DocumentManager.create_document`: a new record, with zero counters, ahead of the older
     * ones.  `documentId` is the identifier the database assigns on insertion, so no record has
     * it yet, and `uploadDate` is the clock's reading, no earlier than any stored upload.
     */
    method CreateDocument(documentId: string, filename: string, filePath: string, contentPreview: string, uploadDate: nat)
      requires Find(documentId).None?
      requires forall k :: 0 <= k < |documents| ==> documents[k].uploadDate <= uploadDate
      modifies this
      ensures UniqueIds(old(documents)) ==> UniqueIds(documents)
      ensures NewestFirst(old(documents)) ==> NewestFirst(documents)
      ensures documents == [DocumentRecord(documentId, filename, Some(filePath), contentPreview, uploadDate,
                                           Some("processed"), Some(0), Some(0))] + old(documents)
      ensures chats == old(chats)
    {
      documents := [DocumentRecord(documentId, filename, Some(filePath), contentPreview, uploadDate,
                                   Some("processed"), Some(0), Some(0))] + documents;
    }

    /**
     * `DocumentManager.update_document_stats`: sets the chunk count when one is given, and
     * adds one to the chat count (a missing count counting as 0) when a chat count is given.
     */
    method UpdateDocumentStats(documentId: string, chunkCount: Option<int>, chatCount: Option<int>)
      modifies this
      ensures documents == UpdatedAll(old(documents), documentId, chunkCount, chatCount)
      ensures chats == old(chats)
      ensures UniqueIds(old(documents)) ==> UniqueIds(documents)
      ensures NewestFirst(old(documents)) ==> NewestFirst(documents)
    {
      documents := UpdatedAll(documents, documentId, chunkCount, chatCount);
    }

    /** `ChatManager.save_chat_message`: the turn is stored, then the document's chat count goes up by one. */
    method SaveChatMessage(documentId: string, question: string, answer: string, sources: seq<string>)
      modifies this
      ensures chats == old(chats) + [ChatMessage(documentId, question, answer, sources)]
      ensures documents == UpdatedAll(old(documents), documentId, None, Some(1))
    {
      chats := chats + [ChatMessage(documentId, question, answer, sources)];
      UpdateDocumentStats(documentId, None, Some(1));
    }

    /** `DocumentManager.delete_document`: removes the record and every turn about it. */
    method DeleteDocument(documentId: string) returns (deleted: bool)
      modifies this
      ensures documents == WithoutId(old(documents), documentId)
      ensures chats == WithoutTurnsOf(old(chats), documentId)
      ensures deleted <==> exists i :: 0 <= i < |old(documents)| && old(documents)[i].id == documentId
      ensures deleted <==> old(Find(documentId)).Some?
    {
      deleted := FindIn(documents, documentId).Some?;
      documents := WithoutId(documents, documentId);
      chats := WithoutTurnsOf(chats, documentId);
    }
  }

  function FindIn(documents: seq<DocumentRecord>, documentId: string): (r: Option<DocumentRecord>)
    ensures r.Some? ==> r.value in documents && r.value.id == documentId
    ensures r.None? ==> forall i :: 0 <= i < |documents| ==> documents[i].id != documentId
  {
    if documents == [] then None
    else if documents[0].id == documentId then Some(documents[0])
    else FindIn(documents[1..], documentId)
  }

  function Updated(d: DocumentRecord, chunkCount: Option<int>, chatCount: Option<int>): DocumentRecord {
    d.(chunkCount := if chunkCount.Some? then chunkCount else d.chunkCount,
       chatCount := if chatCount.Some? then Some(GetOr(d.chatCount, 0) + 1) else d.chatCount)
  }

  function UpdatedAll(documents: seq<DocumentRecord>, documentId: string, chunkCount: Option<int>, chatCount: Option<int>): (r: seq<DocumentRecord>)
    ensures |r| == |documents|
    ensures forall i :: 0 <= i < |r| ==>
      r[i] == if documents[i].id == documentId then Updated(documents[i], chunkCount, chatCount) else documents[i]
  {
    seq(|documents|, i requires 0 <= i < |documents| =>
      if documents[i].id == documentId then Updated(documents[i], chunkCount, chatCount) else documents[i])
  }

  /** Looking up a key after the update finds the updated record for the id, and what it found before otherwise. */
  lemma {:induction false} FindInUpdatedAll(documents: seq<DocumentRecord>, documentId: string,
                                            chunkCount: Option<int>, chatCount: Option<int>, key: string)
    ensures FindIn(UpdatedAll(documents, documentId, chunkCount, chatCount), key)
         == if key == documentId && FindIn(documents, key).Some?
            then Some(Updated(FindIn(documents, key).value, chunkCount, chatCount))
            else FindIn(documents, key)
    decreases |documents|
  {
    if documents != [] {
      var r := UpdatedAll(documents, documentId, chunkCount, chatCount);
      assert r[1..] == UpdatedAll(documents[1..], documentId, chunkCount, chatCount);
      FindInUpdatedAll(documents[1..], documentId, chunkCount, chatCount, key);
    }
  }

  /**
   * `update_document_stats` seen through a lookup: the record with the id is found exactly when
   * it was, its chunk count is set when one is given, its chat count goes up by one (from zero
   * when it had none) when a chat count is given, and nothing else about it changes; looking
   * up any other id gives what it gave before.
   */
  lemma {:induction false} UpdatedAllFind(documents: seq<DocumentRecord>, documentId: string,
                                         chunkCount: Option<int>, chatCount: Option<int>, key: string)
    ensures var before := FindIn(documents, key);
      var after := FindIn(UpdatedAll(documents, documentId, chunkCount, chatCount), key);
      && (after.Some? <==> before.Some?)
      && (key != documentId ==> after == before)
      && (key == documentId && before.Some? ==>
            && after.value.chunkCount == (if chunkCount.Some? then chunkCount else before.value.chunkCount)
            && after.value.chatCount == (if chatCount.Some? then Some(GetOr(before.value.chatCount, 0) + 1)
                                         else before.value.chatCount)
            && after.value.(chunkCount := before.value.chunkCount, chatCount := before.value.chatCount) == before.value)
  {
    FindInUpdatedAll(documents, documentId, chunkCount, chatCount, key);
  }

  /** The database gives every record an identifier of its own: no two records share an id. */
  ghost predicate UniqueIds(documents: seq<DocumentRecord>) {
    forall i, j :: 0 <= i < j < |documents| ==> documents[i].id != documents[j].id
  }

  /** Records newest first: upload dates never increase along the sequence. */
  ghost predicate NewestFirst(documents: seq<DocumentRecord>) {
    forall i, j :: 0 <= i < j < |documents| ==> documents[i].uploadDate >= documents[j].uploadDate
  }

  /** A record no older than any other can go in front of records kept newest first. */
  lemma ConsNewestFirst(d: DocumentRecord, documents: seq<DocumentRecord>)
    requires NewestFirst(documents)
    requires forall k :: 0 <= k < |documents| ==> documents[k].uploadDate <= d.uploadDate
    ensures NewestFirst([d] + documents)
  {
    var r := [d] + documents;
    forall i, j | 0 <= i < j < |r| ensures r[i].uploadDate >= r[j].uploadDate {
      assert r[j] == documents[j - 1];
      if i > 0 {
        assert r[i] == documents[i - 1];
      }
    }
  }

  /** Deleting an id keeps the remaining records newest first. */
  lemma {:induction false} WithoutIdNewestFirst(documents: seq<DocumentRecord>, documentId: string)
    requires NewestFirst(documents)
    ensures NewestFirst(WithoutId(documents, documentId))
    decreases |documents|
  {
    if documents != [] {
      var rest := documents[1..];
      forall i, j | 0 <= i < j < |rest| ensures rest[i].uploadDate >= rest[j].uploadDate {
        assert rest[i] == documents[i + 1] && rest[j] == documents[j + 1];
      }
      WithoutIdNewestFirst(rest, documentId);
      var kept := WithoutId(rest, documentId);
      if documents[0].id != documentId {
        forall k | 0 <= k < |kept| ensures kept[k].uploadDate <= documents[0].uploadDate {
          assert kept[k] in rest;
          var i :| 0 <= i < |rest| && rest[i] == kept[k];
          assert rest[i] == documents[i + 1];
        }
        ConsNewestFirst(documents[0], kept);
        assert WithoutId(documents, documentId) == [documents[0]] + kept;
      }
    }
  }

  /** A record whose id no other record has can go in front of records with distinct ids. */
  lemma ConsUniqueIds(d: DocumentRecord, documents: seq<DocumentRecord>)
    requires UniqueIds(documents)
    requires forall k :: 0 <= k < |documents| ==> documents[k].id != d.id
    ensures UniqueIds([d] + documents)
  {
    var r := [d] + documents;
    forall i, j | 0 <= i < j < |r| ensures r[i].id != r[j].id {
      assert r[j] == documents[j - 1];
      if i > 0 {
        assert r[i] == documents[i - 1];
      }
    }
  }

  /**
   * Over records with distinct ids, deleting an id removes exactly the one record that has it
   * (none when the id is unknown), and the ids stay distinct.
   */
  lemma {:induction false} WithoutIdRemovesOne(documents: seq<DocumentRecord>, documentId: string)
    requires UniqueIds(documents)
    ensures UniqueIds(WithoutId(documents, documentId))
    ensures |WithoutId(documents, documentId)| == |documents| - (if FindIn(documents, documentId).Some? then 1 else 0)
    decreases |documents|
  {
    if documents != [] {
      var rest := documents[1..];
      forall i, j | 0 <= i < j < |rest| ensures rest[i].id != rest[j].id {
        assert rest[i] == documents[i + 1] && rest[j] == documents[j + 1];
      }
      forall i | 0 <= i < |rest| ensures rest[i].id != documents[0].id {
        assert rest[i] == documents[i + 1];
      }
      WithoutIdRemovesOne(rest, documentId);
      var kept := WithoutId(rest, documentId);
      if documents[0].id == documentId {
        assert FindIn(rest, documentId).None?;
      } else {
        forall k | 0 <= k < |kept| ensures kept[k].id != documents[0].id {
          assert kept[k] in rest;
        }
        ConsUniqueIds(documents[0], kept);
        assert WithoutId(documents, documentId) == [documents[0]] + kept;
      }
    }
  }

  function WithoutId(documents: seq<DocumentRecord>, documentId: string): (r: seq<DocumentRecord>)
    ensures forall d :: d in r <==> d in documents && d.id != documentId
  {
    if documents == [] then []
    else (if documents[0].id == documentId then [] else [documents[0]]) + WithoutId(documents[1..], documentId)
  }

  function WithoutTurnsOf(chats: seq<ChatMessage>, documentId: string): (r: seq<ChatMessage>)
    ensures forall m :: m in r <==> m in chats && m.documentId != documentId
  {
    if chats == [] then []
    else (if chats[0].documentId == documentId then [] else [chats[0]]) + WithoutTurnsOf(chats[1..], documentId)
  }

  /**
   * Saving a turn makes it the newest entry of its document's history: the next history
   * request returns it last, after the previous turns.
   */
  lemma SavedTurnIsNewest(chats: seq<ChatMessage>, m: ChatMessage, limit: nat)
    requires limit > 0
    ensures var all := TurnsOf(chats + [m], m.documentId);
      var h := SliceFrom(all, -(limit as int));
      h != [] && h[|h| - 1] == m
  {
    TurnsOfAppend(chats, m, m.documentId);
  }
}

=== FILE: upload.dfy ===
/**
 * The upload routes: the checks on an uploaded file, storing it and recording the document,
 * the background pipeline that parses and indexes it, and deleting a document with its file
 * and index.  The upload directory is a set of file paths; the PDF behind a stored file is
 * given as its pages' raw text, or the error opening it raised.
 */
module UploadRoutes {
  import opened Wrappers
  import opened PyStr
  import opened Parsing
  import opened Store
  import opened Indexing
  import VectorStore

  /** `settings.max_file_size`, in megabytes. */
  const MaxFileSizeMb: nat := 30

  /** `MAX_FILE_SIZE`: the limit in bytes, thirty binary megabytes (31457280). */
  const MaxFileSize: nat := MaxFileSizeMb * 1024 * 1024

  const AllowedExtensions: set<string> := {".pdf"}

  const UploadDir: string := "../data/uploads"

  datatype HttpError = HttpError(statusCode: int, detail: string)

  /** The extension check of `upload_document`: the lower-cased suffix is an allowed extension. */
  predicate AllowedFile(filename: string) {
    Lower(PathSuffix(filename)) in AllowedExtensions
  }

  /** The upload check accepts exactly the files the parser supports: a named file ending in ".pdf" in any case. */
  lemma AllowedFileIff(filename: string)
    ensures AllowedFile(filename) <==> IsSupportedFile(filename)
    ensures AllowedFile(filename) <==> var name := PathName(filename);
      |name| >= 5 && Lower(name[|name| - 4..]) == ".pdf"
  {
    SupportedFileIff(filename);
  }

  /**
   * The checks of `upload_document`, in order: a file name is required, its suffix must be
   * ".pdf" in any case, and a known, non-zero size must not exceed the limit.
   */
  function ValidateUpload(filename: Option<string>, size: Option<nat>): (r: Option<HttpError>)
    ensures r.None? <==>
      && filename.Some? && filename.value != [] && AllowedFile(filename.value)
      && (size.Some? ==> size.value <= MaxFileSize)
    ensures r.Some? ==> r.value.statusCode == 400
  {
    if filename.None? || filename.value == [] then Some(HttpError(400, "Nome file mancante"))
    else if !AllowedFile(filename.value) then Some(HttpError(400, "Tipo file non supportato. Supportati: .pdf"))
    else if size.Some? && size.value != 0 && size.value > MaxFileSize then
      Some(HttpError(400, "File troppo grande. Massimo: " + NatToString(MaxFileSizeMb) + "MB"))
    else None
  }

  /** A file of unknown size, or of size 0, passes the size check whatever its content. */
  lemma UnknownSizeAccepted(filename: string)
    requires filename != [] && AllowedFile(filename)
    ensures ValidateUpload(Some(filename), None).None?
    ensures ValidateUpload(Some(filename), Some(0)).None?
  {
  }

  /** Where an upload is stored: its id, an underscore and its original name, in the upload directory. */
  function StoredPath(objectId: string, filename: string): string {
    UploadDir + "/" + objectId + "_" + filename
  }

  /** The files present in the upload directory. */
  class Disk {
    var files: set<string>

    constructor ()
      ensures files == {}
    {
      files := {};
    }

    /** `os.remove`: the path is no longer present. */
    method Remove(path: string)
      modifies this
      ensures files == old(files) - {path}
    {
      files := files - {path};
    }
  }

  datatype UploadResponse =
    | Uploaded(id: string, filename: string, sizeBytes: Option<nat>, contentPreview: string,
               totalPages: nat, totalCharacters: nat, totalWords: nat)
    | UploadRejected(error: HttpError)

  /**
   * `upload_document`: a rejected file leaves everything as it was; an accepted one is
   * stored under its new object id; when its text cannot be extracted the stored file is
   * removed again and the upload is refused; otherwise a record with the preview of its
   * text is created (under the id the database assigns, which no record has yet, and dated by
   * the clock, which does not go back) and the response reports it.
   */
  method UploadDocument(db: Database, disk: Disk, filename: Option<string>, size: Option<nat>,
                        objectId: string, createdId: string, uploadDate: nat, pdf: Result<seq<string>, string>)
    returns (r: UploadResponse)
    requires db.Find(createdId).None?
    requires forall k :: 0 <= k < |db.documents| ==> db.documents[k].uploadDate <= uploadDate
    modifies db, disk
    ensures UniqueIds(old(db.documents)) ==> UniqueIds(db.documents)
    ensures NewestFirst(old(db.documents)) ==> NewestFirst(db.documents)
    ensures ValidateUpload(filename, size).Some? ==>
      r == UploadRejected(ValidateUpload(filename, size).value)
      && disk.files == old(disk.files) && db.documents == old(db.documents)
    ensures ValidateUpload(filename, size).None? && pdf.Err? ==>
      r == UploadRejected(HttpError(400, "Errore parsing PDF: " + pdf.error))
      && disk.files == old(disk.files) - {StoredPath(objectId, filename.value)}
      && db.documents == old(db.documents)
    ensures ValidateUpload(filename, size).None? && pdf.Ok? ==>
      var path := StoredPath(objectId, filename.value);
      var text := AssembledText(KeptPages(CleanedPages(pdf.value)));
      && r.Uploaded? && r.id == createdId && r.filename == filename.value && r.sizeBytes == size
      && r.contentPreview == ContentPreview(text)
      && disk.files == old(disk.files) + {path}
      && db.documents == [DocumentRecord(createdId, filename.value, Some(path), ContentPreview(text), uploadDate,
                                         Some("processed"), Some(0), Some(0))] + old(db.documents)
    ensures db.chats == old(db.chats)
  {
    var invalid := ValidateUpload(filename, size);
    if invalid.Some? {
      return UploadRejected(invalid.value);
    }
    var filePath := StoredPath(objectId, filename.value);
    disk.files := disk.files + {filePath};
    var parsingResult := ExtractText(pdf);
    if parsingResult.ExtractionFailed? {
      disk.Remove(filePath);
      return UploadRejected(HttpError(400, "Errore parsing PDF: " + parsingResult.error));
    }
    var contentPreview := ContentPreview(parsingResult.fullText);
    db.CreateDocument(createdId, filename.value, filePath, contentPreview, uploadDate);
    r := Uploaded(createdId, filename.value, size, contentPreview,
                  parsingResult.totalPages, parsingResult.totalCharacters, parsingResult.totalWords);
  }

  /** How the background pipeline ended: at the first step that failed, or with the chunk count recorded. */
  datatype BackgroundOutcome =
    | FileMissing
    | ParseFailed(error: string)
    | IndexerNotReady
    | IndexingFailed(error: string)
    | Processed(chunkCount: nat)

  /**
   * `process_document_background`: the stored file must exist, its text must be extracted,
   * the embedding model must already be loaded, and indexing must succeed, in that order;
   * only then is the document's chunk count set, to the number of chunks indexed, and the
   * document's store, holding one vector and one record per chunk, cached.  The pipeline never
   * loads the model, and a failed run leaves the cache as it was.
   */
  method ProcessDocumentBackground(db: Database, disk: Disk, indexer: DocumentIndexer, filePath: string,
                                   documentId: string, filename: string, pdf: Result<seq<string>, string>,
                                   encodeError: Option<string>, saveOk: bool)
    returns (outcome: BackgroundOutcome)
    requires indexer.Valid()
    modifies db, indexer, indexer.manager
    ensures indexer.Valid()
    ensures !outcome.Processed? ==> db.documents == old(db.documents)
    ensures !outcome.Processed? ==> indexer.manager.stores == old(indexer.manager.stores)
    ensures indexer.initialized == old(indexer.initialized) && indexer.embeddingDim == old(indexer.embeddingDim)
    ensures db.chats == old(db.chats)
    ensures filePath !in disk.files ==> outcome == FileMissing
    ensures filePath in disk.files && pdf.Err? ==> outcome == ParseFailed(pdf.error)
    ensures filePath in disk.files && pdf.Ok? && !old(indexer.initialized) ==> outcome == IndexerNotReady
    ensures filePath in disk.files && pdf.Ok? && old(indexer.initialized) ==>
      var text := AssembledText(KeptPages(CleanedPages(pdf.value)));
      var chunks := Chunking.ChunkTextSpec(indexer.chunker.chunkSize, indexer.chunker.chunkOverlap, text, filename);
      && (chunks == [] ==> outcome == IndexingFailed(NoChunksError))
      && (chunks != [] && encodeError.Some? ==> outcome == IndexingFailed(encodeError.value))
      && (chunks != [] && encodeError.None? && !saveOk ==> outcome == IndexingFailed(StoreError))
      && (chunks != [] && encodeError.None? && saveOk ==>
            && outcome == Processed(|chunks|)
            && db.documents == UpdatedAll(old(db.documents), documentId, Some(|chunks|), None)
            && VectorStore.OnlyEntryChanged(old(indexer.manager.stores), indexer.manager.stores, documentId)
            && indexer.manager.stores[documentId].index == Some(VectorStore.FlatIndex(|chunks|))
            && indexer.manager.stores[documentId].chunksMetadata == chunks)
  {
    if filePath !in disk.files {
      return FileMissing;
    }
    var parsingResult := ExtractText(pdf);
    if parsingResult.ExtractionFailed? {
      return ParseFailed(parsingResult.error);
    }
    if !indexer.initialized {
      return IndexerNotReady;
    }
    var indexingResult, _ := indexer.IndexDocument(documentId, parsingResult.fullText, filename, None, encodeError, saveOk);
    if indexingResult.IndexFailed? {
      return IndexingFailed(indexingResult.error);
    }
    db.UpdateDocumentStats(documentId, Some(indexingResult.chunksCount), None);
    outcome := Processed(indexingResult.chunksCount);
  }

  datatype DeleteResponse = Deleted(message: string) | DeleteRejected(error: HttpError)

  /**
   * `delete_document`: 404 for an unknown document; otherwise its file (when it has one on
   * disk), then its vector index, then its record and chat turns are removed.
   */
  method DeleteDocument(db: Database, disk: Disk, indexer: DocumentIndexer, documentId: string, removeOk: bool)
    returns (r: DeleteResponse)
    requires indexer.Valid()
    modifies db, disk, indexer.manager
    modifies if documentId in indexer.manager.stores then {indexer.manager.stores[documentId]} else {}
    ensures indexer.Valid()
    ensures old(db.Find(documentId)).None? ==>
      r == DeleteRejected(HttpError(404, "Documento non trovato"))
      && db.documents == old(db.documents) && db.chats == old(db.chats) && disk.files == old(disk.files)
      && indexer.manager.stores == old(indexer.manager.stores)
    ensures old(db.Find(documentId)).Some? ==>
      r == Deleted("Documento '" + old(db.Find(documentId)).value.filename + "' eliminato con successo")
    ensures old(db.Find(documentId)).Some? ==>
      var path := old(db.Find(documentId)).value.filePath;
      disk.files == if path.Some? && path.value != [] then old(disk.files) - {path.value} else old(disk.files)
    ensures old(db.Find(documentId)).Some? ==>
      && indexer.manager.stores == old(indexer.manager.stores) - {documentId}
      && db.documents == WithoutId(old(db.documents), documentId)
      && db.chats == WithoutTurnsOf(old(db.chats), documentId)
  {
    var document := db.Find(documentId);
    if document.None? {
      return DeleteRejected(HttpError(404, "Documento non trovato"));
    }
    var filePath := document.value.filePath;
    if filePath.Some? && filePath.value != [] {
      if filePath.value in disk.files {
        disk.Remove(filePath.value);
      } else {
        assert disk.files - {filePath.value} == disk.files;
      }
    }
    var _ := indexer.DeleteDocumentIndex(documentId, removeOk);
    var success := db.DeleteDocument(documentId);
    if success {
      r := Deleted("Documento '" + document.value.filename + "' eliminato con successo");
    } else {
      r := DeleteRejected(HttpError(500, "Errore eliminazione dal database"));
    }
  }
}

=== FILE: vectorstore.dfy ===
/**
 * The per-document vector stores.  The FAISS index is reduced to the number of vectors it
 * holds; the vectors, their normalisation and the inner products are not modelled.  A search
 * is given the neighbour list the index answers for the request, each neighbour a similarity
 * score and the position of a stored vector, and what is modelled is what the store does with
 * that list: the threshold and bound filter, the projection onto the chunk records, and the
 * stable descending sort.  Writing to and reading from disk are outcomes passed in as
 * parameters.
 */
module VectorStore {
  import opened Wrappers
  import opened Chunking
  import opened Ranking

  /** The dimension a store expects when none is given. */
  const DefaultEmbeddingDim: nat := 384

  /** The shape of an embedding matrix: one row per text, `width` numbers per row. */
  datatype Embeddings = Embeddings(rows: nat, width: nat)

  /** An inner-product index, known by the number of vectors it holds. */
  datatype FlatIndex = FlatIndex(ntotal: nat)

  /** One neighbour reported by the index: a similarity score and the position of the vector. */
  datatype Hit = Hit(score: real, idx: nat)

  /** What the index promises about a neighbour list: at most `want` entries, each a stored position. */
  predicate ValidHits(hits: seq<Hit>, ntotal: nat, want: nat) {
    |hits| <= want && forall j :: 0 <= j < |hits| ==> hits[j].idx < ntotal
  }

  /**
   * The index's neighbour search for one query embedding: given the number of stored
   * vectors and the number of neighbours wanted, the neighbours found, best first.
   */
  type Knn = f: (nat, nat) -> seq<Hit> | forall ntotal: nat, want: nat :: ValidHits(f(ntotal, want), ntotal, want)
    witness NoHits

  function NoHits(ntotal: nat, want: nat): seq<Hit> {
    []
  }

  /** `min(k, ntotal)`: the number of neighbours a search asks for. */
  function Wanted(k: nat, ntotal: nat): (want: nat)
    ensures want <= k && want <= ntotal && (want == k || want == ntotal)
  {
    if k < ntotal then k else ntotal
  }

  datatype SearchResult = SearchResult(chunkMetadata: Chunk, content: string, similarityScore: real, chunkId: nat)

  function ScoreOf(r: SearchResult): real {
    r.similarityScore
  }

  /** The result for a neighbour whose chunk record is `c`. */
  function ResultOf(c: Chunk, score: real): (r: SearchResult)
    ensures r.chunkMetadata == c && r.content == c.content && r.chunkId == c.chunkId && r.similarityScore == score
  {
    SearchResult(c, c.content, score, c.chunkId)
  }

  /** A neighbour is kept when its score reaches the threshold and its position has a chunk record. */
  predicate Passes(h: Hit, metadata: seq<Chunk>, threshold: real) {
    h.score >= threshold && h.idx < |metadata|
  }

  /** The results for the neighbours that pass, in neighbour order. */
  function Kept(hits: seq<Hit>, metadata: seq<Chunk>, threshold: real): (r: seq<SearchResult>)
    ensures |r| <= |hits|
  {
    if hits == [] then []
    else
      var h := hits[|hits| - 1];
      Kept(hits[..|hits| - 1], metadata, threshold)
      + (if Passes(h, metadata, threshold) then [ResultOf(metadata[h.idx], h.score)] else [])
  }

  /**
   * Every kept result reaches the threshold and is the projection of a chunk record, and
   * every neighbour that passes the filter has its result among the kept ones.
   */
  lemma {:induction false} KeptSound(hits: seq<Hit>, metadata: seq<Chunk>, threshold: real)
    ensures forall j :: 0 <= j < |Kept(hits, metadata, threshold)| ==>
      var r := Kept(hits, metadata, threshold)[j];
      && r.similarityScore >= threshold
      && r.chunkMetadata in metadata
      && r.content == r.chunkMetadata.content && r.chunkId == r.chunkMetadata.chunkId
    ensures forall j :: 0 <= j < |hits| && Passes(hits[j], metadata, threshold) ==>
      ResultOf(metadata[hits[j].idx], hits[j].score) in Kept(hits, metadata, threshold)
  {
    if hits != [] {
      var init := hits[..|hits| - 1];
      KeptSound(init, metadata, threshold);
      forall j | 0 <= j < |hits| - 1
        ensures hits[j] == init[j]
      {
      }
    }
  }

  /** The results of a search over a loaded index: the kept results, sorted by descending score. */
  function Ranked(hits: seq<Hit>, metadata: seq<Chunk>, threshold: real): seq<SearchResult> {
    SortDesc(Kept(hits, metadata, threshold), ScoreOf)
  }

  /**
   * A search returns at most as many results as neighbours, all at or above the threshold
   * and taken from the chunk records, sorted by descending score, holding exactly the kept
   * results, with results of equal score in neighbour order.
   */
  lemma RankedCorrect(hits: seq<Hit>, metadata: seq<Chunk>, threshold: real)
    ensures var r := Ranked(hits, metadata, threshold);
      && |r| <= |hits|
      && SortedDesc(r, ScoreOf)
      && multiset(r) == multiset(Kept(hits, metadata, threshold))
      && (forall v :: WithKey(r, ScoreOf, v) == WithKey(Kept(hits, metadata, threshold), ScoreOf, v))
      && (forall x :: x in r ==>
            && x.similarityScore >= threshold && x.chunkMetadata in metadata
            && x.content == x.chunkMetadata.content && x.chunkId == x.chunkMetadata.chunkId)
  {
    var kept := Kept(hits, metadata, threshold);
    SortDescCorrect(kept, ScoreOf);
    KeptSound(hits, metadata, threshold);
    var r := Ranked(hits, metadata, threshold);
    forall x | x in r
      ensures x.similarityScore >= threshold && x.chunkMetadata in metadata
      ensures x.content == x.chunkMetadata.content && x.chunkId == x.chunkMetadata.chunkId
    {
      assert x in multiset(r);
      assert x in multiset(kept);
    }
  }

  /** The search over a store whose index and records are `index` and `metadata`. */
  function StoreSearch(index: Option<FlatIndex>, metadata: seq<Chunk>, k: nat, threshold: real, knn: Knn): seq<SearchResult> {
    if index.None? then []
    else Ranked(knn(index.value.ntotal, Wanted(k, index.value.ntotal)), metadata, threshold)
  }

  /** `get_stats` */
  datatype StoreStats =
    | NotLoaded
    | Loaded(totalChunks: nat, embeddingDimension: nat, indexType: string, metadataCount: nat)

  /** The store of one document: its index, if one is built or loaded, and one chunk record per stored vector. */
  class FaissVectorStore {
    const documentId: string
    const embeddingDim: nat
    var index: Option<FlatIndex>
    var chunksMetadata: seq<Chunk>

    constructor (documentId: string, embeddingDim: nat := DefaultEmbeddingDim)
      ensures this.documentId == documentId && this.embeddingDim == embeddingDim
      ensures index == None && chunksMetadata == []
    {
      this.documentId := documentId;
      this.embeddingDim := embeddingDim;
      index := None;
      chunksMetadata := [];
    }

    /**
     * `create_index`: a matrix of the wrong width is refused and nothing changes; otherwise
     * the index holds the rows and the records are replaced, and the result is whether they
     * were then saved (the new state stays in memory even when saving fails).
     */
    method CreateIndex(embeddings: Embeddings, metadata: seq<Chunk>, saveOk: bool) returns (success: bool)
      modifies this
      ensures embeddings.width != embeddingDim ==> !success && index == old(index) && chunksMetadata == old(chunksMetadata)
      ensures embeddings.width == embeddingDim ==>
        success == saveOk && index == Some(FlatIndex(embeddings.rows)) && chunksMetadata == metadata
    {
      if embeddings.width != embeddingDim {
        return false;
      }
      index := Some(FlatIndex(embeddings.rows));
      chunksMetadata := metadata;
      success := saveOk;
    }

    /** `load_index`: the saved index and records, when both files are there. */
    method LoadIndex(saved: Option<(FlatIndex, seq<Chunk>)>) returns (success: bool)
      modifies this
      ensures success <==> saved.Some?
      ensures saved.None? ==> index == old(index) && chunksMetadata == old(chunksMetadata)
      ensures saved.Some? ==> index == Some(saved.value.0) && chunksMetadata == saved.value.1
    {
      if saved.None? {
        return false;
      }
      index := Some(saved.value.0);
      chunksMetadata := saved.value.1;
      success := true;
    }

    /**
     * `search`: nothing without an index; otherwise the neighbours the index reports for
     * `min(k, ntotal)` requested, filtered, projected and sorted by descending score.
     */
    method Search(k: nat, scoreThreshold: real, knn: Knn) returns (results: seq<SearchResult>)
      ensures results == StoreSearch(index, chunksMetadata, k, scoreThreshold, knn)
      ensures |results| <= k && (index.Some? ==> |results| <= index.value.ntotal)
    {
      if index.None? {
        return [];
      }
      var neighbours := knn(index.value.ntotal, Wanted(k, index.value.ntotal));
      results := [];
      var i := 0;
      while i < |neighbours|
        invariant i <= |neighbours|
        invariant results == Kept(neighbours[..i], chunksMetadata, scoreThreshold)
      {
        var h := neighbours[i];
        assert neighbours[..i + 1][..i] == neighbours[..i];
        if h.score >= scoreThreshold && h.idx < |chunksMetadata| {
          results := results + [ResultOf(chunksMetadata[h.idx], h.score)];
        }
        i := i + 1;
      }
      assert neighbours[..i] == neighbours;
      results := SortDesc(results, ScoreOf);
    }

    /**
     * `add_chunks`: without an index this is `create_index`; otherwise a matrix of the wrong
     * width is refused, and a matching one grows the index by its rows and appends the new
     * records after the old ones.
     */
    method AddChunks(embeddings: Embeddings, metadata: seq<Chunk>, saveOk: bool) returns (success: bool)
      modifies this
      ensures old(index).None? && embeddings.width == embeddingDim ==>
        success == saveOk && index == Some(FlatIndex(embeddings.rows)) && chunksMetadata == metadata
      ensures old(index).Some? && embeddings.width == embeddingDim ==>
        success == saveOk && index == Some(FlatIndex(old(index).value.ntotal + embeddings.rows))
        && chunksMetadata == old(chunksMetadata) + metadata
      ensures embeddings.width != embeddingDim ==> !success && index == old(index) && chunksMetadata == old(chunksMetadata)
    {
      if index.None? {
        success := CreateIndex(embeddings, metadata, saveOk);
        return;
      }
      if embeddings.width != embeddingDim {
        return false;
      }
      index := Some(FlatIndex(index.value.ntotal + embeddings.rows));
      chunksMetadata := chunksMetadata + metadata;
      success := saveOk;
    }

    /**
     * `delete_index`: when the files are removed, the store is emptied and reports that it is
     * not loaded; when removing them fails, nothing in memory changes.
     */
    method DeleteIndex(removeOk: bool) returns (success: bool)
      modifies this
      ensures success == removeOk
      ensures removeOk ==> index == None && chunksMetadata == [] && GetStats() == NotLoaded
      ensures !removeOk ==> index == old(index) && chunksMetadata == old(chunksMetadata)
    {
      if !removeOk {
        return false;
      }
      index := None;
      chunksMetadata := [];
      success := true;
    }

    /** `get_stats`: the vector count, the dimension and the record count of a loaded index. */
    function GetStats(): (s: StoreStats)
      reads this
      ensures s == NotLoaded <==> index.None?
      ensures s.Loaded? ==>
        && s.totalChunks == index.value.ntotal && s.embeddingDimension == embeddingDim
        && s.indexType == "IndexFlatIP" && s.metadataCount == |chunksMetadata|
    {
      if index.None? then NotLoaded
      else Loaded(index.value.ntotal, embeddingDim, "IndexFlatIP", |chunksMetadata|)
    }
  }

  /** The cache gains or replaces the entry under `documentId`; every other entry stays as it was. */
  ghost predicate OnlyEntryChanged(before: map<string, FaissVectorStore>, after: map<string, FaissVectorStore>,
                                   documentId: string) {
    && after.Keys == before.Keys + {documentId}
    && forall id :: id in before && id != documentId ==> after[id] == before[id]
  }

  /** The store holds what was saved for its document: that index and those records, or nothing. */
  ghost predicate HoldsSaved(store: FaissVectorStore, embeddingDim: nat, saved: Option<(FlatIndex, seq<Chunk>)>)
    reads store
  {
    && store.embeddingDim == embeddingDim
    && (saved.None? ==> store.index == None && store.chunksMetadata == [])
    && (saved.Some? ==> store.index == Some(saved.value.0) && store.chunksMetadata == saved.value.1)
  }

  /**
   * The cache after `get_store`: unchanged when the document was cached; otherwise it gains
   * exactly one entry, under the document's id, holding what was saved for the document.
   */
  ghost predicate CachedAfterGet(before: map<string, FaissVectorStore>, after: map<string, FaissVectorStore>,
                                 documentId: string, embeddingDim: nat, saved: Option<(FlatIndex, seq<Chunk>)>)
    reads if documentId in after then {after[documentId]} else {}
  {
    if documentId in before then after == before
    else
      && documentId in after
      && after == before[documentId := after[documentId]]
      && HoldsSaved(after[documentId], embeddingDim, saved)
  }

  /** The statistics of a store freshly loaded from what was saved. */
  function SavedStats(embeddingDim: nat, saved: Option<(FlatIndex, seq<Chunk>)>): (s: StoreStats)
    ensures s == NotLoaded <==> saved.None?
  {
    if saved.None? then NotLoaded
    else Loaded(saved.value.0.ntotal, embeddingDim, "IndexFlatIP", |saved.value.1|)
  }

  /**
   * The cache of stores, one per document id.  Every cached store belongs to the document
   * it is cached under.
   */
  class VectorStoreManager {
    var stores: map<string, FaissVectorStore>

    ghost predicate Valid()
      reads this
    {
      forall id :: id in stores ==> stores[id].documentId == id
    }

    constructor ()
      ensures Valid() && stores == map[]
    {
      stores := map[];
    }

    /**
     * `get_store`: a cached store is returned as it is; on a miss a new store is made, loaded
     * from what was saved for the document, cached and returned.
     */
    method GetStore(documentId: string, embeddingDim: nat, saved: Option<(FlatIndex, seq<Chunk>)>)
      returns (store: FaissVectorStore)
      requires Valid()
      modifies this
      ensures Valid() && store.documentId == documentId
      ensures old(documentId in stores) ==> store == old(stores[documentId]) && stores == old(stores)
      ensures old(documentId !in stores) ==>
        && fresh(store) && stores == old(stores)[documentId := store]
        && store.embeddingDim == embeddingDim
        && (saved.None? ==> store.index == None && store.chunksMetadata == [])
        && (saved.Some? ==> store.index == Some(saved.value.0) && store.chunksMetadata == saved.value.1)
      ensures CachedAfterGet(old(stores), stores, documentId, embeddingDim, saved)
    {
      if documentId !in stores {
        var s := new FaissVectorStore(documentId, embeddingDim);
        var _ := s.LoadIndex(saved);
        stores := stores[documentId := s];
      }
      store := stores[documentId];
    }

    /** `create_store`: a new store for the document, cached only when building its index succeeded. */
    method CreateStore(documentId: string, embeddings: Embeddings, metadata: seq<Chunk>, embeddingDim: nat, saveOk: bool)
      returns (success: bool)
      requires Valid()
      modifies this
      ensures Valid()
      ensures success <==> embeddings.width == embeddingDim && saveOk
      ensures !success ==> stores == old(stores)
      ensures success ==>
        && OnlyEntryChanged(old(stores), stores, documentId)
        && fresh(stores[documentId])
        && stores[documentId].index == Some(FlatIndex(embeddings.rows))
        && stores[documentId].chunksMetadata == metadata
    {
      var store := new FaissVectorStore(documentId, embeddingDim);
      success := store.CreateIndex(embeddings, metadata, saveOk);
      if success {
        stores := stores[documentId := store];
      }
    }

    /**
     * `delete_store`: the document leaves the cache; its files are removed through the cached
     * store, which is emptied, or through a new one when nothing was cached.
     */
    method DeleteStore(documentId: string, removeOk: bool) returns (success: bool)
      requires Valid()
      modifies this, if documentId in stores then {stores[documentId]} else {}
      ensures Valid()
      ensures success == removeOk
      ensures stores == old(stores) - {documentId}
      ensures removeOk && old(documentId in stores) ==> old(stores[documentId]).GetStats() == NotLoaded
    {
      if documentId in stores {
        success := stores[documentId].DeleteIndex(removeOk);
        stores := stores - {documentId};
      } else {
        var store := new FaissVectorStore(documentId);
        success := store.DeleteIndex(removeOk);
      }
    }

    /**
     * What a search of the store `get_store` returns yields, read off the cache before the
     * call: the cached store's search, or the search of a store loaded from what was saved
     * (nothing when nothing was saved).
     */
    function SearchThrough(documentId: string, saved: Option<(FlatIndex, seq<Chunk>)>, k: nat, threshold: real, knn: Knn)
      : seq<SearchResult>
      reads this, stores.Values
    {
      if documentId in stores then StoreSearch(stores[documentId].index, stores[documentId].chunksMetadata, k, threshold, knn)
      else if saved.None? then []
      else StoreSearch(Some(saved.value.0), saved.value.1, k, threshold, knn)
    }

    /** `get_store_stats`: the statistics of the store `get_store` returns. */
    method GetStoreStats(documentId: string, embeddingDim: nat, saved: Option<(FlatIndex, seq<Chunk>)>)
      returns (stats: StoreStats)
      requires Valid()
      modifies this
      ensures Valid()
      ensures old(documentId in stores) ==> stats == old(stores[documentId].GetStats()) && stores == old(stores)
      ensures old(documentId !in stores) ==> stats == SavedStats(embeddingDim, saved)
      ensures CachedAfterGet(old(stores), stores, documentId, embeddingDim, saved)
    {
      var store := GetStore(documentId, embeddingDim, saved);
      stats := store.GetStats();
    }

    /** `cleanup_cache` */
    method CleanupCache()
      modifies this
      ensures Valid() && stores == map[]
    {
      stores := map[];
    }
  }
}

=== FILE: wrappers.dfy ===
/** Failure-carrying values used where the backend returns None, raises, or answers with an HTTP error. */
module Wrappers {

  datatype Option<+T> = None | Some(value: T)

  datatype Result<+T, +E> = Ok(value: T) | Err(error: E)
}
